=== FILE: README.md ===
# ArcEnCiel Link, modelled in Dafny

ArcEnCiel Link is an extension for a Stable Diffusion web UI. It connects the web UI to the
ArcEnCiel model site, takes download jobs from the site's link service and installs the
models into the web UI's model folders. It also reports which model files the machine already
holds (their SHA-256 digests, the "inventory") and guards the web UI's local HTTP endpoints
against foreign browser origins.

This project models the core of that extension and proves properties of the model:

- **The link client** (`client.py`). Its module-level state becomes the class
  `LinkClient.LinkSession`, and each function that updates that state becomes a method:
  credentials, the WebSocket runner, open and close handling, forced reconnects, control
  messages and progress/inventory reports. The pure rules sit in `LinkProtocol`:
  - base-URL normalisation;
  - the WebSocket address;
  - the base64url sub-protocol token, in module `Base64Url`, with a decoder and a round trip;
  - header choice and link-key validation;
  - the `RATE_LIMITED:<n>` close reason;
  - the reconnect back-off.
- **The job worker** (`downloader.py`). The class `Downloader.JobWorker` holds:
  - the worker switch and the known digests;
  - the calls made into the link client (its `outbox`);
  - the progress throttle;
  - a disk, written as a map from directory to files.

  `Triage` makes a job's decisions in the order the worker checks them: a URL, a URL that
  parses, a target folder that resolves, a free file name, free space, already owned. `Carry`, `Install`, `DownloadWithRetry` and `Finish` perform
  them. Change detection for the inventory is `InventorySignature` plus the class
  `InventoryWatcher`. Module `DownloadNames` removes the server's random file-name prefix and
  picks a free name.
- **The model folders** (`utils.py`), in module `Utils`:
  - where a target path lands (`GetModelPath`);
  - which files count as models;
  - the chunked download loop;
  - the digest cache, whose scan reuses digests whose file time has not moved. This is the class
    `Utils.HashIndex`.
- **The origin gateway** (`origins.py`, `pna_middleware.py`): `Origins.NormalizeOrigin` and
  `PnaMiddleware.Dispatch`.

Python's own library pieces that decisions depend on are modelled as far as those decisions
reach:
- `urllib.parse` splitting and hostnames, in module `Urls`;
- `pathlib` names, suffixes and `with_suffix`, and `os.path.splitext`, in module `Paths`;
- `str.strip`, `rstrip` and `replace`, and the rendering of integers, in module `Text`.

Time is an integer parameter in milliseconds. Network traffic becomes recorded events:
- `LinkSession.trace` records what reaches the server;
- `JobWorker.outbox` records what the worker asks the client to send.

The following are parameters:
- file transfers, SHA-256 digests and free-space probes (the `Downloader.Env` value);
- directory listings and `stat` results;
- the IP-literal classification of `ipaddress`;
- the web UI's command-line options, and the result of parsing `COMMANDLINE_ARGS` (which can
  raise);
- percent-decoding of the URL path (`unquote`).

## Model

| member | source | states |
|---|---|---|
| `Base64Url.Utf8` | arcenciel_link/client.py:91 | UTF-8 takes one to four bytes per character |
| `Base64Url.Utf8RoundTrip` | arcenciel_link/client.py:91 | strict UTF-8 decoding gives back every encoded text |
| `Base64Url.Encode` | arcenciel_link/client.py:91-92 | the unpadded URL-safe encoding has length ceil(4n/3) and uses only the RFC 4648 section 5 alphabet |
| `Base64Url.EncodeRoundTrip` | arcenciel_link/client.py:91-92 | decoding the unpadded token gives back every byte string |
| `Text.DecimalInjective` | arcenciel_link/downloader.py:50 | distinct counters print as distinct numerals |
| `Urls.Urlsplit` | arcenciel_link/origins.py:45 | a split result has no params, balanced brackets in the netloc, no `#` before the fragment and no `?` in the path; unbalanced brackets raise |
| `Urls.Urlparse` | arcenciel_link/origins.py:45 | fails exactly when the split fails, and keeps its scheme and netloc |
| `Urls.Urlunparse` | arcenciel_link/client.py:61-62 | a URL rebuilt from a result with a scheme starts with `scheme:` |
| `Urls.UnparseNetlocPath` | arcenciel_link/client.py:61-62 | a result with a netloc, an absolute or empty path and no params, query or fragment is rebuilt as `scheme://netloc` followed by the path |
| `Urls.PlainUrlRoundTrip` | arcenciel_link/client.py:61-62 | `urlunparse` of `urlparse` gives an ordinary `scheme://host/path` back unchanged |
| `Urls.Hostname` | arcenciel_link/origins.py:50 | the hostname is absent exactly when the host part is empty, and has that part's length otherwise |
| `Urls.ParseSchemeHostPath` | arcenciel_link/origins.py:45 | `scheme://host/path` with ordinary characters parses back into exactly those parts |
| `Paths.Name` | arcenciel_link/downloader.py:242-244 | the last component as `pathlib` reads the path (the last of `Parts`), or empty when there is none; it holds no `/` and is never `.`; a plain name is its own name |
| `Paths.Parts` | arcenciel_link/downloader.py:242-244 | the components `pathlib` sees: split at `/`, with empty and `.` components dropped, so none is empty, none is `.` and none holds a `/` |
| `Paths.NameSkipsTrailingSlash` | arcenciel_link/downloader.py:242-244 | a trailing `/` does not change the name |
| `Paths.NameSkipsTrailingDot` | arcenciel_link/downloader.py:242-244 | a trailing `/.` does not change the name: `m.safetensors/.` is named `m.safetensors` |
| `Paths.NameOfJoined` | arcenciel_link/downloader.py:242-244 | a proper name (not empty, not `.`, without `/`) joined under any directory is the name of the result |
| `Paths.Suffix` | arcenciel_link/utils.py:94 | the suffix starts at the last dot, holds no other dot, and is empty for a leading or trailing dot |
| `Paths.WithSuffix` | arcenciel_link/downloader.py:266 | `with_suffix` fails exactly on an empty name |
| `Paths.SplitExt` | arcenciel_link/downloader.py:46 | stem + extension is the name; the extension starts at the last dot, which must follow a non-dot |
| `Paths.Join` | arcenciel_link/utils.py:178 | an empty name leaves the directory, an absolute one replaces it, any other goes under it after a `/` |
| `Paths.TempNameOfNamedFile` | arcenciel_link/downloader.py:266 | `foo.safetensors` downloads into `foo.part`, not into the `foo.safetensors.part` that line 49 checks |
| `DownloadNames.RandomPrefixLength` | arcenciel_link/downloader.py:32-35 | a match of the prefix pattern is digits then `_`, or a UUID then `_` |
| `DownloadNames.Clean` | arcenciel_link/downloader.py:36-37 | the result is a suffix of the name, and what was removed is one random prefix |
| `DownloadNames.CleanNumericPrefix` | arcenciel_link/downloader.py:32-37 | `<digits>_rest` cleans to `rest` |
| `DownloadNames.CleanUuidPrefix` | arcenciel_link/downloader.py:32-37 | `<uuid>_rest` cleans to `rest`, in either letter case |
| `DownloadNames.CleanKeepsPlainName` | arcenciel_link/downloader.py:36-37 | a name without a random prefix is kept |
| `DownloadNames.CleanRemovesOnlyOnePrefix` | arcenciel_link/downloader.py:37 | with `count=1` only one prefix goes: `1_2_x` cleans to `2_x` |
| `DownloadNames.ShortHexPrefixKept` | arcenciel_link/downloader.py:244-245 | the commented example `6588bcd7_foo` is not cleaned by the pattern |
| `DownloadNames.Candidate` | arcenciel_link/downloader.py:46-50 | an alternative name is never empty |
| `DownloadNames.CandidatesDiffer` | arcenciel_link/downloader.py:50 | different counters give different alternative names |
| `DownloadNames.UniqueFilename` | arcenciel_link/downloader.py:45-52 | the result is free (neither it nor its `.part` exists, and it is not empty, `.` or `..`, which name existing directories); it is the name itself if that was free, else the first free `stem_k + ext` |
| `Utils.DownloadFile` | arcenciel_link/utils.py:13-24 | the file holds the chunks in order; with a content length there is one callback per chunk carrying the byte count so far, without one there are none |
| `Utils.DownloadReportsClimbToTotal` | arcenciel_link/utils.py:19-24 | reported counts never go down and never exceed the bytes written; after each report, the bytes not yet counted are exactly those of the later chunks, so the last report counts every byte |
| `Utils.FlattenAppend` | arcenciel_link/utils.py:19-22 | the bytes written for two runs of chunks are those of the first run followed by those of the second |
| `Utils.ModelExtIgnoresCase` | arcenciel_link/utils.py:94 | a name is a model exactly when its lower-cased extension is `.safetensors`, `.ckpt` or `.pt` |
| `Utils.KelvinSignCheckpointIsModel` | arcenciel_link/utils.py:94 | `str.lower` maps the Kelvin sign to `k`, so `x.C\u212APT` is a checkpoint |
| `Utils.NoSuffixNoModel` | arcenciel_link/utils.py:94 | a name without a suffix is never a model |
| `Utils.ModelFiles` | arcenciel_link/utils.py:89-95 | the files kept are exactly the regular files with a model extension that the scan met |
| `Utils.CmdOpts` | arcenciel_link/utils.py:138-161 | the set web UI options win; only when none is set is the command line parsed, and a parse error is raised; unset options stay None |
| `Utils.ModelDirs` | arcenciel_link/utils.py:42-73 | fails exactly when a non-empty command line fails to parse, with that error; otherwise the result is exactly the standard, shared-option and command-line directories that exist |
| `Utils.MatchIndex` | arcenciel_link/utils.py:175-176 | the first prefix the target starts with, none before it |
| `Utils.GetModelPath` | arcenciel_link/utils.py:164-180 | for the first prefix the target starts with, the result is that prefix's folder, joined with the rest of the target after its leading slashes when that rest is not empty; a target matching no prefix lands under the web UI root |
| `Utils.LoraTargetUsesLoraDir` | arcenciel_link/utils.py:168-178 | `models/Lora/<sub>` lands in the configured (or standard) LoRA folder |
| `Utils.LoraPrefixSwallowsLongerName` | arcenciel_link/utils.py:175-178 | the prefix test is `startswith`, so `models/Lorax` lands in the LoRA folder as `x` |
| `Utils.AbsoluteTargetKept` | arcenciel_link/utils.py:175-180 | an absolute target is returned as it is |
| `Utils.ScanKeepsOthers` | arcenciel_link/utils.py:110-121 | a cache entry whose file the scan does not meet is left alone |
| `Utils.ScanReusesFreshEntries` | arcenciel_link/utils.py:113-123 | each file gets its cached digest when the entry's time matches, else a fresh one, and ends with an entry at its current time |
| `Utils.ScanUpdatedIffStale` | arcenciel_link/utils.py:107-121 | the cache is marked changed exactly when some file lacked a fresh entry |
| `Utils.RescanReusesEverything` | arcenciel_link/utils.py:106-123 | scanning the same files again reuses every digest and changes nothing |
| `Utils.Prune` | arcenciel_link/utils.py:125-127 | exactly the entries whose path still exists remain, unchanged |
| `Utils.PruneNothing` | arcenciel_link/utils.py:125-128 | without orphans, pruning keeps the cache |
| `Utils.HashIndex.constructor` | arcenciel_link/utils.py:76-82 | the cache starts as loaded, with no known digests and no writes |
| `Utils.HashIndex.ListModelHashes` | arcenciel_link/utils.py:98-135 | the known set is cleared first; a failed listing raises with the known set empty and nothing written; otherwise the result is one digest per model file in scan order, as the scan specifies, the known set is its digests, and the pruned cache is written exactly when it changed |
| `Origins.ArcencielHostIsDomainOrSubdomain` | arcenciel_link/origins.py:13-16 | an allowed host is the domain itself or a name ending in `.arcenciel.io`, both ways |
| `Origins.LookalikeHostRejected` | arcenciel_link/origins.py:13-16 | `evilarcenciel.io` is not allowed; the domain and a subdomain are |
| `Origins.DotlessNameIsPrivate` | arcenciel_link/origins.py:26-32 | a name that is not an address and has no dot is private |
| `Origins.DottedPublicNameIsNotPrivate` | arcenciel_link/origins.py:26-32 | a dotted name that is not `localhost` and does not end in `.local` or `.lan` is not private, in any letter case |
| `Origins.AddressIsClassifiedByIp` | arcenciel_link/origins.py:23-25 | an IP literal is private exactly when it is a private or loopback address |
| `Origins.AcceptParsed` | arcenciel_link/origins.py:48-59 | an accepted origin is `scheme://netloc` over http(s) with a non-empty host: private under `allow_private`, or an allowed host over https |
| `Origins.NormalizeOrigin` | arcenciel_link/origins.py:41-59 | only a non-empty origin that parses is accepted; without `allow_private` only an https origin on the domain |
| `Origins.DevModeIsMorePermissive` | arcenciel_link/origins.py:53-59 | whatever production accepts, development mode accepts identically |
| `Origins.EmptyOriginRejected` | arcenciel_link/origins.py:42-43 | a missing or empty origin gives None |
| `Origins.OriginHostOfPlainHost` | arcenciel_link/origins.py:50 | the host of an ordinary name is that name lower-cased |
| `Origins.NormalizeViaParse` | arcenciel_link/origins.py:44-59 | once the origin parses, the decision is the one made on its parts |
| `Origins.ArcencielOriginOverHttps` | arcenciel_link/origins.py:55-58 | `https://<name>.arcenciel.io` is echoed as written |
| `Origins.HttpArcencielParsedRefused` | arcenciel_link/origins.py:55-57 | a parsed http origin on the domain is refused unless it counts as private |
| `Origins.ArcencielOriginOverHttpRefused` | arcenciel_link/origins.py:53-57 | `http://<name>.arcenciel.io` is refused unless development mode admits it as private |
| `Origins.ForeignOriginRejected` | arcenciel_link/origins.py:55-59 | in production a host off the domain is refused whatever the scheme |
| `Origins.DevModeAcceptsPrivateHttp` | arcenciel_link/origins.py:53-54 | in development mode a private host is accepted over plain http |
| `PnaMiddleware.AddCorsHeaders` | arcenciel_link/pna_middleware.py:23-31 | an echoed origin sets origin, `Vary` and credentials; otherwise the response keeps its own; methods, headers and max-age are defaults that do not override; private-network is always `true`; other headers are untouched |
| `PnaMiddleware.EchoHeaders` | arcenciel_link/pna_middleware.py:23-26 | an echoed origin sets origin, `Vary` and credentials; every other header, and all of them without an echo, stays as it was |
| `PnaMiddleware.PolicyHeaders` | arcenciel_link/pna_middleware.py:28-31 | methods, headers and max-age keep the response's own value or get the default; private-network is always `true`; every other header stays as it was |
| `PnaMiddleware.Dispatch` | arcenciel_link/pna_middleware.py:12-33 | a refused origin gets 403 without reaching the handler; a preflight gets 204 without it; any other request reaches the handler once; the CORS headers are as `AddCorsHeaders` states |
| `PnaMiddleware.NoOriginNeverRefused` | arcenciel_link/pna_middleware.py:13-16 | a request with no origin, or an empty one, is never refused and nothing is echoed |
| `PnaMiddleware.ProductionEchoesOnlyArcenciel` | arcenciel_link/pna_middleware.py:14-24 | in production every echoed origin is https on the domain |
| `LinkProtocol.AcceptBaseUrl` | arcenciel_link/client.py:58-68 | only http(s) is accepted; http without dev mode is upgraded to `https:`; otherwise the trimmed text is kept; the result never ends in `/` |
| `LinkProtocol.NormaliseBaseUrl` | arcenciel_link/client.py:50-68 | blank input fails with "base_url cannot be empty"; an accepted URL never ends in `/` |
| `LinkProtocol.HttpBaseUpgraded` | arcenciel_link/client.py:50-68 | outside development mode an ordinary `http://host/path` base becomes `https://host/path` with trailing slashes dropped: the host and path survive the upgrade |
| `LinkProtocol.NormaliseParsedHttp` | arcenciel_link/client.py:50-68 | an `http` base with nothing to trim is upgraded to its parsed parts re-assembled under `https`, trailing slashes dropped |
| `LinkProtocol.HttpsRebuilt` | arcenciel_link/client.py:61-68 | the re-assembled `https` URL with trailing slashes dropped is `https://host` followed by the path without its trailing slashes |
| `LinkProtocol.NormaliseParsedBase` | arcenciel_link/client.py:54-68 | once the text parses, its scheme alone chooses between refusal, upgrade and keeping it |
| `LinkProtocol.WsUrl` | arcenciel_link/client.py:113-118 | the WebSocket address ends in `/ws` |
| `LinkProtocol.WsUrlOfHttpsBase` | arcenciel_link/client.py:113-118 | `https://host/path` becomes `wss://host/path/ws`, with trailing slashes dropped |
| `LinkProtocol.WorkerUrl` | arcenciel_link/client.py:510-517 | the runner's address ends in `/ws?mode=worker` |
| `LinkProtocol.EncodeProtocolValue` | arcenciel_link/client.py:88-92 | the token is empty exactly for empty text, uses the base64url alphabet, and decodes back to the text |
| `LinkProtocol.ProtocolCredential` | arcenciel_link/client.py:95-100 | a non-blank link key wins, else a non-blank API key |
| `LinkProtocol.HeaderCredential` | arcenciel_link/client.py:565-570 | a non-empty link key wins, else a non-empty API key |
| `LinkProtocol.WsSubprotocols` | arcenciel_link/client.py:95-100 | None exactly when no key is offered; a chosen link key goes out as `aec-link.link-key.<t>`, a chosen API key as `aec-link.api-key.<t>`, where the token t decodes to that key |
| `LinkProtocol.AuthHeaders` | arcenciel_link/client.py:565-570 | at most one header, carrying the chosen key unchanged |
| `LinkProtocol.RunnerHeaderLines` | arcenciel_link/client.py:511-515 | one `name: value` line per entry of `headers()` |
| `LinkProtocol.SameCredentialOffered` | arcenciel_link/client.py:95-100 | with stripped keys the sub-protocol and the header offer the same key |
| `LinkProtocol.BlankLinkKeyOfferedTwoWays` | arcenciel_link/client.py:565-570 | an unstripped blank link key goes out as the header while the sub-protocol offers the API key |
| `LinkProtocol.SanitizeLinkKey` | arcenciel_link/client.py:178-186 | None stays None; blank gives ""; a key matching `lk_` plus 32 characters is kept stripped; anything else is refused with "Invalid link key format" (all as iffs) |
| `LinkProtocol.WellFormedKeyAccepted` | arcenciel_link/client.py:178-186 | every well-formed key is accepted unchanged |
| `LinkProtocol.NumericKeyRefused` | arcenciel_link/client.py:181-185 | a number pushed as a key is refused |
| `LinkProtocol.RateLimitWait` | arcenciel_link/client.py:351 | the wait is positive: the announced seconds, or 900 when none is readable |
| `LinkProtocol.ParseRetryAfter` | arcenciel_link/client.py:304-312 | a reason not starting with `RATE_LIMITED:` gives 0; a positive wait is read only from decimal digits, with white space around them, after that prefix |
| `LinkProtocol.RetryAfterRoundTrip` | arcenciel_link/client.py:304-312 | `RATE_LIMITED:<n>` is read back as n |
| `LinkProtocol.OtherReasonGivesDefaultWait` | arcenciel_link/client.py:304-312 | any other reason gives the 900-second default |
| `LinkProtocol.BackoffDelay` | arcenciel_link/client.py:548-550 | the delay is `min(10, 2^attempts)` seconds, between 1 and 10 |
| `LinkProtocol.NextAttempts` | arcenciel_link/client.py:551 | the counter grows by one up to 6 |
| `LinkProtocol.AttemptsSaturate` | arcenciel_link/client.py:551 | after k failures the counter is `min(k, 6)` |
| `LinkProtocol.BackoffSchedule` | arcenciel_link/client.py:548-551 | consecutive failures sleep 1, 2, 4 and 8 seconds, then 10 from then on |
| `LinkClient.ClassifyClose` | arcenciel_link/client.py:334-370 | each kind as an iff: the scope-missing reason (whatever the code); otherwise 4401 is unauthorized, 4429 rate-limited with the positive announced wait, 1013 service-disabled; an ordinary close is exactly none of these |
| `LinkClient.RateLimitedCloseWaitsAnnouncedTime` | arcenciel_link/client.py:350-352 | a 4429 close with `RATE_LIMITED:<n>` suspends for exactly n seconds |
| `LinkClient.ReconnectDecision` | arcenciel_link/client.py:694-736 | the client stays paused exactly while a suspension runs; each other action happens only under the condition that checks for it |
| `LinkClient.OpenCleanConnectionPollsOrRefreshes` | arcenciel_link/client.py:724-736 | an open, clean connection is polled when recent and refreshed otherwise |
| `LinkClient.DirtyCredentialsDropConnection` | arcenciel_link/client.py:715-723 | changed credentials drop an open connection however recent it is |
| `LinkClient.EnableFlag` | arcenciel_link/client.py:405-406 | the worker is disabled exactly by `false`, `"false"`, `0` or a zero float (Python's `0.0 == 0`); a missing flag enables |
| `LinkClient.FloatZeroDisables` | arcenciel_link/client.py:405-406 | `0.0` disables; `"0"`, `"False"` and `true` enable |
| `LinkClient.EchoId` | arcenciel_link/client.py:400-403 | the request id is echoed exactly when present |
| `LinkClient.ProgressPayload` | arcenciel_link/client.py:633-637 | the HTTP payload holds exactly the arguments that are not None |
| `LinkClient.PushedApiKey` | arcenciel_link/client.py:231-235 | an absent key keeps the current one, a string is stripped, any other value clears it |
| `LinkClient.LinkSession.constructor` | arcenciel_link/client.py:71-80 | the session starts with the normalised base URL, the configured keys, everything off and an empty trace |
| `LinkClient.LinkSession.NewBaseUrl` | arcenciel_link/client.py:137-147 | a refused or absent base URL leaves the current one; an accepted one replaces it |
| `LinkClient.LinkSession.UpdateCredentials` | arcenciel_link/client.py:121-168 | given keys are stored stripped; a refused base is ignored; a real change marks the credentials dirty and lifts the suspension; nothing else moves |
| `LinkClient.LinkSession.StoreCredentials` | arcenciel_link/client.py:143-168 | the assignments of `update_credentials` once the new base URL is known |
| `LinkClient.LinkSession.SendFrame` | arcenciel_link/client.py:198-209 | a frame is sent only while the socket is open; the session invariant is kept |
| `LinkClient.LinkSession.OnOpen` | arcenciel_link/client.py:286-301 | counters, dirty flag and suspension are reset; the worker state, then a poll, are sent |
| `LinkClient.LinkSession.EnsureSocket` | arcenciel_link/client.py:473-562 | the runner is launched at most once, only when the socket is wanted and not open |
| `LinkClient.LinkSession.SetConnectionEnabled` | arcenciel_link/client.py:658-673 | disabling closes any socket and clears the open flag (and the state unless silent); enabling ensures the runner |
| `LinkClient.LinkSession.OnClose` | arcenciel_link/client.py:315-370 | scope-missing and 4401 block and disable the socket; 4429 suspends for the announced wait; 1013 for 30 s; any other close only marks it disconnected |
| `LinkClient.LinkSession.RunnerTick` | arcenciel_link/client.py:483-517 | a disabled runner drops the socket and sleeps 1 s; a suspended one sleeps `min(remaining, 5 s)`; otherwise it connects with the current credentials |
| `LinkClient.LinkSession.RunnerSessionEnded` | arcenciel_link/client.py:535-553 | the socket is dropped; the sleep is the back-off for the old counter, which then grows |
| `LinkClient.LinkSession.ForceReconnect` | arcenciel_link/client.py:694-736 | acts as `ReconnectDecision` chooses: nothing, enable, ensure the runner, close with the counter reset, poll, or refresh |
| `LinkClient.LinkSession.ReportProgress` | arcenciel_link/client.py:614-643 | on an open socket a progress frame (and a poll after DONE); otherwise a PATCH to `/queue/<id>/progress` with the non-None fields and the auth header |
| `LinkClient.LinkSession.PushInventory` | arcenciel_link/client.py:646-655 | on an open socket an inventory frame, otherwise a POST to `/inventory` |
| `LinkClient.LinkSession.SavePushedKeys` | arcenciel_link/client.py:222-243 | pushed keys are saved to the configuration and, when it changed, applied through `update_credentials`: the in-memory keys become the stripped configured ones and the base URL the configured one re-normalised; the credentials become dirty and the suspension is lifted exactly when that changes them (`KeysSaved`) |
| `LinkClient.LinkSession.SwitchWorker` | arcenciel_link/client.py:245-255 | the worker ends as requested, its flags moved only on a real change; the socket ends enabled, the runner launched when it neither runs nor is connected; starting the worker then reconnects as `ReconnectDecision` chooses (a poll, or a close with the counter reset); the worker state is the last frame sent; credentials and suspension are kept (`WorkerSwitched`) |
| `LinkClient.LinkSession.ApplyWorkerState` | arcenciel_link/client.py:222-257 | a malformed link key is refused before anything changes; otherwise the keys are saved as `SavePushedKeys` states, including the in-memory base URL (`KeysSaved`), the worker and the connection are switched as `SwitchWorker` states, and the running state is returned |
| `LinkClient.LinkSession.HandleControl` | arcenciel_link/client.py:398-454 | `set_worker_state` is answered as `AnswerWorkerState` states; `list_subfolders` answers an unsupported kind, the folders or the error; any other command is acknowledged as unknown; those two change nothing else |
| `LinkClient.LinkSession.AnswerWorkerState` | arcenciel_link/client.py:404-417 | a malformed link key changes nothing and is refused in the acknowledgement; otherwise the keys, base URL, dirty flag and suspension are as `SavePushedKeys` leaves them (`KeysSaved`), the worker is toggled, the runner, the reconnect counter and the whole trace are as `SwitchWorker` leaves them (`WorkerSwitched`), and the acknowledgement (ok, running) is recorded last on an open socket (`WorkerStateAnswered`) |
| `Downloader.BeforeFirst` | arcenciel_link/downloader.py:227 | `split(pat)[0]`: a prefix containing no occurrence, followed by the first occurrence or by nothing |
| `Downloader.SiteRoot` | arcenciel_link/downloader.py:227 | the site root is a prefix of the base URL and does not end in `/` |
| `Downloader.SiteRootOfApiUrl` | arcenciel_link/downloader.py:227 | for `<site>/api/<rest>` the root is `<site>` |
| `Downloader.RawUrl` | arcenciel_link/downloader.py:222 | empty exactly when neither URL is set |
| `Downloader.DownloadUrl` | arcenciel_link/downloader.py:222-232 | no URL exactly when neither is set; an absolute external URL is used as it is; a relative one goes under the site root |
| `Downloader.SyncedAsWritten` | arcenciel_link/downloader.py:82-88 | the known set after `_sync_inventory`: either it is kept or it becomes the digests; when the written test does not skip it is the digests; it always holds every digest |
| `Downloader.PushedAsWritten` | arcenciel_link/downloader.py:82-88 | `_sync_inventory` as written pushes nothing exactly when its skip test fires, and otherwise pushes the digests once |
| `Downloader.SyncedAsWrittenWithoutRepeats` | arcenciel_link/downloader.py:83-88 | without repeated digests the written sync always leaves the known set equal to the digests |
| `Downloader.SkipAsWrittenLeavesStaleDigest` | arcenciel_link/downloader.py:82-88 | a repeated digest makes the written test skip while the known set still holds a vanished model's digest |
| `Downloader.SkipTestsAgreeWithoutRepeats` | arcenciel_link/downloader.py:83-85 | without repeated digests the written test means "the digests are the known set" |
| `Downloader.Clamp` | arcenciel_link/downloader.py:272 | the percentage is clamped to 0..100 and kept when already in range |
| `Downloader.HeldBackReport` | arcenciel_link/downloader.py:276-277 | only a step below 2 points within 1.5 s, strictly between 0 and 100, is held back |
| `Downloader.ShouldReport` | arcenciel_link/downloader.py:274-276 | 0 and 100 always pass the throttle, and so does any step of at least 2 points or 1.5 s since the last report |
| `Downloader.Throttled` | arcenciel_link/downloader.py:268-280 | a run of callbacks sends only progress reports for the job, at most one per callback, each between 0 and 100; the throttle remembers the last percentage it reported, and nothing changes when nothing was reported |
| `Downloader.ThrottledStep` | arcenciel_link/downloader.py:271-280 | one more callback is one more throttle step: reported and remembered exactly when `ShouldReport` lets it through |
| `Downloader.ThrottlePassesEndPoints` | arcenciel_link/downloader.py:274-280 | a last callback at 0 or 100 percent is always the last report, and is remembered with its time |
| `Downloader.AlreadyHave` | arcenciel_link/downloader.py:79-80 | a missing or empty digest is never owned; any other is owned exactly when it is known |
| `Downloader.CleanName` | arcenciel_link/downloader.py:242-245 | the name cleaned is the last component of the unquoted URL path; the result holds no `/`, ends that name, and what was removed is one random prefix |
| `Downloader.LowSpace` | arcenciel_link/downloader.py:64-66 | low exactly when the free bytes are below the minimum times one mebibyte (the floor division does not change the comparison) |
| `Downloader.NamesIn` | arcenciel_link/downloader.py:45-51 | the existence test finds every file of the directory and every directory directly below it; a directory that does not exist and has nothing below it holds nothing |
| `Downloader.WatchDirs` | arcenciel_link/downloader.py:331-344 | no folder is watched exactly when resolving the folder options raises |
| `Downloader.JobWorker.constructor` | arcenciel_link/downloader.py:15-28 | the worker starts stopped, with no known digests and nothing sent |
| `Downloader.JobWorker.Toggle` | arcenciel_link/downloader.py:311-324 | the worker ends as requested; the flags move only on a real change |
| `Downloader.JobWorker.SyncInventoryAsWritten` | arcenciel_link/downloader.py:82-88 | the skip test as written: a skip changes nothing; otherwise the known set becomes the digests and they are pushed |
| `Downloader.JobWorker.SyncInventory` | arcenciel_link/downloader.py:82-88 | afterwards the known set is the digests, and a push is made exactly when it changed |
| `Downloader.JobWorker.OnProgress` | arcenciel_link/downloader.py:271-281 | a clamped percentage is reported and remembered exactly when the throttle lets it through |
| `Downloader.JobWorker.FeedProgress` | arcenciel_link/downloader.py:268-283 | the reports added and the throttle state afterwards are exactly those of `Throttled` over the attempt's callbacks, from the state before; only progress reports for the job are added |
| `Downloader.JobWorker.DownloadWithRetry` | arcenciel_link/downloader.py:91-100 | it stops at the first successful attempt, with that attempt's content in the temporary file; when every attempt fails, the file is gone and the last error is raised; only the temporary file changes |
| `Downloader.JobWorker.Install` | arcenciel_link/downloader.py:263-308 | DOWNLOADING/0 first; an installed file matches the declared digest, came from the first successful attempt and syncs the known set with the cache's digests as `_sync_inventory` is written; an install ends with the inventory push (unless the written skip test fires) and then DONE; all attempts failing ends in ERROR with the last message and no temporary file |
| `Downloader.JobWorker.Finish` | arcenciel_link/downloader.py:285-302 | installed exactly when the temporary file exists and its digest matches; a mismatch removes it and fails with "SHA-256 mismatch"; the file is renamed into place and the known set synced as written; the new calls are exactly the inventory push (unless the written skip test fires) and then DONE |
| `Downloader.JobWorker.Carry` | arcenciel_link/downloader.py:230-308 | every job ends with exactly one final report, DONE or ERROR, as the last call; a URL that does not parse or a target that does not resolve is reported with the error's message; refusals leave the disk alone; refusals and the owned shortcut make no other call and fetch nothing; an install's last calls are the inventory push (unless the written skip test fires) and DONE |
| `Downloader.JobWorker.MakeDir` | arcenciel_link/downloader.py:241 | the directory exists afterwards and existing files are kept |
| `Downloader.JobWorker.ProcessJob` | arcenciel_link/downloader.py:219-308 | the first call for the job is a report about it; the last is its DONE or ERROR; an installed file is on disk with the declared digest |
| `Downloader.JobWorker.WorkerTurn` | arcenciel_link/downloader.py:190-217 | a stopped worker does nothing; a due heartbeat only moves the heartbeat time (it sends nothing, see below); a failed fetch marks the backend down and calls nothing; an empty queue changes nothing else; a job marks the backend up and is processed, its first call a report about it |
| `Downloader.Triage` | arcenciel_link/downloader.py:219-266 | the guards in order, each as an iff: no URL, a URL `urlparse` rejects (its message), a target `get_model_path` rejects (its message), low space, already owned; a fetched job gets the clean name when it is free, else a free alternative, plus its `.part` name |
| `Downloader.TempName` | arcenciel_link/downloader.py:266 | the temporary name is `with_suffix(".part")` of the file name |
| `Downloader.MaxMtime` | arcenciel_link/downloader.py:352-361 | the newest time among the root's and its readable children's, and one of them |
| `Downloader.NewestMtime` | arcenciel_link/downloader.py:354-361 | the loop over the children computes that newest time |
| `Downloader.SignatureEntry` | arcenciel_link/downloader.py:350-366 | a missing root gives 0; a root that cannot be read gives no signature; otherwise the newest time (the root's own when listing fails) |
| `Downloader.InventorySignature` | arcenciel_link/downloader.py:347-367 | no signature exactly when some root cannot be read; otherwise one entry per watched root, as `SignatureEntry` says |
| `Downloader.PrefixLeadsToItsDir` | arcenciel_link/downloader.py:331-344 | each watched prefix leads to its own model folder |
| `Downloader.WatchDirsAreModelDirs` | arcenciel_link/downloader.py:331-344 | the watched folders are exactly the four model folders, configured or standard; when resolving them raises, none is watched |
| `Downloader.InventoryWatcher.constructor` | arcenciel_link/downloader.py:371 | no signature has been acted on yet |
| `Downloader.InventoryWatcher.Tick` | arcenciel_link/downloader.py:370-381 | a missing or unchanged signature does nothing; a new one rescans as `Rescan` states and is remembered; a failed scan is swallowed, leaves the known digests cleared, nothing pushed or saved, and the signature unremembered |
| `Downloader.InventoryWatcher.Rescan` | arcenciel_link/downloader.py:375-377 | a successful scan sets the known set as `_sync_inventory` is written and pushes the digests unless the written test skips; the digest cache is listed, and saved exactly when it changed (`HashIndex.Listed`); a failed listing clears the known digests and pushes and saves nothing |

Where the source and its description differ, the model follows the source:
- The origin gateway has no peer-address check and no same-origin exception. A request without
  an `Origin` header passes whatever its peer (`PnaMiddleware.NoOriginNeverRefused`).
- A 4401 close, or a close whose reason is `LINK_SCOPE_MISSING`, disables the socket. It does not
  stop the job worker.
- A credential change does not reset the reconnect counter itself. It marks the credentials dirty,
  and a later `force_reconnect` on an open socket resets the counter.
- The worker reports 0 % twice at the start of a transfer: once with DOWNLOADING, and once more when
  the first callback is at 0 %.
- `utils.py` defines no `update_cached_hash`, although `downloader.py:13` imports it. Its result,
  the digests on disk after a file is added, is the parameter `Env.updateCachedHash`.
- `_get_model_dirs` always adds the `COMMANDLINE_ARGS` folders (`Utils.ModelDirs`).
  `_cmd_opts` reads them only when the web UI sets none (`Utils.CmdOpts`).
- The downloader imports `BASE_URL` by value. Its `JobWorker.baseUrl` is the base URL as it was
  at import, and later credential updates do not reach it.
- The downloader imports `_sock` by value too, while it is still `None` (`client.py:173`). The
  heartbeat (`downloader.py:55-60`) therefore calls `send` on `None` whenever the socket is
  open, and the `AttributeError` is swallowed. No heartbeat poll is ever sent; only the
  heartbeat time moves (`Downloader.JobWorker.WorkerTurn`).
- When `max_retries` is below one, `_download_with_retry` attempts nothing and returns. Any
  stale temporary file from an earlier run is then installed (`Downloader.JobWorker.Install`).
- The free-name test (`downloader.py:49`) looks at `name + ".part"`. The download goes to
  `with_suffix(".part")` (`Paths.TempNameOfNamedFile`). The temporary file can therefore be the
  `.part` file of another model with the same stem, or the destination itself when the name
  already ends in `.part`.

## Left out

- Threads, locks, events and sleeping. The worker loop, the runner loop and the inventory loop
  are modelled one turn at a time, and the environment drives them. The backoff sleep
  `BACKOFF_BASE ** attempt` plus its random jitter is not modelled. Nor are the job worker's
  pauses: 2 s when the queue is empty, and `SLEEP_AFTER_ERROR` after a failed queue fetch or
  after a job failure caught by the catch-all (no URL, a URL that does not parse, failed
  downloads, a digest mismatch).
- Console and log output (`print`, `_debug`, `_print_progress`, `_set_connection_state`'s
  message). `_display_target` only chooses a label for that output.
- Sidecar files: `_save_preview`, `_write_info_json`, `_write_html` and
  `generate_sidecars_for_existing`. They write files next to an installed model and do not
  affect any decision modelled here. A write error there would turn a completed install into an
  ERROR report; that is not modelled.
- I/O failures that are not part of a modelled decision:
  - an exception from `report_progress` or `push_inventory` themselves;
  - a failing `rename`, `mkdir` or cache write;
  - `save(cfg)` raising inside `_apply_worker_state`;
  - the catch-all in `_inventory_worker` around the rescan.
- `_on_error`, `_on_msg` (JSON parsing and the job queue), `_on_ping`, `check_backend_health`,
  `queue_next_job`'s queue wait, `cancel_job`, `_shutdown` and the signal handlers.
- The close reason arrives as text. Decoding a bytes reason is not modelled.
- An `argparse` usage error in `COMMANDLINE_ARGS` raises `SystemExit` inside `_cmd_opts`
  (`utils.py:151-156`), not `ValueError`. `_cmd_opts` runs in the job worker's and the inventory
  watcher's threads, and no `except Exception` there catches `SystemExit`. The thread then ends
  without a message: the job worker stops taking jobs (or the watcher stops rescanning) for good,
  while the process keeps running. Only the `ValueError` of `shlex.split` (an unclosed quote) is
  modelled, as the error result of the parse parameter.
- `list_subfolders` is a parameter of `HandleControl`.
- `sha256_of_file`, the network transfer, `shutil.disk_usage` and `stat` are parameters of the
  model.
- Floating point:
  - Progress fractions reach `OnProgress` already scaled to integer percent. `download_file`'s
    `done / total` division is not modelled, and `DownloadFile` reports byte counts.
  - Times are integers in milliseconds. Modification times are integers in nanoseconds.
- `LinkProtocol.RateLimitWait`: only a run of decimal digits, with surrounding white space, is read
  as the announced wait. Python's `float()` would also accept signs, decimals and exponents, and
  such a wait is not truncated to whole seconds.
- `Text.Lower`: lowering is modelled for ASCII letters and the Kelvin sign, which Python lowers
  to `k`. Other non-ASCII characters are kept. No other character lowers into ASCII except
  `U+0130`, which lowers to `i` plus a combining dot. Keeping it gives the same answer to every
  equality, suffix and membership test against ASCII text that the model makes.
- `Origins.NormalizeOrigin`: the IP-literal classification is the parameter `ip`. The stripped
  hostname (with any `%zone`) is passed to it as it is.
- `Urls.Urlsplit`: two `ValueError`s of `urlsplit` are not modelled: the validation of a
  bracketed host as an IPv6 or IPvFuture address (`_check_bracketed_host`, Python 3.11.4 and
  later), and the NFKC check on non-ASCII netlocs. Such URLs split here without error.
- `Downloader.DownloadUrl`: a relative URL is joined as `root + "/" + url.lstrip("/")`. The
  dot-segment removal and query handling of `urljoin` are not modelled, nor the `ValueError`
  that `urljoin` itself can raise on a malformed URL.
- `DownloadNames.RandomPrefixLength`: `\d` in a Python `str` pattern matches every Unicode
  decimal digit; the model matches only `0`-`9`, so a prefix such as `\u0663_` is not removed here.
- `DownloadNames.Clean`: follows `DownloadNames.RandomPrefixLength`, so names with a non-ASCII
  digit prefix are kept whole where Python would strip the prefix.
- `Paths.Join`: paths are not normalised. `Path` would also collapse repeated slashes and drop
  `.` components.
- `Downloader.SignatureEntry`: a listing either succeeds or fails before the first child. If it
  fails part-way, the source keeps the newest time seen so far; that case is not modelled.
- `Downloader.InventorySignature`: the source returns sorted `(root, time)` pairs; the model
  returns a map keyed by root. The roots are distinct, so the two compare equal in the same
  cases.
- `Downloader.JobWorker.Install`: the disk's state after an install is stated only as far as the
  destination file and the other directories go. `Downloader.JobWorker.Finish` states the
  directory's full contents.
- `LinkClient.LinkSession.constructor`: requires that the configured base URL normalises. A refused
  one raises at import (`client.py:71`), so no session exists to model.
- `LinkClient.LinkSession.EnsureSocket`: the 0.2-second pause after starting the runner is not
  modelled.
- Python's `str()` of values other than None, booleans, integers and strings enters as text
  carried by the JSON value (`JOther`).

## Findings

| source | as written | input that shows it | evidently intended | confidence | as-written member | corrected member |
|---|---|---|---|---|---|---|
| arcenciel_link/downloader.py:82-88 | `_sync_inventory` skips when `len(hashes)` equals the number of known digests and every digest is known. The list can repeat a digest (two copies of one model). | known `{a, b}`, scan `[a, a]`: the model whose digest was `b` was deleted. The test skips, `b` stays "already owned", later jobs for `b` are answered DONE without a download, and the server is never told. | skip only when the set of digests equals the known set, so that afterwards the known set is always the disk's digests | not executed | `Downloader.JobWorker.SyncInventoryAsWritten`, `Downloader.SkipAsWrittenLeavesStaleDigest` | `Downloader.JobWorker.SyncInventory` |

`Finish` and `InventoryWatcher.Tick` call the sync as written, because that is what the source
does. `Downloader.JobWorker.SyncInventory` is the corrected sync with its property proved.

=== FILE: base64url.dfy ===
/**
 * UTF-8 (RFC 3629) and the URL- and filename-safe base64 alphabet of section 5 of RFC 4648,
 * written without `=` padding: the encoding the link client puts into its WebSocket
 * sub-protocol token.  Each encoder is paired with a decoder and a round-trip lemma.
 */
module Base64Url {
  import opened Wrappers

  type Byte = b: int | 0 <= b < 256
  type Sextet = v: int | 0 <= v < 64

  // ----- UTF-8 -----

  function Utf8Char(c: char): (r: seq<Byte>)
    ensures 1 <= |r| <= 4
    ensures |r| == 1 <==> c as int < 0x80
  {
    var n := c as int;
    if n < 0x80 then [n]
    else if n < 0x800 then [0xC0 + n / 64, 0x80 + n % 64]
    else if n < 0x10000 then [0xE0 + n / 4096, 0x80 + (n / 64) % 64, 0x80 + n % 64]
    else [0xF0 + n / 262144, 0x80 + (n / 4096) % 64, 0x80 + (n / 64) % 64, 0x80 + n % 64]
  }

  /** Python's `s.encode("utf-8")`. */
  function Utf8(s: string): (r: seq<Byte>)
    ensures |s| <= |r| <= 4 * |s|
  {
    if s == [] then [] else Utf8Char(s[0]) + Utf8(s[1..])
  }

  predicate IsContinuation(b: Byte) { 0x80 <= b < 0xC0 }

  /** Builds the character with code point `n`, if `n` is a Unicode scalar value. */
  function ScalarChar(n: int): Option<char> {
    if 0 <= n < 0xD800 || 0xE000 <= n < 0x11_0000 then Some(n as char) else None
  }

  /** Decodes the first character of `b`: the character and how many bytes it took. */
  function Utf8DecodeOne(b: seq<Byte>): Option<(char, nat)>
    requires b != []
  {
    var b0: int := b[0];
    var b1: int := if |b| >= 2 then b[1] else 0;
    var b2: int := if |b| >= 3 then b[2] else 0;
    var b3: int := if |b| >= 4 then b[3] else 0;
    if b0 < 0x80 then Some((b0 as char, 1))
    else if 0xC0 <= b0 < 0xE0 && |b| >= 2 && IsContinuation(b[1]) then
      var n := (b0 - 0xC0) * 64 + (b1 - 0x80);
      if n < 0x80 then None else match ScalarChar(n) { case Some(c) => Some((c, 2)) case None => None }
    else if 0xE0 <= b0 < 0xF0 && |b| >= 3 && IsContinuation(b[1]) && IsContinuation(b[2]) then
      var n := (b0 - 0xE0) * 4096 + (b1 - 0x80) * 64 + (b2 - 0x80);
      if n < 0x800 then None else match ScalarChar(n) { case Some(c) => Some((c, 3)) case None => None }
    else if 0xF0 <= b0 < 0xF8 && |b| >= 4 && IsContinuation(b[1]) && IsContinuation(b[2]) && IsContinuation(b[3]) then
      var n := (b0 - 0xF0) * 262144 + (b1 - 0x80) * 4096 + (b2 - 0x80) * 64 + (b3 - 0x80);
      if n < 0x1_0000 then None else match ScalarChar(n) { case Some(c) => Some((c, 4)) case None => None }
    else None
  }

  /** `bytes.decode("utf-8")` in strict mode: None where Python would raise. */
  function Utf8Decode(b: seq<Byte>): Option<string>
    decreases |b|
  {
    if b == [] then Some([])
    else match Utf8DecodeOne(b)
      case None => None
      case Some((c, k)) =>
        if k == 0 || k > |b| then None
        else match Utf8Decode(b[k..])
          case None => None
          case Some(rest) => Some([c] + rest)
  }

  lemma Utf8CharDecodes(c: char, tail: seq<Byte>)
    ensures Utf8DecodeOne(Utf8Char(c) + tail) == Some((c, |Utf8Char(c)|))
  {
    var n := c as int;
    var b := Utf8Char(c) + tail;
    if n < 0x80 {
    } else if n < 0x800 {
      assert (n / 64) * 64 + n % 64 == n;
    } else if n < 0x1_0000 {
      assert ((n / 64) / 64) * 4096 + ((n / 64) % 64) * 64 + n % 64 == n;
      assert n / 4096 == (n / 64) / 64;
    } else {
      assert n / 262144 == ((n / 64) / 64) / 64;
      assert (n / 4096) == (n / 64) / 64;
      assert (((n / 64) / 64) / 64) * 262144 + (((n / 64) / 64) % 64) * 4096 + ((n / 64) % 64) * 64 + n % 64 == n;
    }
  }

  /** Decoding undoes UTF-8 encoding. */
  lemma {:induction false} Utf8RoundTrip(s: string)
    ensures Utf8Decode(Utf8(s)) == Some(s)
  {
    if s != [] {
      var e := Utf8Char(s[0]);
      Utf8CharDecodes(s[0], Utf8(s[1..]));
      assert Utf8(s) == e + Utf8(s[1..]);
      assert Utf8(s)[|e|..] == Utf8(s[1..]);
      Utf8RoundTrip(s[1..]);
      assert [s[0]] + s[1..] == s;
    }
  }

  // ----- base64url without padding -----

  /** The RFC 4648 section 5 alphabet: A-Z, a-z, 0-9, '-', '_'. */
  function Char64(v: Sextet): char {
    if v < 26 then ('A' as int + v) as char
    else if v < 52 then ('a' as int + (v - 26)) as char
    else if v < 62 then ('0' as int + (v - 52)) as char
    else if v == 62 then '-'
    else '_'
  }

  predicate InAlphabet(c: char) {
    'A' <= c <= 'Z' || 'a' <= c <= 'z' || '0' <= c <= '9' || c == '-' || c == '_'
  }

  function Value64(c: char): Option<Sextet> {
    if 'A' <= c <= 'Z' then Some(c as int - 'A' as int)
    else if 'a' <= c <= 'z' then Some(c as int - 'a' as int + 26)
    else if '0' <= c <= '9' then Some(c as int - '0' as int + 52)
    else if c == '-' then Some(62)
    else if c == '_' then Some(63)
    else None
  }

  lemma Value64OfChar64(v: Sextet)
    ensures InAlphabet(Char64(v)) && Value64(Char64(v)) == Some(v)
  {
  }

  /** Four characters for three bytes. */
  function Quad(b0: Byte, b1: Byte, b2: Byte): string {
    [Char64(b0 / 4), Char64((b0 % 4) * 16 + b1 / 16), Char64((b1 % 16) * 4 + b2 / 64), Char64(b2 % 64)]
  }

  /** `base64.urlsafe_b64encode(b)` with the trailing `=` removed. */
  function Encode(b: seq<Byte>): (r: string)
    ensures |r| == (4 * |b| + 2) / 3
    ensures forall i :: 0 <= i < |r| ==> InAlphabet(r[i])
    decreases |b|
  {
    if |b| >= 3 then
      var q := Quad(b[0], b[1], b[2]);
      Value64OfChar64(b[0] / 4);
      Value64OfChar64((b[0] % 4) * 16 + b[1] / 16);
      Value64OfChar64((b[1] % 16) * 4 + b[2] / 64);
      Value64OfChar64(b[2] % 64);
      q + Encode(b[3..])
    else if |b| == 2 then
      Value64OfChar64(b[0] / 4);
      Value64OfChar64((b[0] % 4) * 16 + b[1] / 16);
      Value64OfChar64((b[1] % 16) * 4);
      [Char64(b[0] / 4), Char64((b[0] % 4) * 16 + b[1] / 16), Char64((b[1] % 16) * 4)]
    else if |b| == 1 then
      Value64OfChar64(b[0] / 4);
      Value64OfChar64((b[0] % 4) * 16);
      [Char64(b[0] / 4), Char64((b[0] % 4) * 16)]
    else []
  }

  function Byte0(v0: Sextet, v1: Sextet): Byte { v0 * 4 + v1 / 16 }
  function Byte1(v1: Sextet, v2: Sextet): Byte { (v1 % 16) * 16 + v2 / 4 }
  function Byte2(v2: Sextet, v3: Sextet): Byte { (v2 % 4) * 64 + v3 }

  /** Decodes unpadded base64url; None for a bad length or a character outside the alphabet. */
  function Decode(s: string): Option<seq<Byte>>
    decreases |s|
  {
    if |s| == 0 then Some([])
    else if |s| == 1 then None
    else if Value64(s[0]).None? || Value64(s[1]).None? then None
    else
      var v0, v1 := Value64(s[0]).value, Value64(s[1]).value;
      if |s| == 2 then Some([Byte0(v0, v1)])
      else if Value64(s[2]).None? then None
      else
        var v2 := Value64(s[2]).value;
        if |s| == 3 then Some([Byte0(v0, v1), Byte1(v1, v2)])
        else if Value64(s[3]).None? then None
        else
          var v3 := Value64(s[3]).value;
          match Decode(s[4..])
          case None => None
          case Some(rest) => Some([Byte0(v0, v1), Byte1(v1, v2), Byte2(v2, v3)] + rest)
  }

  lemma QuadArithmetic(b0: Byte, b1: Byte, b2: Byte)
    ensures Byte0(b0 / 4, (b0 % 4) * 16 + b1 / 16) == b0
    ensures Byte1((b0 % 4) * 16 + b1 / 16, (b1 % 16) * 4 + b2 / 64) == b1
    ensures Byte2((b1 % 16) * 4 + b2 / 64, b2 % 64) == b2
  {
  }

  lemma DecodeQuad(b0: Byte, b1: Byte, b2: Byte, t: string)
    ensures Decode(Quad(b0, b1, b2) + t)
         == match Decode(t) { case None => None case Some(r) => Some([b0, b1, b2] + r) }
  {
    var v0: Sextet, v1: Sextet, v2: Sextet, v3: Sextet := b0 / 4, (b0 % 4) * 16 + b1 / 16, (b1 % 16) * 4 + b2 / 64, b2 % 64;
    var s := Quad(b0, b1, b2) + t;
    Value64OfChar64(v0);
    Value64OfChar64(v1);
    Value64OfChar64(v2);
    Value64OfChar64(v3);
    assert Value64(s[0]) == Some(v0) && Value64(s[1]) == Some(v1);
    assert Value64(s[2]) == Some(v2) && Value64(s[3]) == Some(v3);
    QuadArithmetic(b0, b1, b2);
    assert [Byte0(v0, v1), Byte1(v1, v2), Byte2(v2, v3)] == [b0, b1, b2];
    assert s[4..] == t;
  }

  lemma DecodeTwoBytes(b: seq<Byte>)
    requires |b| == 2
    ensures Decode(Encode(b)) == Some(b)
  {
    var x, y := b[0], b[1];
    var v0: Sextet, v1: Sextet, v2: Sextet := x / 4, (x % 4) * 16 + y / 16, (y % 16) * 4;
    PairArithmetic(x, y);
    Value64OfChar64(v0);
    Value64OfChar64(v1);
    Value64OfChar64(v2);
    var e := [Char64(v0), Char64(v1), Char64(v2)];
    assert Encode(b) == e;
    assert Decode(e) == Some([Byte0(v0, v1), Byte1(v1, v2)]);
    assert [Byte0(v0, v1), Byte1(v1, v2)] == [x, y] == b;
  }

  lemma PairArithmetic(b0: Byte, b1: Byte)
    ensures Byte0(b0 / 4, (b0 % 4) * 16 + b1 / 16) == b0
    ensures Byte1((b0 % 4) * 16 + b1 / 16, (b1 % 16) * 4) == b1
  {
  }

  lemma DecodeOneByte(b: seq<Byte>)
    requires |b| == 1
    ensures Decode(Encode(b)) == Some(b)
  {
    var x := b[0];
    var v0: Sextet, v1: Sextet := x / 4, (x % 4) * 16;
    assert Byte0(v0, v1) == x;
    Value64OfChar64(v0);
    Value64OfChar64(v1);
    var e := [Char64(v0), Char64(v1)];
    assert Encode(b) == e;
    assert Decode(e) == Some([Byte0(v0, v1)]);
    assert [Byte0(v0, v1)] == [x] == b;
  }

  /** The first three bytes come back from their four characters, and the rest from the rest. */
  lemma DecodeGroupThenRest(b: seq<Byte>)
    requires |b| >= 3 && Decode(Encode(b[3..])) == Some(b[3..])
    ensures Decode(Encode(b)) == Some(b)
  {
    var rest := b[3..];
    var e := Encode(rest);
    assert Encode(b) == Quad(b[0], b[1], b[2]) + e;
    DecodeQuad(b[0], b[1], b[2], e);
    assert Decode(Encode(b)) == Some([b[0], b[1], b[2]] + rest);
    FirstThreeThenRest(b);
  }

  lemma FirstThreeThenRest<T>(s: seq<T>)
    requires |s| >= 3
    ensures [s[0], s[1], s[2]] + s[3..] == s
  {
    assert s[..3] == [s[0], s[1], s[2]];
    assert s[..3] + s[3..] == s;
  }

  /** Decoding undoes encoding, for every byte string. */
  lemma {:induction false} EncodeRoundTrip(b: seq<Byte>)
    ensures Decode(Encode(b)) == Some(b)
    decreases |b|
  {
    if |b| >= 3 {
      EncodeRoundTrip(b[3..]);
      DecodeGroupThenRest(b);
    } else if |b| == 2 {
      DecodeTwoBytes(b);
    } else if |b| == 1 {
      DecodeOneByte(b);
    }
  }

  /** Decodes a sub-protocol token back to the text it carries. */
  function DecodeToken(token: string): Option<string> {
    match Decode(token)
    case None => None
    case Some(bytes) => Utf8Decode(bytes)
  }
}

=== FILE: download_names.dfy ===
/**
 * How the worker names a downloaded model: the random prefix the server puts in front of
 * stored file names is removed once, then the name is made unique in the target directory.
 */
module DownloadNames {
  import opened Text
  import opened Paths

  // ----- the random prefix -----

  /** The characters `[0-9a-f]` matches under `re.IGNORECASE`. */
  predicate IsHexChar(c: char) { IsDigit(c) || 'a' <= c <= 'f' || 'A' <= c <= 'F' }

  /** Positions of the four dashes in an 8-4-4-4-12 UUID. */
  predicate IsUuidDash(i: int) { i == 8 || i == 13 || i == 18 || i == 23 }

  /** Text of the shape `xxxxxxxx-xxxx-xxxx-xxxx-xxxxxxxxxxxx` in hexadecimal digits of either case. */
  predicate IsUuid(u: string) {
    |u| == 36 && forall i :: 0 <= i < 36 ==> if IsUuidDash(i) then u[i] == '-' else IsHexChar(u[i])
  }

  /** The number of leading digits. */
  function LeadingDigits(s: string): (n: nat)
    ensures n <= |s| && AllDigits(s[..n])
    ensures forall i :: 0 <= i < n ==> IsDigit(s[i])
    ensures n < |s| ==> !IsDigit(s[n])
  {
    if s != [] && IsDigit(s[0]) then
      var n := 1 + LeadingDigits(s[1..]);
      assert s[..n] == [s[0]] + s[1..][..n - 1];
      n
    else 0
  }

  /** A prefix `_RND_PREFIX` matches: digits then `_`, or a UUID then `_`. */
  predicate IsRandomPrefix(p: string) {
    (|p| >= 2 && AllDigits(p[..|p| - 1]) && p[|p| - 1] == '_') || (|p| == 37 && IsUuid(p[..36]) && p[36] == '_')
  }

  /**
   * The length of the match of `_RND_PREFIX` at the start of `s`, 0 when there is none. The first
   * alternative takes the whole run of digits (backing off cannot put a `_` after fewer of them).
   */
  function RandomPrefixLength(s: string): (n: nat)
    ensures n <= |s|
    ensures n > 0 ==> IsRandomPrefix(s[..n])
  {
    var d := LeadingDigits(s);
    if 0 < d < |s| && s[d] == '_' then
      assert s[..d + 1][..d] == s[..d];
      d + 1
    else if |s| >= 37 && IsUuid(s[..36]) && s[36] == '_' then
      assert s[..37][..36] == s[..36];
      37
    else 0
  }

  /** `_clean`: at most one leading random prefix removed. */
  function Clean(name: string): (r: string)
    ensures |r| <= |name| && name == name[..|name| - |r|] + r
    ensures |r| < |name| ==> IsRandomPrefix(name[..|name| - |r|])
  {
    var n := RandomPrefixLength(name);
    assert name == name[..n] + name[n..];
    name[n..]
  }

  /** A run of digits and `_` is removed, and only that. */
  lemma CleanNumericPrefix(digits: string, rest: string)
    requires digits != [] && AllDigits(digits)
    ensures Clean(digits + "_" + rest) == rest
  {
    var s := digits + "_" + rest;
    assert s[..|digits|] == digits;
    assert LeadingDigits(s) >= |digits| by {
      LeadingDigitsOfDigits(s, |digits|);
    }
    assert s[|digits|] == '_';
    assert s[|digits| + 1..] == rest;
  }

  lemma {:induction false} LeadingDigitsOfDigits(s: string, k: nat)
    requires k <= |s| && AllDigits(s[..k])
    ensures LeadingDigits(s) >= k
  {
    if k > 0 {
      assert IsDigit(s[..k][0]);
      assert s[1..][..k - 1] == s[..k][1..];
      LeadingDigitsOfDigits(s[1..], k - 1);
    }
  }

  /** A UUID and `_` is removed, whatever the case of its hexadecimal digits. */
  lemma CleanUuidPrefix(uuid: string, rest: string)
    requires IsUuid(uuid)
    ensures Clean(uuid + "_" + rest) == rest
  {
    var s := uuid + "_" + rest;
    assert s[..36] == uuid;
    LeadingDigitsBelowUuidDash(s);
    assert s[LeadingDigits(s)] == uuid[LeadingDigits(s)];
    assert s[37..] == rest;
  }

  /** In a UUID the run of leading digits stops at or before the first dash, so it is never followed by `_`. */
  lemma LeadingDigitsBelowUuidDash(s: string)
    requires |s| >= 36 && IsUuid(s[..36])
    ensures LeadingDigits(s) <= 8
  {
    assert s[8] == s[..36][8];
  }

  /** A name without a random prefix is left alone. */
  lemma CleanKeepsPlainName(name: string)
    requires RandomPrefixLength(name) == 0
    ensures Clean(name) == name
  {
  }

  /** Only one prefix goes: `1_2_x` becomes `2_x`, which still starts with a random prefix. */
  lemma CleanRemovesOnlyOnePrefix(rest: string)
    ensures Clean("1_" + "2_" + rest) == "2_" + rest
    ensures Clean(Clean("1_" + "2_" + rest)) == rest
  {
    CleanNumericPrefix("1", "2_" + rest);
    assert "1_" + "2_" + rest == "1" + "_" + ("2_" + rest);
    CleanNumericPrefix("2", rest);
    assert "2_" + rest == "2" + "_" + rest;
  }

  /** An eight-digit hexadecimal prefix such as `6588bcd7_` is neither alternative, so the name is kept. */
  lemma ShortHexPrefixKept(rest: string)
    ensures Clean("6588bcd7_" + rest) == "6588bcd7_" + rest
  {
    var s := "6588bcd7_" + rest;
    assert s[..5] == "6588b";
    assert LeadingDigits(s) == 4 by {
      assert IsDigit(s[0]) && IsDigit(s[1]) && IsDigit(s[2]) && IsDigit(s[3]) && !IsDigit(s[4]);
      assert LeadingDigits(s[4..]) == 0;
      assert s[1..][1..][1..][1..] == s[4..];
    }
    if |s| >= 37 {
      assert s[8] == '_';
      assert !IsUuid(s[..36]);
    }
  }

  // ----- a free name in the target directory -----

  /**
   * The names `_unique_filename` finds in use: those that lead to an existing path (the
   * directory itself for the empty name and `.`, its parent for `..`, or an entry of the
   * directory), and those whose `.part` is an entry.
   */
  predicate Taken(existing: set<string>, candidate: string) {
    candidate == [] || candidate == "." || candidate == ".." || candidate in existing || candidate + ".part" in existing
  }

  /** The `k`-th alternative `_unique_filename` tries: `stem_k` followed by the extension. */
  function Candidate(name: string, k: nat): (c: string)
    ensures c != []
  {
    var parts := SplitExt(if name == [] then "_" else name);
    parts.0 + "_" + Decimal(k) + parts.1
  }

  lemma CandidatesDiffer(name: string, j: nat, k: nat)
    ensures Candidate(name, j) == Candidate(name, k) ==> j == k
  {
    if Candidate(name, j) == Candidate(name, k) {
      var parts := SplitExt(if name == [] then "_" else name);
      var dj, dk := Decimal(j), Decimal(k);
      var cj, ck := parts.0 + "_" + dj + parts.1, parts.0 + "_" + dk + parts.1;
      assert |dj| == |dk|;
      var from := |parts.0| + 1;
      assert cj[from..from + |dj|] == dj;
      assert ck[from..from + |dk|] == dk;
      DecimalInjective(j, k);
    }
  }

  /** The alternatives `stem_1` ... `stem_k`. */
  function Tried(name: string, k: nat): (t: set<string>)
  {
    if k == 0 then {} else Tried(name, k - 1) + {Candidate(name, k)}
  }

  /** A later alternative is none of the earlier ones. */
  lemma {:induction false} NotTried(name: string, k: nat, j: nat)
    requires j > k
    ensures Candidate(name, j) !in Tried(name, k)
  {
    if k > 0 {
      NotTried(name, k - 1, j);
      CandidatesDiffer(name, k, j);
    }
  }

  /** Every name that some existing file blocks, as a finite set. */
  function Blocked(existing: set<string>): set<string> {
    existing + set e | e in existing && EndsWith(e, ".part") :: e[..|e| - 5]
  }

  /** Only finitely many names are taken, so trying ever new ones ends. */
  lemma TakenNamesBounded(existing: set<string>) returns (bound: set<string>)
    ensures forall c :: c != [] && Taken(existing, c) ==> c in bound
  {
    bound := Blocked(existing) + {".", ".."};
    forall c | c != [] && Taken(existing, c) ensures c in bound {
      if c !in existing && c != "." && c != ".." {
        var e := c + ".part";
        assert EndsWith(e, ".part") && e[..|e| - 5] == c;
      }
    }
  }

  /** Passing over a taken alternative takes one more name out of the finite supply of taken ones. */
  lemma PassTakenAlternative(existing: set<string>, name: string, bound: set<string>, k: nat)
    requires k >= 1 && Taken(existing, Candidate(name, k))
    requires forall c :: c != [] && Taken(existing, c) ==> c in bound
    requires forall j :: 1 <= j < k ==> Taken(existing, Candidate(name, j))
    requires Tried(name, k - 1) <= bound
    ensures forall j :: 1 <= j < k + 1 ==> Taken(existing, Candidate(name, j))
    ensures Tried(name, k) <= bound
    ensures |bound - Tried(name, k)| < |bound - Tried(name, k - 1)|
  {
    var c := Candidate(name, k);
    assert c in bound;
    NotTried(name, k - 1, k);
    OneMoreTried(bound, Tried(name, k - 1), c);
  }

  /** Trying one more name of the supply leaves fewer untried. */
  lemma OneMoreTried(bound: set<string>, tried: set<string>, c: string)
    requires c in bound && c !in tried
    ensures |bound - (tried + {c})| < |bound - tried|
  {
    assert bound - (tried + {c}) == (bound - tried) - {c};
  }

  /**
   * `_unique_filename`: `name` when it is free, otherwise the first free `stem_k + ext`,
   * k = 1, 2, ... The loop ends because each alternative it passes is a different blocked name.
   */
  method UniqueFilename(existing: set<string>, name: string) returns (r: string)
    ensures !Taken(existing, r)
    ensures !Taken(existing, name) ==> r == name
    ensures Taken(existing, name) ==>
      (exists k :: k >= 1 && r == Candidate(name, k) && forall j :: 1 <= j < k ==> Taken(existing, Candidate(name, j)))
  {
    var parts := SplitExt(if name == [] then "_" else name);
    r := name;
    if Taken(existing, r) {
      ghost var bound := TakenNamesBounded(existing);
      var idx := 1;
      r := parts.0 + "_" + Decimal(idx) + parts.1;
      while Taken(existing, r)
        invariant idx >= 1 && r == Candidate(name, idx)
        invariant forall j :: 1 <= j < idx ==> Taken(existing, Candidate(name, j))
        invariant Tried(name, idx - 1) <= bound
        decreases |bound - Tried(name, idx - 1)|
      {
        PassTakenAlternative(existing, name, bound, idx);
        idx := idx + 1;
        r := parts.0 + "_" + Decimal(idx) + parts.1;
      }
    }
  }
}

=== FILE: downloader.dfy ===
/**
 * The job worker: what it does with each job the server hands out, how it keeps the set of
 * model digests it owns in step with the disk, and how it throttles progress reports.
 *
 * The worker's calls into the link client (`report_progress`, `push_inventory`) are recorded
 * in its `outbox`; `LinkClient.LinkSession.ReportProgress` and `PushInventory` say how each
 * call reaches the server. The disk is a map from directory to the files in it (name to
 * content); the transfer, the digest and the free-space probe are parameters.
 */
module Downloader {
  import opened Wrappers
  import opened Text
  import opened Paths
  import opened Utils
  import opened DownloadNames
  import Urls

  /** A call the worker makes into the link client. */
  datatype Call =
    | Report(jobId: int, progress: Option<int>, state: Option<string>, message: Option<string>)
    | PushInventory(hashes: seq<string>)

  function Done(jobId: int): Call { Report(jobId, Some(100), Some("DONE"), None) }

  function Failure(jobId: int, message: string): Call { Report(jobId, None, Some("ERROR"), Some(message)) }

  function Progress(jobId: int, pct: int): Call { Report(jobId, Some(pct), None, None) }

  /** `PROGRESS_MIN_STEP` percent and `PROGRESS_MIN_INTERVAL` (1.5 s) in milliseconds. */
  const ProgressMinStep := 2
  const ProgressMinIntervalMs := 1500

  /** One byte short of a mebibyte more and the free-space test rounds down. */
  const Mebibyte := 1024 * 1024

  // ----- the job as the server sends it -----

  /** The parts of a job the worker reads: its id, the version's two URLs, its digest and the target folder. */
  datatype Job = Job(id: int, externalDownloadUrl: Option<string>, filePath: Option<string>, sha256: Option<string>, targetPath: string)

  /** `s.split(pat)[0]`: the text before the first occurrence of `pat`, or all of it. */
  function BeforeFirst(s: string, pat: string): (r: string)
    requires pat != []
    ensures |r| <= |s| && r == s[..|r|]
    ensures |r| < |s| ==> OccursAt(s, pat, |r|)
    ensures forall i :: 0 <= i < |r| ==> !OccursAt(s, pat, i)
    decreases |s|
  {
    if |s| < |pat| then s
    else if s[..|pat|] == pat then []
    else
      var rest := BeforeFirst(s[1..], pat);
      forall i | 1 <= i <= |rest| ensures OccursAt(s, pat, i) <==> OccursAt(s[1..], pat, i - 1) {
        if i + |pat| <= |s| { SliceOfTail(s, i, |pat|); }
      }
      [s[0]] + rest
  }

  lemma SliceOfTail(s: string, i: nat, n: nat)
    requires 1 <= i && i + n <= |s|
    ensures s[i..i + n] == s[1..][i - 1..i - 1 + n]
  {
    var a, b := s[i..i + n], s[1..][i - 1..i - 1 + n];
    assert |a| == |b| == n;
    forall k | 0 <= k < n ensures a[k] == b[k] {
      assert a[k] == s[i + k] && b[k] == s[1..][i - 1 + k];
    }
  }

  /** The site root: `BASE_URL.split("/api/")[0].rstrip("/")`. */
  function SiteRoot(baseUrl: string): (r: string)
    ensures StartsWith(baseUrl, r)
    ensures r == [] || r[|r| - 1] != '/'
  {
    var before := BeforeFirst(baseUrl, "/api/");
    var r := DropWhileEnd(before, c => c == '/');
    assert baseUrl[..|r|] == before[..|r|];
    r
  }

  /** The API sits under `/api/` on the site: the root is the part before it. */
  lemma SiteRootOfApiUrl(site: string, rest: string)
    requires site == [] || site[|site| - 1] != '/'
    requires forall i :: 0 <= i <= |site| ==> !OccursAt(site + "/api/", "/api/", i) || i == |site|
    ensures SiteRoot(site + "/api/" + rest) == site
  {
    var s := site + "/api/" + rest;
    assert OccursAt(s, "/api/", |site|) by { assert s[|site|..|site| + 5] == "/api/"; }
    forall i | 0 <= i < |site| ensures !OccursAt(s, "/api/", i) {
      assert !OccursAt(site + "/api/", "/api/", i);
      if i + 5 <= |s| { assert s[i..i + 5] == (site + "/api/")[i..i + 5]; }
    }
    var before := BeforeFirst(s, "/api/");
    assert |before| <= |site|;
    assert before == site;
  }

  /**
   * The URL the worker fetches: the external URL, else the stored file path (the first that is
   * set and non-empty); one that does not start with `http://` or `https://` is taken relative to
   * the site root. `None` when the job carries neither.
   */
  function DownloadUrl(baseUrl: string, job: Job): (r: Option<string>)
    ensures r.None? <==> !IsSet(job.externalDownloadUrl) && !IsSet(job.filePath)
    ensures r.Some? && IsSet(job.externalDownloadUrl) && IsAbsoluteUrl(job.externalDownloadUrl.value)
      ==> r.value == job.externalDownloadUrl.value
    ensures r.Some? && !IsAbsoluteUrl(RawUrl(job)) ==> StartsWith(r.value, SiteRoot(baseUrl) + "/")
  {
    var raw := RawUrl(job);
    if raw == [] then None
    else if IsAbsoluteUrl(raw) then Some(raw)
    else
      var joined := SiteRoot(baseUrl) + "/" + DropWhile(raw, c => c == '/');
      assert joined[..|SiteRoot(baseUrl) + "/"|] == SiteRoot(baseUrl) + "/";
      Some(joined)
  }

  /** `ver.get("externalDownloadUrl") or ver.get("filePath")`, with a missing value as the empty text. */
  function RawUrl(job: Job): (r: string)
    ensures r == [] <==> !IsSet(job.externalDownloadUrl) && !IsSet(job.filePath)
  {
    if IsSet(job.externalDownloadUrl) then job.externalDownloadUrl.value
    else if IsSet(job.filePath) then job.filePath.value
    else []
  }

  predicate IsAbsoluteUrl(u: string) { StartsWith(u, "http://") || StartsWith(u, "https://") }

  /** `_already_have`: a digest the worker already owns; a missing or empty digest never is. */
  predicate AlreadyHave(known: set<string>, sha: Option<string>)
    ensures sha.None? || sha == Some("") ==> !AlreadyHave(known, sha)
    ensures sha.Some? && sha.value != [] ==> (AlreadyHave(known, sha) <==> sha.value in known)
  {
    IsSet(sha) && sha.value in known
  }

  /** The skip test `_sync_inventory` is written with: as many digests as known ones, all of them known. */
  predicate SkipsAsWritten(known: set<string>, hashes: seq<string>) {
    |hashes| == |known| && forall h :: h in hashes ==> h in known
  }

  /**
   * The known set after `_sync_inventory` as written: kept when its test skips, the digests
   * otherwise. Either way every digest on disk is known afterwards; stale ones may remain.
   */
  function SyncedAsWritten(known: set<string>, hashes: seq<string>): (r: set<string>)
    ensures !SkipsAsWritten(known, hashes) ==> r == set h | h in hashes
    ensures forall h :: h in hashes ==> h in r
    ensures r == known || r == set h | h in hashes
  {
    if SkipsAsWritten(known, hashes) then known else set h | h in hashes
  }

  /** The calls `_sync_inventory` as written makes: one inventory push unless its skip test fires. */
  function PushedAsWritten(known: set<string>, hashes: seq<string>): (r: seq<Call>)
    ensures r == [] <==> SkipsAsWritten(known, hashes)
    ensures forall c :: c in r ==> c == PushInventory(hashes)
    ensures |r| <= 1
  {
    if SkipsAsWritten(known, hashes) then [] else [PushInventory(hashes)]
  }

  /** Without repeated digests the known set as written ends equal to the digests on disk. */
  lemma SyncedAsWrittenWithoutRepeats(known: set<string>, hashes: seq<string>)
    requires forall i, j :: 0 <= i < j < |hashes| ==> hashes[i] != hashes[j]
    ensures SyncedAsWritten(known, hashes) == set h | h in hashes
  {
    SkipTestsAgreeWithoutRepeats(known, hashes);
  }

  /** With a repeated digest the written test skips although the disk lost a model. */
  lemma SkipAsWrittenLeavesStaleDigest()
    ensures SkipsAsWritten({"a", "b"}, ["a", "a"])
    ensures {"a", "b"} != set h | h in ["a", "a"]
    ensures AlreadyHave(SyncedAsWritten({"a", "b"}, ["a", "a"]), Some("b")) && "b" !in ["a", "a"]
  {
    assert "b" in {"a", "b"} && "b" != "a";
    assert |{"a", "b"}| == 2;
  }

  /** Without repeated digests the written test is exactly "the digests are the known set". */
  lemma SkipTestsAgreeWithoutRepeats(known: set<string>, hashes: seq<string>)
    requires forall i, j :: 0 <= i < j < |hashes| ==> hashes[i] != hashes[j]
    ensures SkipsAsWritten(known, hashes) <==> known == set h | h in hashes
  {
    DistinctCount(hashes);
    var s := set h | h in hashes;
    if SkipsAsWritten(known, hashes) {
      assert s <= known;
      SubsetSameSize(s, known);
    }
  }

  lemma {:induction false} DistinctCount(hashes: seq<string>)
    requires forall i, j :: 0 <= i < j < |hashes| ==> hashes[i] != hashes[j]
    ensures |set h | h in hashes| == |hashes|
  {
    if hashes != [] {
      var init := hashes[..|hashes| - 1];
      var last := hashes[|hashes| - 1];
      DistinctCount(init);
      assert (set h | h in hashes) == (set h | h in init) + {last};
      assert last !in init;
    }
  }

  lemma SubsetSameSize(a: set<string>, b: set<string>)
    requires a <= b && |a| == |b|
    ensures a == b
  {
    assert b == a + (b - a);
    assert a * (b - a) == {};
    assert |b - a| == 0;
  }

  /** `max(0, min(100, pct))`. */
  function Clamp(pct: int): (r: int)
    ensures 0 <= r <= 100
    ensures 0 <= pct <= 100 ==> r == pct
    ensures pct < 0 ==> r == 0
    ensures pct > 100 ==> r == 100
  {
    if pct < 0 then 0 else if pct > 100 then 100 else pct
  }

  /** When `_progress_cb` passes a value on: an end point, a big enough step, or enough time since the last report. */
  predicate ShouldReport(pct: int, lastPct: int, elapsedMs: int)
    ensures pct == 0 || pct == 100 ==> ShouldReport(pct, lastPct, elapsedMs)
    ensures pct - lastPct >= 2 || elapsedMs >= 1500 ==> ShouldReport(pct, lastPct, elapsedMs)
  {
    pct == 0 || pct == 100 || pct - lastPct >= ProgressMinStep || elapsedMs >= ProgressMinIntervalMs
  }

  /** The throttle's memory between callbacks: the last reported percentage and its time. */
  datatype ThrottleState = ThrottleState(lastPct: int, lastTs: int)

  /**
   * A run of `_progress_cb` calls (raw percentage, time) from the state `st`: the state
   * afterwards and the progress reports sent, in order. Each call clamps its percentage and
   * reports it when `ShouldReport` lets it through, which then becomes the remembered state.
   * The throttle always remembers the last percentage it reported.
   */
  function Throttled(jobId: int, st: ThrottleState, progress: seq<(int, int)>): (r: (ThrottleState, seq<Call>))
    ensures ProgressOnly(r.1, jobId) && |r.1| <= |progress|
    ensures forall i :: 0 <= i < |r.1| ==> r.1[i].progress.Some? && 0 <= r.1[i].progress.value <= 100
    ensures r.1 == [] ==> r.0 == st
    ensures r.1 != [] ==> r.1[|r.1| - 1] == Progress(jobId, r.0.lastPct)
    decreases |progress|
  {
    if progress == [] then (st, [])
    else
      var prev := Throttled(jobId, st, progress[..|progress| - 1]);
      var pct := Clamp(progress[|progress| - 1].0);
      var now := progress[|progress| - 1].1;
      if ShouldReport(pct, prev.0.lastPct, now - prev.0.lastTs) then
        (ThrottleState(pct, now), prev.1 + [Progress(jobId, pct)])
      else prev
  }

  /** One more callback: `Throttled` of a longer run is one throttle step after the shorter run. */
  lemma ThrottledStep(jobId: int, st: ThrottleState, progress: seq<(int, int)>, i: nat)
    requires i < |progress|
    ensures var prev := Throttled(jobId, st, progress[..i]);
      var pct := Clamp(progress[i].0);
      Throttled(jobId, st, progress[..i + 1]) ==
        if ShouldReport(pct, prev.0.lastPct, progress[i].1 - prev.0.lastTs)
        then (ThrottleState(pct, progress[i].1), prev.1 + [Progress(jobId, pct)])
        else prev
  {
    assert progress[..i + 1][..i] == progress[..i];
  }

  /** Whatever was sent before, a run of callbacks appends progress reports for the job only. */
  lemma ThrottledAppendsProgress(before: seq<Call>, jobId: int, st: ThrottleState, progress: seq<(int, int)>)
    ensures ProgressAppended(before, before + Throttled(jobId, st, progress).1, jobId)
  {
    var sent := Throttled(jobId, st, progress).1;
    assert (before + sent)[|before|..] == sent;
  }

  /** The end points always get through: a last callback at 0 or 100 percent is the last report. */
  lemma ThrottlePassesEndPoints(jobId: int, st: ThrottleState, progress: seq<(int, int)>)
    requires progress != [] && Clamp(progress[|progress| - 1].0) in {0, 100}
    ensures var r := Throttled(jobId, st, progress);
      r.1 != [] && r.1[|r.1| - 1] == Progress(jobId, Clamp(progress[|progress| - 1].0))
      && r.0 == ThrottleState(Clamp(progress[|progress| - 1].0), progress[|progress| - 1].1)
  {
  }

  /** A report is held back only between the end points, for a small step within a short time. */
  lemma HeldBackReport(pct: int, lastPct: int, elapsedMs: int)
    requires 0 <= pct <= 100 && !ShouldReport(pct, lastPct, elapsedMs)
    ensures 0 < pct < 100 && pct < lastPct + 2 && elapsedMs < 1500
  {
  }

  /** `str(n)` for any integer. */
  function IntText(n: int): (r: string)
    ensures r != []
  {
    if n < 0 then "-" + Decimal(-n) else Decimal(n)
  }

  /** What one transfer attempt did: the progress it reported (percent, time) and how it ended. */
  datatype Attempt = Attempt(progress: seq<(int, int)>, outcome: Result<string>)

  /** The world the worker runs in: folders, the transfer, the digest, the free-space probe. */
  datatype Env = Env(
    root: string,
    /** What `_cmd_opts()` gives, or the `ValueError` it raises parsing `COMMANDLINE_ARGS`. */
    opts: Result<DirOpts>,
    /** `unquote`: the percent-decoding of a URL path. */
    unquote: string -> string,
    /** Free bytes on the file system holding a directory. */
    freeBytes: string -> int,
    /** The `k`-th attempt at fetching a URL. */
    transfer: (string, nat) -> Attempt,
    sha256: string -> string,
    /** `update_cached_hash(path, digest)`: the digests of the models on disk afterwards. */
    updateCachedHash: (string, string) -> seq<string>)

  /** How one job ended. */
  datatype JobOutcome = Failed(message: string) | AlreadyOwned | Installed(dir: string, name: string)

  /** The same directories, and every one but `dir` with the same files. */
  predicate SameElsewhere(before: map<string, map<string, string>>, after: map<string, map<string, string>>, dir: string) {
    dir in before && after.Keys == before.Keys && forall d :: d in before && d != dir ==> after[d] == before[d]
  }

  /** The disk is unchanged except, possibly, for one file of one existing directory. */
  predicate OnlyFileChanged(before: map<string, map<string, string>>, after: map<string, map<string, string>>, dir: string, name: string) {
    SameElsewhere(before, after, dir) && after[dir] - {name} == before[dir] - {name}
  }

  lemma SameElsewhereTrans(a: map<string, map<string, string>>, b: map<string, map<string, string>>, c: map<string, map<string, string>>, dir: string)
    requires SameElsewhere(a, b, dir) && SameElsewhere(b, c, dir)
    ensures SameElsewhere(a, c, dir)
  {
  }

  lemma FileChangeSame(disk: map<string, map<string, string>>, dir: string, name: string)
    requires dir in disk
    ensures OnlyFileChanged(disk, disk, dir, name)
  {
  }

  lemma FileChangePut(disk: map<string, map<string, string>>, dir: string, name: string, content: string)
    requires dir in disk
    ensures OnlyFileChanged(disk, disk[dir := disk[dir][name := content]], dir, name)
  {
    assert disk[dir][name := content] - {name} == disk[dir] - {name};
  }

  lemma FileChangeRemove(disk: map<string, map<string, string>>, dir: string, name: string)
    requires dir in disk
    ensures OnlyFileChanged(disk, disk[dir := disk[dir] - {name}], dir, name)
  {
    assert disk[dir] - {name} - {name} == disk[dir] - {name};
  }

  lemma FileChangeTrans(a: map<string, map<string, string>>, b: map<string, map<string, string>>, c: map<string, map<string, string>>, dir: string, name: string)
    requires OnlyFileChanged(a, b, dir, name) && OnlyFileChanged(b, c, dir, name)
    ensures OnlyFileChanged(a, c, dir, name)
  {
  }

  /** Every call is a progress report for the job. */
  predicate ProgressOnly(calls: seq<Call>, jobId: int) {
    forall i :: 0 <= i < |calls| ==> calls[i].Report? && calls[i].jobId == jobId && calls[i].state.None?
  }

  /** `after` is `before` followed by progress reports for the job only. */
  predicate ProgressAppended(before: seq<Call>, after: seq<Call>, jobId: int) {
    before <= after && ProgressOnly(after[|before|..], jobId)
  }

  lemma ProgressAppendedTrans(a: seq<Call>, b: seq<Call>, c: seq<Call>, jobId: int)
    requires ProgressAppended(a, b, jobId) && ProgressAppended(b, c, jobId)
    ensures ProgressAppended(a, c, jobId)
  {
    assert c[|a|..] == b[|a|..] + c[|b|..];
  }

  class JobWorker {
    /** The `RUNNING` event. */
    var running: bool
    var backendOk: bool
    var userDisabled: bool
    /** `KNOWN_HASHES`. */
    var known: set<string>
    var outbox: seq<Call>
    /** The throttle's last reported percentage and its time, in milliseconds. */
    var lastPct: int
    var lastTs: int
    var disk: map<string, map<string, string>>
    /** The worker loop's `last_hb`, in milliseconds. */
    var lastHeartbeat: int
    /** `BASE_URL` as the downloader imported it, and the `min_free_mb` and `max_retries` settings. */
    const baseUrl: string
    const minFreeMb: int
    const maxRetries: int

    constructor (baseUrl: string, minFreeMb: int, maxRetries: int, disk: map<string, map<string, string>>)
      ensures !running && !backendOk && !userDisabled && known == {} && outbox == [] && lastHeartbeat == 0
      ensures this.baseUrl == baseUrl && this.minFreeMb == minFreeMb && this.maxRetries == maxRetries && this.disk == disk
    {
      running, backendOk, userDisabled := false, false, false;
      known, outbox := {}, [];
      lastPct, lastTs, lastHeartbeat := 0, 0, 0;
      this.baseUrl, this.minFreeMb, this.maxRetries, this.disk := baseUrl, minFreeMb, maxRetries, disk;
    }

    /** The worker ends in the requested state; the backend and user flags move only on a real change. */
    twostate predicate ToggledTo(enable: bool)
      reads this
    {
      && running == enable
      && (old(running) != enable ==> backendOk == enable && userDisabled == !enable)
      && (old(running) == enable ==> backendOk == old(backendOk) && userDisabled == old(userDisabled))
    }

    /** `toggle_worker`. */
    method Toggle(enable: bool)
      modifies this`running, this`backendOk, this`userDisabled
      ensures ToggledTo(enable)
    {
      if enable && !running {
        userDisabled := false;
        running := true;
        backendOk := true;
      } else if !enable && running {
        userDisabled := true;
        running := false;
        backendOk := false;
      }
    }

    /** `_sync_inventory` as written: it can skip although the digests differ from the known set. */
    method SyncInventoryAsWritten(hashes: seq<string>)
      modifies this`known, this`outbox
      ensures known == SyncedAsWritten(old(known), hashes)
      ensures outbox == old(outbox) + PushedAsWritten(old(known), hashes)
    {
      if |hashes| == |known| && forall h :: h in hashes ==> h in known {
        return;
      }
      known := set h | h in hashes;
      outbox := outbox + [PushInventory(hashes)];
    }

    /** `_sync_inventory`, skipping only when the digests are the known set: afterwards they always are. */
    method SyncInventory(hashes: seq<string>)
      modifies this`known, this`outbox
      ensures known == set h | h in hashes
      ensures outbox == old(outbox) + (if old(known) == known then [] else [PushInventory(hashes)])
    {
      var digests := set h | h in hashes;
      if digests == known {
        return;
      }
      known := digests;
      outbox := outbox + [PushInventory(hashes)];
    }

    /** `_progress_cb`: the percentage is clamped, and reported only when the throttle lets it through. */
    method OnProgress(jobId: int, rawPct: int, now: int)
      modifies this`lastPct, this`lastTs, this`outbox
      ensures var pct := Clamp(rawPct);
        if ShouldReport(pct, old(lastPct), now - old(lastTs))
        then lastPct == pct && lastTs == now && outbox == old(outbox) + [Progress(jobId, pct)]
        else lastPct == old(lastPct) && lastTs == old(lastTs) && outbox == old(outbox)
    {
      var pct := Clamp(rawPct);
      var delta := pct - lastPct;
      var elapsed := now - lastTs;
      if pct != 0 && pct != 100 && delta < ProgressMinStep && elapsed < ProgressMinIntervalMs {
        return;
      }
      lastPct, lastTs := pct, now;
      outbox := outbox + [Progress(jobId, pct)];
    }

    /** The callbacks of one attempt, in order, each through `OnProgress`'s throttle. */
    method FeedProgress(jobId: int, progress: seq<(int, int)>)
      modifies this`lastPct, this`lastTs, this`outbox
      ensures var r := Throttled(jobId, ThrottleState(old(lastPct), old(lastTs)), progress);
        lastPct == r.0.lastPct && lastTs == r.0.lastTs && outbox == old(outbox) + r.1
      ensures ProgressAppended(old(outbox), outbox, jobId)
    {
      ghost var start := ThrottleState(lastPct, lastTs);
      for i := 0 to |progress|
        invariant var r := Throttled(jobId, start, progress[..i]);
          lastPct == r.0.lastPct && lastTs == r.0.lastTs && outbox == old(outbox) + r.1
      {
        ghost var before := outbox;
        ghost var prev := Throttled(jobId, start, progress[..i]).1;
        OnProgress(jobId, progress[i].0, progress[i].1);
        ThrottledStep(jobId, start, progress, i);
        assert outbox == before || outbox == before + [Progress(jobId, Clamp(progress[i].0))];
        assert before + [Progress(jobId, Clamp(progress[i].0))] == old(outbox) + (prev + [Progress(jobId, Clamp(progress[i].0))]);
      }
      assert progress[..|progress|] == progress;
      ThrottledAppendsProgress(old(outbox), jobId, start, progress);
    }

    /**
     * `_download_with_retry`: at most `max_retries` attempts, stopping at the first that succeeds
     * (`Ok(Some(k))`, its content in the temporary file); every failed attempt removes the
     * temporary file, and when the last one fails its error is the result. With fewer than one
     * retry allowed, nothing is attempted (`Ok(None)`).
     */
    method DownloadWithRetry(jobId: int, url: string, dir: string, tmp: string, transfer: (string, nat) -> Attempt)
      returns (r: Result<Option<nat>>)
      requires dir in disk
      modifies this`lastPct, this`lastTs, this`outbox, this`disk
      ensures OnlyFileChanged(old(disk), disk, dir, tmp)
      ensures r.Ok? && r.value.Some? ==>
        var k := r.value.value;
        1 <= k <= maxRetries && transfer(url, k).outcome.Ok? && tmp in disk[dir] && disk[dir][tmp] == transfer(url, k).outcome.value
        && forall j :: 1 <= j < k ==> transfer(url, j).outcome.Err?
      ensures r == Ok(None) <==> maxRetries < 1
      ensures r == Ok(None) ==> disk == old(disk)
      ensures r.Err? ==> maxRetries >= 1 && tmp !in disk[dir] && (forall j :: 1 <= j <= maxRetries ==> transfer(url, j).outcome.Err?)
      ensures r.Err? ==> transfer(url, maxRetries).outcome.Err? && r.error == transfer(url, maxRetries).outcome.error
      ensures ProgressAppended(old(outbox), outbox, jobId)
    {
      if maxRetries < 1 {
        return Ok(None);
      }
      FileChangeSame(disk, dir, tmp);
      var attempt := 1;
      while true
        invariant 1 <= attempt <= maxRetries
        invariant OnlyFileChanged(old(disk), disk, dir, tmp) && (attempt > 1 ==> tmp !in disk[dir])
        invariant forall j :: 1 <= j < attempt ==> transfer(url, j).outcome.Err?
        invariant ProgressAppended(old(outbox), outbox, jobId)
        decreases maxRetries - attempt
      {
        var a := transfer(url, attempt);
        ghost var before := outbox;
        FeedProgress(jobId, a.progress);
        ProgressAppendedTrans(old(outbox), before, outbox, jobId);
        ghost var disk0 := disk;
        if a.outcome.Ok? {
          disk := disk[dir := disk[dir][tmp := a.outcome.value]];
          FileChangePut(disk0, dir, tmp, a.outcome.value);
          FileChangeTrans(old(disk), disk0, disk, dir, tmp);
          return Ok(Some(attempt));
        }
        disk := disk[dir := disk[dir] - {tmp}];
        FileChangeRemove(disk0, dir, tmp);
        FileChangeTrans(old(disk), disk0, disk, dir, tmp);
        if attempt == maxRetries {
          return Err(a.outcome.error);
        }
        attempt := attempt + 1;
      }
    }

    /**
     * The install half of the job pipeline: DOWNLOADING/0 and a fresh throttle, the transfer into
     * the temporary file, then `Finish`. A transfer that fails on every attempt ends in one ERROR
     * report carrying the last attempt's message, with no temporary file left behind.
     */
    method Install(jobId: int, url: string, dir: string, dst: string, tmp: string, declared: Option<string>, env: Env, now: int)
      returns (outcome: JobOutcome)
      requires dir in disk
      modifies this`lastPct, this`lastTs, this`outbox, this`disk, this`known
      ensures outcome.Failed? || outcome == Installed(dir, dst)
      ensures old(outbox) + [Report(jobId, Some(0), Some("DOWNLOADING"), None)] < outbox
      ensures outcome.Failed? ==> outbox[|outbox| - 1] == Failure(jobId, outcome.message) && known == old(known)
      ensures outcome.Installed? ==> outbox[|outbox| - 1] == Done(jobId)
      ensures SameElsewhere(old(disk), disk, dir)
      ensures outcome.Failed? ==> tmp !in disk[dir]
      ensures outcome.Installed? ==> dst in disk[dir]
      ensures outcome.Installed? && IsSet(declared) ==> env.sha256(disk[dir][dst]) == declared.value
      ensures outcome.Installed? ==> known == SyncedAsWritten(old(known), env.updateCachedHash(Join(dir, dst), env.sha256(disk[dir][dst])))
      ensures outcome.Installed? ==>
        var hashes := env.updateCachedHash(Join(dir, dst), env.sha256(disk[dir][dst]));
        var done := PushedAsWritten(old(known), hashes) + [Done(jobId)];
        |outbox| >= |old(outbox)| + 1 + |done| && outbox[|outbox| - |done|..] == done
      ensures outcome.Installed? && maxRetries >= 1 ==>
        exists k :: 1 <= k <= maxRetries && env.transfer(url, k).outcome == Ok(disk[dir][dst])
          && forall j :: 1 <= j < k ==> env.transfer(url, j).outcome.Err?
      ensures outcome.Installed? && maxRetries < 1 ==> tmp in old(disk)[dir] && disk[dir][dst] == old(disk)[dir][tmp]
      ensures maxRetries >= 1 && (forall j :: 1 <= j <= maxRetries ==> env.transfer(url, j).outcome.Err?) ==>
        env.transfer(url, maxRetries).outcome.Err? && outcome == Failed(env.transfer(url, maxRetries).outcome.error)
    {
      outbox := outbox + [Report(jobId, Some(0), Some("DOWNLOADING"), None)];
      ghost var started := outbox;
      lastPct, lastTs := 0, now;
      var r := DownloadWithRetry(jobId, url, dir, tmp, env.transfer);
      ghost var fetched := disk;
      assert outbox[..|started|] == started;
      assert SameElsewhere(old(disk), fetched, dir) && known == old(known);
      if r.Err? {
        outbox := outbox + [Failure(jobId, r.error)];
        return Failed(r.error);
      }
      outcome := Finish(jobId, dir, dst, tmp, declared, env);
      SameElsewhereTrans(old(disk), fetched, disk, dir);
      if r.value.Some? {
        var k := r.value.value;
        assert 1 <= k <= maxRetries && env.transfer(url, k).outcome == Ok(fetched[dir][tmp]);
        assert outcome.Installed? ==> disk[dir][dst] == fetched[dir][tmp];
      } else {
        assert fetched == old(disk) && maxRetries < 1;
      }
      assert outbox[..|started|] == started;
    }

    /**
     * After the transfer: a missing temporary file fails as hashing it would; a declared digest that
     * differs from the file's removes the file and fails with "SHA-256 mismatch"; otherwise the
     * file is renamed into place, the inventory is synced (as `_sync_inventory` is written) with
     * the digests `update_cached_hash` reports, and DONE/100 is the last call.
     */
    method Finish(jobId: int, dir: string, dst: string, tmp: string, declared: Option<string>, env: Env) returns (outcome: JobOutcome)
      requires dir in disk
      modifies this`outbox, this`disk, this`known
      ensures outcome.Installed? <==>
          tmp in old(disk)[dir] && !(IsSet(declared) && env.sha256(old(disk)[dir][tmp]) != declared.value)
      ensures outcome.Failed? || outcome == Installed(dir, dst)
      ensures old(outbox) < outbox
      ensures outcome.Failed? ==> outbox == old(outbox) + [Failure(jobId, outcome.message)] && known == old(known)
      ensures outcome.Installed? ==> outbox[|outbox| - 1] == Done(jobId)
      ensures SameElsewhere(old(disk), disk, dir)
      ensures outcome.Failed? ==> tmp !in disk[dir] && disk[dir] - {tmp} == old(disk)[dir] - {tmp}
      ensures outcome.Failed? && tmp in old(disk)[dir] ==> outcome.message == "SHA-256 mismatch"
      ensures outcome.Installed? ==> disk[dir] == (old(disk)[dir] - {tmp})[dst := old(disk)[dir][tmp]]
      ensures outcome.Installed? ==> dst in disk[dir] && disk[dir][dst] == old(disk)[dir][tmp]
      ensures outcome.Installed? ==> known == SyncedAsWritten(old(known), env.updateCachedHash(Join(dir, dst), env.sha256(disk[dir][dst])))
      ensures outcome.Installed? ==>
        var hashes := env.updateCachedHash(Join(dir, dst), env.sha256(disk[dir][dst]));
        outbox == old(outbox) + PushedAsWritten(old(known), hashes) + [Done(jobId)]
    {
      if tmp !in disk[dir] {
        var message := MissingFileMessage(Join(dir, tmp));
        outbox := outbox + [Failure(jobId, message)];
        return Failed(message);
      }
      var content := disk[dir][tmp];
      var local := env.sha256(content);
      if IsSet(declared) && local != declared.value {
        disk := disk[dir := disk[dir] - {tmp}];
        outbox := outbox + [Failure(jobId, "SHA-256 mismatch")];
        return Failed("SHA-256 mismatch");
      }
      disk := disk[dir := (disk[dir] - {tmp})[dst := content]];
      ghost var synced := outbox;
      SyncInventoryAsWritten(env.updateCachedHash(Join(dir, dst), local));
      outbox := outbox + [Done(jobId)];
      assert outbox[..|old(outbox)|] == synced[..|old(outbox)|];
      outcome := Installed(dir, dst);
    }

    /**
     * What the worker does once a job has been triaged: the refusals before the target directory
     * is known, the low-space refusal and the "already owned" shortcut after creating the
     * directory, or the install. Every job ends with exactly one final report, the last call:
     * DONE/100 or ERROR.
     */
    method Carry(jobId: int, step: Step, declared: Option<string>, env: Env, now: int) returns (outcome: JobOutcome)
      modifies this`lastPct, this`lastTs, this`outbox, this`disk, this`known
      ensures old(outbox) < outbox
      ensures outcome.Failed? ==> outbox[|outbox| - 1] == Failure(jobId, outcome.message) && known == old(known)
      ensures !outcome.Failed? ==> outbox[|outbox| - 1] == Done(jobId)
      ensures step.NoUrl? ==> outcome == Failed("No download URL provided by server")
      ensures step.BadUrl? || step.BadTarget? ==> outcome == Failed(step.message)
      ensures step.Refused() ==> disk == old(disk)
      ensures step.NoSpace? ==> outcome == Failed("Less than " + IntText(minFreeMb) + " MB free")
      ensures step.Owned? <==> outcome.AlreadyOwned?
      ensures !step.Fetch? ==> |outbox| == |old(outbox)| + 1 && known == old(known)
      ensures !step.Refused() ==> step.dir in disk && disk.Keys == old(disk).Keys + {step.dir}
      ensures !step.Fetch? ==> forall d :: d in old(disk) ==> disk[d] == old(disk)[d]
      ensures step.Fetch? ==> outcome.Failed? || outcome == Installed(step.dir, step.dst)
      ensures step.Fetch? ==> old(outbox) + [Report(jobId, Some(0), Some("DOWNLOADING"), None)] < outbox
      ensures outbox[|old(outbox)|].Report? && outbox[|old(outbox)|].jobId == jobId
      ensures outcome.Installed? ==> outcome.name in disk[outcome.dir]
      ensures outcome.Installed? && IsSet(declared) ==> env.sha256(disk[outcome.dir][outcome.name]) == declared.value
      ensures outcome.Installed? ==>
        var hashes := env.updateCachedHash(Join(outcome.dir, outcome.name), env.sha256(disk[outcome.dir][outcome.name]));
        var done := PushedAsWritten(old(known), hashes) + [Done(jobId)];
        |outbox| >= |old(outbox)| + 1 + |done| && outbox[|outbox| - |done|..] == done
    {
      match step
      case NoUrl =>
        outbox := outbox + [Failure(jobId, "No download URL provided by server")];
        return Failed("No download URL provided by server");
      case BadUrl(message) =>
        outbox := outbox + [Failure(jobId, message)];
        return Failed(message);
      case BadTarget(message) =>
        outbox := outbox + [Failure(jobId, message)];
        return Failed(message);
      case NoSpace(dir) =>
        MakeDir(dir);
        var message := "Less than " + IntText(minFreeMb) + " MB free";
        outbox := outbox + [Failure(jobId, message)];
        return Failed(message);
      case Owned(dir) =>
        MakeDir(dir);
        outbox := outbox + [Done(jobId)];
        return AlreadyOwned;
      case Fetch(url, dir, dst, tmp) =>
        MakeDir(dir);
        ghost var made := disk;
        outcome := Install(jobId, url, dir, dst, tmp, declared, env, now);
        assert (old(outbox) + [Report(jobId, Some(0), Some("DOWNLOADING"), None)])[|old(outbox)|] == outbox[|old(outbox)|];
        assert disk.Keys == made.Keys;
    }

    /** `mkdir(parents=True, exist_ok=True)`: an existing directory keeps its files. */
    method MakeDir(dir: string)
      modifies this`disk
      ensures dir in disk && disk.Keys == old(disk).Keys + {dir}
      ensures forall d :: d in old(disk) ==> disk[d] == old(disk)[d]
      ensures dir !in old(disk) ==> disk[dir] == map[]
    {
      if dir !in disk {
        disk := disk[dir := map[]];
      }
    }

    /** One job, as `_worker` handles it: the decisions `Triage` makes, then `Carry`. */
    method ProcessJob(job: Job, env: Env, now: int) returns (step: Step, outcome: JobOutcome)
      modifies this`lastPct, this`lastTs, this`outbox, this`disk, this`known
      ensures old(outbox) < outbox
      ensures outcome.Failed? ==> outbox[|outbox| - 1] == Failure(job.id, outcome.message) && known == old(known)
      ensures !outcome.Failed? ==> outbox[|outbox| - 1] == Done(job.id)
      ensures step.Owned? <==> outcome.AlreadyOwned?
      ensures step.Fetch? ==> outcome.Failed? || outcome == Installed(step.dir, step.dst)
      ensures outbox[|old(outbox)|].Report? && outbox[|old(outbox)|].jobId == job.id
      ensures disk.Keys >= old(disk).Keys
      ensures outcome.Installed? ==> outcome.dir in disk && outcome.name in disk[outcome.dir]
      ensures outcome.Installed? && IsSet(job.sha256) ==> env.sha256(disk[outcome.dir][outcome.name]) == job.sha256.value
    {
      step := Triage(baseUrl, minFreeMb, known, disk, job, env);
      outcome := Carry(job.id, step, job.sha256, env, now);
    }

    /**
     * One pass of the `_worker` loop: nothing while the worker is stopped; otherwise the heartbeat
     * when it is due, then the job fetch. A failed fetch marks the backend as down, a job marks it
     * as up and is processed.
     *
     * The heartbeat sends nothing. The downloader imports `_sock` by value from the client module
     * when the client has not opened a socket yet, so its `_sock` stays `None`; `_heartbeat`
     * calls `send` on `None` whenever the open event is set and swallows the error. Only the
     * heartbeat's timer moves.
     */
    method WorkerTurn(now: int, fetched: Result<Option<Job>>, env: Env) returns (outcome: Option<JobOutcome>)
      modifies this
      ensures !old(running) ==> outcome.None? && outbox == old(outbox) && backendOk == old(backendOk) && lastHeartbeat == old(lastHeartbeat)
      ensures old(running) && now - old(lastHeartbeat) > HeartbeatIntervalMs ==> lastHeartbeat == now
      ensures old(running) && now - old(lastHeartbeat) <= HeartbeatIntervalMs ==> lastHeartbeat == old(lastHeartbeat)
      ensures old(running) && fetched.Err? ==> !backendOk
      ensures old(running) && fetched.Ok? && fetched.value.Some? ==> backendOk && outcome.Some?
      ensures outcome.Some? ==> old(running) && fetched.Ok? && fetched.value.Some?
      ensures old(running) && fetched.Ok? && fetched.value.None? ==> backendOk == old(backendOk)
      ensures running == old(running) && disk.Keys >= old(disk).Keys
      ensures outcome.None? ==> outbox == old(outbox) && disk == old(disk) && known == old(known)
      ensures outcome.Some? ==>
        old(outbox) < outbox && outbox[|old(outbox)|].Report? && outbox[|old(outbox)|].jobId == fetched.value.value.id
    {
      if !running {
        return None;
      }
      if now - lastHeartbeat > HeartbeatIntervalMs {
        lastHeartbeat := now;
      }
      if fetched.Err? {
        backendOk := false;
        return None;
      }
      if fetched.value.None? {
        return None;
      }
      backendOk := true;
      var _, o := ProcessJob(fetched.value.value, env, now);
      outcome := Some(o);
    }
  }

  /**
   * The worker's decision about a job before anything is fetched. `BadUrl` is the `ValueError`
   * of `urlparse`, `BadTarget` that of `get_model_path`; both are reported with their message.
   */
  datatype Step =
    | NoUrl
    | BadUrl(message: string)
    | BadTarget(message: string)
    | NoSpace(dir: string)
    | Owned(dir: string)
    | Fetch(url: string, dir: string, dst: string, tmp: string)
  {
    /** Refused before the target directory is known, so nothing is created. */
    predicate Refused() { NoUrl? || BadUrl? || BadTarget? }
  }

  /** The job gets as far as its target directory: it has a URL that parses, and the options could be read. */
  predicate ReachesDir(baseUrl: string, job: Job, env: Env) {
    DownloadUrl(baseUrl, job).Some? && Urls.Urlparse(DownloadUrl(baseUrl, job).value).Ok? && env.opts.Ok?
  }

  /**
   * The guards of the job pipeline, in the order `_worker` checks them: a download URL that
   * parses, a target path that resolves, enough free space in the target directory, the declared
   * digest not already owned; a job that passes them all is fetched under a clean name that is
   * free in the directory.
   */
  method Triage(baseUrl: string, minFreeMb: int, known: set<string>, disk: map<string, map<string, string>>, job: Job, env: Env)
    returns (step: Step)
    ensures step.NoUrl? <==> DownloadUrl(baseUrl, job).None?
    ensures step.BadUrl? <==> DownloadUrl(baseUrl, job).Some? && Urls.Urlparse(DownloadUrl(baseUrl, job).value).Err?
    ensures step.BadUrl? ==> step.message == Urls.Urlparse(DownloadUrl(baseUrl, job).value).error
    ensures step.BadTarget? <==>
      DownloadUrl(baseUrl, job).Some? && Urls.Urlparse(DownloadUrl(baseUrl, job).value).Ok? && env.opts.Err?
    ensures step.BadTarget? ==> step.message == env.opts.error
    ensures !step.Refused() ==> ReachesDir(baseUrl, job, env) && step.dir == JobDir(env, job)
    ensures step.NoSpace? <==> ReachesDir(baseUrl, job, env) && LowSpace(env, JobDir(env, job), minFreeMb)
    ensures step.Owned? <==>
      ReachesDir(baseUrl, job, env) && !LowSpace(env, JobDir(env, job), minFreeMb) && AlreadyHave(known, job.sha256)
    ensures step.Fetch? ==> Some(step.url) == DownloadUrl(baseUrl, job) && !Taken(NamesIn(disk, step.dir), step.dst)
    ensures step.Fetch? && !Taken(NamesIn(disk, step.dir), CleanName(env, step.url)) ==> step.dst == CleanName(env, step.url)
    ensures step.Fetch? ==> step.dst != [] && WithSuffix(step.dst, ".part") == Ok(step.tmp)
  {
    var url := DownloadUrl(baseUrl, job);
    if url.None? {
      return NoUrl;
    }
    var parsed := Urls.Urlparse(url.value);
    if parsed.Err? {
      return BadUrl(parsed.error);
    }
    if env.opts.Err? {
      return BadTarget(env.opts.error);
    }
    var dir := JobDir(env, job);
    var dst := UniqueFilename(NamesIn(disk, dir), CleanName(env, url.value));
    if LowSpace(env, dir, minFreeMb) {
      return NoSpace(dir);
    }
    if AlreadyHave(known, job.sha256) {
      return Owned(dir);
    }
    return Fetch(url.value, dir, dst, TempName(dst));
  }

  /** The downloaded file's name, from the unquoted path of the URL, with its random prefix removed. */
  function CleanName(env: Env, url: string): (r: string)
    requires Urls.Urlparse(url).Ok?
    ensures var name := Name(env.unquote(Urls.Urlparse(url).value.path));
      '/' !in r && EndsWith(name, r) && (r != name ==> IsRandomPrefix(name[..|name| - |r|]))
  {
    Clean(Name(env.unquote(Urls.Urlparse(url).value.path)))
  }

  /** Five seconds between heartbeats, in milliseconds. */
  const HeartbeatIntervalMs := 5000

  /** The temporary file of a download: `dst.with_suffix(".part")`. */
  function TempName(dst: string): (r: string)
    requires dst != []
    ensures WithSuffix(dst, ".part") == Ok(r)
  {
    Stem(dst) + ".part"
  }

  /** The directory a job's target maps to. */
  function JobDir(env: Env, job: Job): string
    requires env.opts.Ok?
  {
    GetModelPath(env.root, env.opts.value, job.targetPath)
  }

  /** The free-space guard: whole free mebibytes below the configured minimum. */
  predicate LowSpace(env: Env, dir: string, minFreeMb: int)
    ensures LowSpace(env, dir, minFreeMb) <==> env.freeBytes(dir) < minFreeMb * Mebibyte
  {
    env.freeBytes(dir) / Mebibyte < minFreeMb
  }

  /**
   * The entries of a directory that `(dir_ / candidate).exists()` finds: its files and the
   * directories below it (each by its first component). A directory that does not exist yet
   * holds none.
   */
  function NamesIn(disk: map<string, map<string, string>>, dir: string): (r: set<string>)
    ensures dir in disk ==> disk[dir].Keys <= r
    ensures forall n :: n != [] && '/' !in n && dir + "/" + n in disk ==> n in r
    ensures dir !in disk && (forall d :: d in disk ==> !StartsWith(d, dir + "/")) ==> r == {}
  {
    var files := if dir in disk then disk[dir].Keys else {};
    var below := set d | d in disk && StartsWith(d, dir + "/") :: Partition(d[|dir| + 1..], '/').0;
    forall n | n != [] && '/' !in n && dir + "/" + n in disk ensures n in below {
      var d := dir + "/" + n;
      assert StartsWith(d, dir + "/") && d[|dir| + 1..] == n;
      PartitionAbsent(n, '/');
    }
    files + below
  }

  /** `str(e)` of the `FileNotFoundError` hashing a missing file raises. */
  function MissingFileMessage(path: string): string {
    "[Errno 2] No such file or directory: '" + path + "'"
  }

  // ----- inventory change detection -----

  /** The outcome of `stat` on a path: gone, not readable, or its modification time in nanoseconds. */
  datatype Stat = Missing | Denied | Stamp(mtime: int)

  /** The newest of a modification time and those of the children that could be read. */
  function MaxMtime(newest: int, children: seq<Stat>): (r: int)
    ensures r >= newest
    ensures forall i :: 0 <= i < |children| && children[i].Stamp? ==> r >= children[i].mtime
    ensures r == newest || exists i :: 0 <= i < |children| && children[i].Stamp? && r == children[i].mtime
    decreases |children|
  {
    if children == [] then newest
    else
      var next := if children[0].Stamp? && children[0].mtime > newest then children[0].mtime else newest;
      var r := MaxMtime(next, children[1..]);
      assert forall i :: 1 <= i < |children| ==> children[i] == children[1..][i - 1];
      r
  }

  /** The loop over a root's children in `_inventory_signature`: children that vanished or cannot be read are skipped. */
  method NewestMtime(rootMtime: int, children: seq<Stat>) returns (newest: int)
    ensures newest == MaxMtime(rootMtime, children)
  {
    newest := rootMtime;
    for i := 0 to |children|
      invariant MaxMtime(newest, children[i..]) == MaxMtime(rootMtime, children)
    {
      assert children[i..][1..] == children[i + 1..];
      match children[i]
      case Stamp(m) =>
        if m > newest {
          newest := m;
        }
      case _ =>
    }
  }

  /**
   * The signature entry of one watched root: 0 for a missing root, the newest modification time of
   * the root and its children otherwise (the root's own when its listing fails), and `None` for a
   * root that cannot be read, whose error ends the whole signature.
   */
  function SignatureEntry(root: Stat, listing: Option<seq<Stat>>): (r: Option<int>)
    ensures r.None? <==> root.Denied?
    ensures root.Missing? ==> r == Some(0)
    ensures root.Stamp? && listing.None? ==> r == Some(root.mtime)
    ensures root.Stamp? && listing.Some? ==> r == Some(MaxMtime(root.mtime, listing.value))
  {
    match root
    case Missing => Some(0)
    case Denied => None
    case Stamp(m) => if listing.None? then Some(m) else Some(MaxMtime(m, listing.value))
  }

  /**
   * `_inventory_signature`: each watched root with its entry. The source sorts the pairs; the
   * roots are distinct, so the map holds the same information and compares equal exactly when
   * the sorted pairs do.
   */
  method InventorySignature(roots: set<string>, stat: string -> Stat, listing: string -> Option<seq<Stat>>)
    returns (signature: Option<map<string, int>>)
    ensures signature.None? <==> exists root :: root in roots && stat(root).Denied?
    ensures signature.Some? ==> signature.value.Keys == roots
    ensures signature.Some? ==> forall root :: root in roots ==> Some(signature.value[root]) == SignatureEntry(stat(root), listing(root))
  {
    var entries: map<string, int> := map[];
    var left := roots;
    while left != {}
      invariant left <= roots && entries.Keys == roots - left
      invariant forall root :: root in entries ==> !stat(root).Denied? && Some(entries[root]) == SignatureEntry(stat(root), listing(root))
      decreases |left|
    {
      var root :| root in left;
      var status := stat(root);
      if status.Denied? {
        return None;
      }
      var newest := 0;
      if status.Stamp? {
        var children := listing(root);
        if children.None? {
          newest := status.mtime;
        } else {
          newest := NewestMtime(status.mtime, children.value);
        }
      }
      entries := entries[root := newest];
      left := left - {root};
    }
    return Some(entries);
  }

  /**
   * `_inventory_watch_dirs`: where the four known target prefixes lead. A target whose
   * `get_model_path` raises is skipped; all four read the same options, so all are skipped.
   */
  function WatchDirs(root: string, opts: Result<DirOpts>): (r: set<string>)
    ensures r == {} <==> opts.Err?
  {
    if opts.Err? then {}
    else
      var dirs := set target | target in Prefixes :: GetModelPath(root, opts.value, target);
      assert GetModelPath(root, opts.value, Prefixes[0]) in dirs;
      dirs
  }

  /** A bare known prefix is its own first match and has no tail, so it leads to its directory. */
  lemma PrefixLeadsToItsDir(root: string, opts: DirOpts, i: nat)
    requires i < |Prefixes|
    ensures GetModelPath(root, opts, Prefixes[i]) == PrefixDirs(root, opts)[i]
  {
    var target := Prefixes[i];
    assert StartsWith(target, Prefixes[i]) by { assert target[..|target|] == target; }
    forall j | 0 <= j < i ensures !StartsWith(target, Prefixes[j]) {
      if i == 3 {
        FirstCharDiffers(target, Prefixes[j]);
      }
    }
    MatchIndexIs(Prefixes, target, i);
    assert target[|Prefixes[i]|..] == [];
  }

  /**
   * The watched directories are exactly the four model directories, configured or standard;
   * when the options cannot be read, none is watched.
   */
  lemma WatchDirsAreModelDirs(root: string, opts: Result<DirOpts>)
    ensures opts.Ok? ==> WatchDirs(root, opts) == set i | 0 <= i < |Prefixes| :: PrefixDirs(root, opts.value)[i]
    ensures opts.Err? ==> WatchDirs(root, opts) == {}
  {
    if opts.Ok? {
      forall i | 0 <= i < |Prefixes| ensures GetModelPath(root, opts.value, Prefixes[i]) == PrefixDirs(root, opts.value)[i] {
        PrefixLeadsToItsDir(root, opts.value, i);
      }
    }
  }

  /** The inventory watcher's memory: the last signature it acted on. */
  class InventoryWatcher {
    var lastSignature: Option<map<string, int>>

    constructor ()
      ensures lastSignature == None
    {
      lastSignature := None;
    }

    /**
     * One pass of `_inventory_worker`: when the signature could be taken and differs from the last
     * one acted on, the models are rescanned, the inventory is synced with the result (as
     * `_sync_inventory` is written) and the signature is remembered. A failed signature or a
     * failed scan is swallowed; the signature is then not remembered, so the next pass tries again.
     */
    method Tick(signature: Option<map<string, int>>, worker: JobWorker, index: HashIndex,
                listing: Result<seq<Found>>, digest: string -> string, present: string -> bool)
      modifies this, worker`known, worker`outbox, index
      ensures signature.None? || signature == old(lastSignature) ==>
        lastSignature == old(lastSignature) && worker.known == old(worker.known) && worker.outbox == old(worker.outbox)
        && index.stored == old(index.stored) && index.saves == old(index.saves) && index.known == old(index.known)
      ensures signature.Some? && signature != old(lastSignature) && listing.Err? ==>
        lastSignature == old(lastSignature) && worker.known == old(worker.known) && worker.outbox == old(worker.outbox)
        && index.stored == old(index.stored) && index.saves == old(index.saves) && index.known == {}
      ensures signature.Some? && signature != old(lastSignature) && listing.Ok? ==>
        lastSignature == signature && Rescanned(worker, index, listing.value, digest, present)
    {
      if signature.None? || signature == lastSignature {
        return;
      }
      var ok := Rescan(worker, index, listing, digest, present);
      if ok {
        lastSignature := signature;
      }
    }

    /**
     * The models were rescanned and the inventory synced with the digests found, as
     * `_sync_inventory` is written; the hash cache was saved when the scan changed it.
     */
    static twostate predicate Rescanned(worker: JobWorker, index: HashIndex, found: seq<Found>,
                                        digest: string -> string, present: string -> bool)
      reads worker, index
    {
      var scan := AfterScan(old(index.stored), found, digest);
      && worker.known == SyncedAsWritten(old(worker.known), scan.hashes)
      && worker.outbox == old(worker.outbox) + PushedAsWritten(old(worker.known), scan.hashes)
      && index.Listed(found, digest, present)
    }

    /** `list_model_hashes()` then `_sync_inventory(hashes)`; a failed scan ends the pass (`ok` is false). */
    static method Rescan(worker: JobWorker, index: HashIndex, listing: Result<seq<Found>>,
                         digest: string -> string, present: string -> bool) returns (ok: bool)
      modifies worker`known, worker`outbox, index
      ensures ok <==> listing.Ok?
      ensures listing.Err? ==>
        worker.known == old(worker.known) && worker.outbox == old(worker.outbox)
        && index.stored == old(index.stored) && index.saves == old(index.saves) && index.known == {}
      ensures listing.Ok? ==> Rescanned(worker, index, listing.value, digest, present)
    {
      var hashes := index.ListModelHashes(listing, digest, present);
      if hashes.Err? {
        return false;
      }
      worker.SyncInventoryAsWritten(hashes.value);
      return true;
    }
  }
}

=== FILE: link_client.dfy ===
/**
 * The link client's session state: the module-level globals of the client become the fields
 * of `LinkSession`, and each function that updates them becomes a method.
 *
 * The clock is the parameter `now`, in milliseconds of the monotonic clock. Frames sent on the
 * WebSocket, sockets closed, connection attempts and the HTTP fallback requests are appended
 * to `trace` instead of being performed. The WebSocket library's callbacks (`OnOpen`,
 * `OnClose`) and the runner thread's steps (`RunnerTick`, `RunnerSessionEnded`) are methods
 * the environment calls in the order the library would.
 */
module LinkClient {
  import opened Wrappers
  import opened Text
  import opened LinkProtocol
  import Downloader

  datatype ConnState = Idle | Connecting | Connected | Disconnected | Blocked | Failed

  /** The `control_ack` payload: optional members are left out of the JSON object when None. */
  datatype Ack = Ack(
    command: Json, requestId: Option<Json>, enable: Option<bool>,
    ok: bool, running: Option<bool>, message: Option<string>)

  datatype Frame =
    | WorkerStateFrame(running: bool)
    | PollFrame
    | ProgressFrame(jobId: int, progress: Option<int>, state: Option<string>, message: Option<string>)
    | InventoryFrame(hashes: seq<string>)
    | ControlAckFrame(ack: Ack)
    | FoldersResultFrame(requestId: Json, ok: bool, kind: Option<string>, folders: Option<seq<string>>, error: Option<string>)

  datatype Event =
    | Sent(frame: Frame)
    | SocketClosed
    | RunnerLaunched
    /**
     * The runner opens a connection with these credentials: the address `WorkerUrl(baseUrl)`,
     * the header lines `RunnerHeaderLines(linkKey, apiKey)` and the subprotocols
     * `WsSubprotocols(linkKey, apiKey)`.
     */
    | Connect(baseUrl: string, linkKey: string, apiKey: string)
    | HttpPatch(url: string, payload: map<string, Json>, headers: map<string, string>)
    | HttpPost(url: string, hashes: seq<string>, headers: map<string, string>)

  /** The stored configuration, with the defaults filled in (a missing `link_key` reads as ""). */
  datatype Config = Config(baseUrl: string, linkKey: string, apiKey: string)

  const DefaultBaseUrl := "https://arcenciel.io/api/link"

  const CloseUnauthorized := 4401
  const CloseRateLimited := 4429
  const CloseServiceDisabled := 1013
  const ServiceDisabledWait := 30
  const ScopeMissingReason := "LINK_SCOPE_MISSING"
  /** A reconnect request within this many milliseconds of connecting only polls. */
  const RecentConnection := 5000
  const DisabledSleep := 1000
  const SuspendSleepCap := 5000

  /** How `_on_close` reads a close event; the reason is checked before the code. */
  datatype CloseKind = ScopeMissing | Unauthorized | RateLimited(waitSeconds: nat) | ServiceDisabled | OtherClose

  function ClassifyClose(code: Option<int>, reason: string): (k: CloseKind)
    ensures k == ScopeMissing <==> StartsWith(reason, ScopeMissingReason)
    ensures k == Unauthorized <==> !StartsWith(reason, ScopeMissingReason) && code == Some(CloseUnauthorized)
    ensures k.RateLimited? <==> !StartsWith(reason, ScopeMissingReason) && code == Some(CloseRateLimited)
    ensures k.RateLimited? ==> k.waitSeconds == RateLimitWait(reason) && k.waitSeconds > 0
    ensures k == ServiceDisabled <==> !StartsWith(reason, ScopeMissingReason) && code == Some(CloseServiceDisabled)
    ensures k == OtherClose <==>
      !StartsWith(reason, ScopeMissingReason) && code != Some(CloseUnauthorized)
      && code != Some(CloseRateLimited) && code != Some(CloseServiceDisabled)
  {
    if StartsWith(reason, ScopeMissingReason) then ScopeMissing
    else if code == Some(CloseUnauthorized) then Unauthorized
    else if code == Some(CloseRateLimited) then RateLimited(RateLimitWait(reason))
    else if code == Some(CloseServiceDisabled) then ServiceDisabled
    else OtherClose
  }

  /** A 4429 close announcing `RATE_LIMITED:<n>` with n > 0 suspends for exactly n seconds. */
  lemma RateLimitedCloseWaitsAnnouncedTime(n: nat)
    requires n > 0
    ensures ClassifyClose(Some(CloseRateLimited), RateLimitedPrefix + Decimal(n)) == RateLimited(n)
  {
    RetryAfterRoundTrip(n);
    var reason := RateLimitedPrefix + Decimal(n);
    assert !StartsWith(reason, ScopeMissingReason) by {
      if |reason| >= |ScopeMissingReason| {
        assert reason[..|ScopeMissingReason|][0] == reason[0] == 'R';
      }
    }
  }

  /** The choice `force_reconnect` makes, first matching case first. */
  datatype ReconnectAction = StayPaused | EnableSocket | EnsureRunner | CloseStale | SendPoll | RefreshSocket

  function ReconnectDecision(
    now: nat, suspendUntil: int, socketEnabled: bool, isOpen: bool,
    dirty: bool, hasSocket: bool, lastConnectedAt: int): (a: ReconnectAction)
    ensures a == StayPaused <==> suspendUntil != 0 && now < suspendUntil
    ensures a == SendPoll ==> socketEnabled && isOpen && !dirty && hasSocket && now - lastConnectedAt < RecentConnection
    ensures a == RefreshSocket ==> socketEnabled && isOpen && !dirty && hasSocket && now - lastConnectedAt >= RecentConnection
    ensures a == CloseStale ==> socketEnabled && isOpen && (dirty || !hasSocket)
    ensures a == EnableSocket ==> !socketEnabled
    ensures a == EnsureRunner ==> socketEnabled && !isOpen
  {
    if suspendUntil != 0 && now < suspendUntil then StayPaused
    else if !socketEnabled then EnableSocket
    else if !isOpen then EnsureRunner
    else if dirty || !hasSocket then CloseStale
    else if now - lastConnectedAt < RecentConnection then SendPoll
    else RefreshSocket
  }

  /** What `force_reconnect` adds to the trace, for an action taken while the socket is enabled. */
  function ReconnectEvents(a: ReconnectAction, hasSocket: bool): seq<Event> {
    match a
    case SendPoll => [Sent(PollFrame)]
    case CloseStale | RefreshSocket => if hasSocket then [SocketClosed] else []
    case _ => []
  }

  /** Once past any suspension, an open, clean connection is either polled or refreshed, never left alone. */
  lemma OpenCleanConnectionPollsOrRefreshes(now: nat, lastConnectedAt: int)
    ensures ReconnectDecision(now, 0, true, true, false, true, lastConnectedAt)
         == if now - lastConnectedAt < RecentConnection then SendPoll else RefreshSocket
  {
  }

  /** Changed credentials always drop an open connection, however recent it is. */
  lemma DirtyCredentialsDropConnection(now: nat, suspendUntil: int, lastConnectedAt: int)
    requires suspendUntil == 0 || now >= suspendUntil
    ensures ReconnectDecision(now, suspendUntil, true, true, true, true, lastConnectedAt) == CloseStale
  {
  }

  /** The set of kinds `list_subfolders` answers for. */
  predicate IsFolderKind(kind: string) {
    kind == "checkpoint" || kind == "lora" || kind == "vae" || kind == "embedding"
  }

  /** Python truthiness of a JSON value; `JOther` carries its own. */
  predicate Truthy(v: Json) {
    match v
    case JNull => false
    case JBool(b) => b
    case JInt(n) => n != 0
    case JFloat(x, _) => x != 0.0
    case JStr(s) => s != []
    case JOther(_, truthy) => truthy
  }

  /** `str(msg.get("kind") or "").lower().strip()`. */
  function FolderKind(v: Json): string {
    Strip(Lower(if Truthy(v) then PyStr(v) else ""))
  }

  /**
   * `not (raw_enable in (False, "false", 0))`. The test is `==`, and Python's `False == 0 == 0.0`:
   * `false`, `0`, `0.0` and `-0.0` all disable, as does the string `"false"`; `true`, other numbers
   * and other strings (`"0"`, `"False"`) enable.
   */
  function EnableFlag(v: Json): (enable: bool)
    ensures !enable <==> v == JBool(false) || v == JStr("false") || v == JInt(0) || (v.JFloat? && v.x == 0.0)
    ensures v == JNull ==> enable
  {
    !(v == JBool(false) || v == JStr("false") || NumericallyZero(v))
  }

  /** A number equal to 0 (a float zero of either sign included). */
  predicate NumericallyZero(v: Json) {
    match v
    case JInt(n) => n == 0
    case JFloat(x, _) => x == 0.0
    case _ => false
  }

  /** A float zero, whatever its spelling, disables the worker; the string `"0"` does not. */
  lemma FloatZeroDisables(text: string)
    ensures !EnableFlag(JFloat(0.0, text))
    ensures EnableFlag(JStr("0")) && EnableFlag(JStr("False")) && EnableFlag(JBool(true))
  {
  }

  /** A control message, each member None (`JNull`) when it is missing. */
  datatype ControlMsg = ControlMsg(command: Json, requestId: Json, enable: Json, linkKey: Json, apiKey: Json, kind: Json)

  /** `requestId` is echoed when it is present. */
  function EchoId(requestId: Json): (r: Option<Json>)
    ensures r.Some? <==> requestId != JNull
    ensures r.Some? ==> r.value == requestId
  {
    if requestId == JNull then None else Some(requestId)
  }

  /** The fields of the HTTP progress request: only the arguments that are not None. */
  function ProgressPayload(progress: Option<int>, state: Option<string>, message: Option<string>): (m: map<string, Json>)
    ensures "progress" in m <==> progress.Some?
    ensures "state" in m <==> state.Some?
    ensures "message" in m <==> message.Some?
    ensures progress.Some? ==> m["progress"] == JInt(progress.value)
    ensures state.Some? ==> m["state"] == JStr(state.value)
    ensures message.Some? ==> m["message"] == JStr(message.value)
    ensures forall k :: k in m ==> k == "progress" || k == "state" || k == "message"
  {
    assert |"progress"| != |"state"| && |"progress"| != |"message"| && "state"[0] != "message"[0];
    var m0: map<string, Json> := map[];
    var m1 := if progress.Some? then m0["progress" := JInt(progress.value)] else m0;
    var m2 := if state.Some? then m1["state" := JStr(state.value)] else m1;
    if message.Some? then m2["message" := JStr(message.value)] else m2
  }

  /** The API key after a push: absent keeps `current`, a string is stripped, any other value clears it. */
  function PushedApiKey(v: Json, current: string): (k: string)
    ensures v == JNull ==> k == current
    ensures v.JStr? ==> k == Strip(v.s)
    ensures v != JNull && !v.JStr? ==> k == []
  {
    if v == JNull then current else if v.JStr? then Strip(v.s) else ""
  }

  class LinkSession {
    var baseUrl: string
    var linkKey: string
    var apiKey: string
    const devMode: bool
    var socketEnabled: bool
    var runnerStarted: bool
    var credentialsDirty: bool
    var reconnectAttempts: nat
    var lastConnectedAt: int
    /** 0 when no suspension is pending. */
    var suspendUntil: int
    var suspendNoticeLogged: bool
    var connectionState: ConnState
    /** `_open_evt`. */
    var isOpen: bool
    /** `_sock is not None`. */
    var hasSocket: bool
    /** The configuration file. */
    var config: Config
    var trace: seq<Event>

    ghost predicate Valid()
      reads this
    {
      && NoTrailingSlash(baseUrl)
      && (isOpen ==> hasSocket)
      && reconnectAttempts <= MaxReconnectAttempts
    }

    twostate predicate CredentialsKept()
      reads this
    {
      baseUrl == old(baseUrl) && linkKey == old(linkKey)
      && apiKey == old(apiKey) && config == old(config) && credentialsDirty == old(credentialsDirty)
    }

    twostate predicate RetryKept()
      reads this
    {
      reconnectAttempts == old(reconnectAttempts) && lastConnectedAt == old(lastConnectedAt)
      && suspendUntil == old(suspendUntil) && suspendNoticeLogged == old(suspendNoticeLogged)
    }

    twostate predicate SocketKept()
      reads this
    {
      socketEnabled == old(socketEnabled) && runnerStarted == old(runnerStarted)
      && isOpen == old(isOpen) && hasSocket == old(hasSocket) && connectionState == old(connectionState)
    }

    /** The module's import: the configured base URL is normalised (the import fails if it is refused). */
    constructor (cfg: Config, devMode: bool)
      requires NormaliseBaseUrl(cfg.baseUrl, devMode).Ok?
      ensures Valid()
      ensures baseUrl == NormaliseBaseUrl(cfg.baseUrl, devMode).value
      ensures linkKey == cfg.linkKey && apiKey == cfg.apiKey && config == cfg && this.devMode == devMode
      ensures !socketEnabled && !runnerStarted && !credentialsDirty && !isOpen && !hasSocket
      ensures reconnectAttempts == 0 && lastConnectedAt == 0 && suspendUntil == 0 && !suspendNoticeLogged
      ensures connectionState == Idle && trace == []
    {
      baseUrl := NormaliseBaseUrl(cfg.baseUrl, devMode).value;
      linkKey, apiKey, this.devMode, config := cfg.linkKey, cfg.apiKey, devMode, cfg;
      socketEnabled, runnerStarted, credentialsDirty := false, false, false;
      reconnectAttempts, lastConnectedAt, suspendUntil, suspendNoticeLogged := 0, 0, 0, false;
      connectionState, isOpen, hasSocket, trace := Idle, false, false, [];
    }

    /** The base URL after `update_credentials(base_url=newBase)`: a refused one leaves `current` in place. */
    static function NewBaseUrl(newBase: Option<string>, current: string, devMode: bool): (r: string)
      ensures NoTrailingSlash(current) ==> NoTrailingSlash(r)
      ensures newBase.None? ==> r == current
      ensures newBase.Some? && NormaliseBaseUrl(newBase.value, devMode).Err? ==> r == current
      ensures newBase.Some? && NormaliseBaseUrl(newBase.value, devMode).Ok? ==> r == NormaliseBaseUrl(newBase.value, devMode).value
    {
      if newBase.Some? && NormaliseBaseUrl(newBase.value, devMode).Ok? then NormaliseBaseUrl(newBase.value, devMode).value
      else current
    }

    twostate predicate CredentialsChanged()
      reads this
    {
      baseUrl != old(baseUrl) || linkKey != old(linkKey) || apiKey != old(apiKey)
    }

    /**
     * `update_credentials`: each given value that differs from the current one replaces it
     * (keys stripped, the base URL normalised); a refused base URL is ignored. Any real change
     * marks the credentials dirty and lifts a pending suspension.
     */
    method UpdateCredentials(newBase: Option<string>, newLink: Option<string>, newApi: Option<string>)
      requires Valid()
      modifies this
      ensures Valid()
      ensures baseUrl == NewBaseUrl(newBase, old(baseUrl), devMode)
      ensures linkKey == if newLink.Some? then Strip(newLink.value) else old(linkKey)
      ensures apiKey == if newApi.Some? then Strip(newApi.value) else old(apiKey)
      ensures credentialsDirty == (old(credentialsDirty) || CredentialsChanged())
      ensures CredentialsChanged() ==> suspendUntil == 0 && !suspendNoticeLogged
      ensures !CredentialsChanged() ==> suspendUntil == old(suspendUntil) && suspendNoticeLogged == old(suspendNoticeLogged)
      ensures config == old(config) && trace == old(trace) && SocketKept()
      ensures reconnectAttempts == old(reconnectAttempts) && lastConnectedAt == old(lastConnectedAt)
    {
      var normalized := NewBaseUrl(newBase, baseUrl, devMode);
      StoreCredentials(normalized, newLink, newApi);
    }

    /** The assignments of `update_credentials`, once the new base URL is known. */
    method StoreCredentials(normalized: string, newLink: Option<string>, newApi: Option<string>)
      requires Valid() && NoTrailingSlash(normalized)
      modifies this`baseUrl, this`linkKey, this`apiKey, this`credentialsDirty, this`suspendUntil, this`suspendNoticeLogged
      ensures Valid()
      ensures baseUrl == normalized
      ensures linkKey == if newLink.Some? then Strip(newLink.value) else old(linkKey)
      ensures apiKey == if newApi.Some? then Strip(newApi.value) else old(apiKey)
      ensures credentialsDirty == (old(credentialsDirty) || CredentialsChanged())
      ensures CredentialsChanged() ==> suspendUntil == 0 && !suspendNoticeLogged
      ensures !CredentialsChanged() ==> suspendUntil == old(suspendUntil) && suspendNoticeLogged == old(suspendNoticeLogged)
      ensures config == old(config) && trace == old(trace) && SocketKept()
      ensures reconnectAttempts == old(reconnectAttempts) && lastConnectedAt == old(lastConnectedAt)
    {
      var link := if newLink.Some? then Strip(newLink.value) else linkKey;
      var api := if newApi.Some? then Strip(newApi.value) else apiKey;
      var changed := normalized != baseUrl || link != linkKey || api != apiKey;
      baseUrl, linkKey, apiKey := normalized, link, api;
      assert changed == CredentialsChanged();
      if changed {
        credentialsDirty := true;
        suspendUntil, suspendNoticeLogged := 0, false;
      }
    }

    /** `_send_ws_payload`: a frame is sent only while the socket is open. */
    method SendFrame(f: Frame)
      modifies this
      ensures trace == old(trace) + if isOpen then [Sent(f)] else []
      ensures CredentialsKept() && RetryKept() && SocketKept()
      ensures old(Valid()) ==> Valid()
    {
      if isOpen {
        trace := trace + [Sent(f)];
      }
    }

    /** `_on_open`: the counters are reset, the worker state is announced and a poll is sent. */
    method OnOpen(now: nat, workerRunning: bool)
      requires Valid() && hasSocket
      modifies this
      ensures Valid()
      ensures isOpen && connectionState == Connected
      ensures reconnectAttempts == 0 && !credentialsDirty && lastConnectedAt == now
      ensures suspendUntil == 0 && !suspendNoticeLogged
      ensures trace == old(trace) + [Sent(WorkerStateFrame(workerRunning)), Sent(PollFrame)]
      ensures baseUrl == old(baseUrl) && linkKey == old(linkKey) && apiKey == old(apiKey)
      ensures config == old(config) && socketEnabled == old(socketEnabled) && runnerStarted == old(runnerStarted)
      ensures hasSocket
    {
      isOpen := true;
      reconnectAttempts, credentialsDirty, lastConnectedAt := 0, false, now;
      suspendUntil, suspendNoticeLogged := 0, false;
      connectionState := Connected;
      trace := trace + [Sent(WorkerStateFrame(workerRunning)), Sent(PollFrame)];
    }

    /** `_ensure_socket`: starts the runner thread once, when the socket is wanted and not open. */
    method EnsureSocket()
      modifies this
      ensures var launch := socketEnabled && !(hasSocket && isOpen) && !old(runnerStarted);
        && runnerStarted == (old(runnerStarted) || launch)
        && trace == old(trace) + if launch then [RunnerLaunched] else []
      ensures socketEnabled == old(socketEnabled) && isOpen == old(isOpen) && hasSocket == old(hasSocket)
      ensures connectionState == old(connectionState)
      ensures CredentialsKept() && RetryKept()
    {
      if !socketEnabled {
        return;
      }
      if hasSocket && isOpen {
        return;
      }
      if !runnerStarted {
        trace := trace + [RunnerLaunched];
        runnerStarted := true;
      }
    }

    /** `set_connection_enabled`: disabling drops the socket at once; enabling makes sure the runner exists. */
    method SetConnectionEnabled(enabled: bool, silent: bool)
      requires Valid()
      modifies this
      ensures Valid()
      ensures socketEnabled == enabled
      ensures !enabled ==>
        && !isOpen && !hasSocket && runnerStarted == old(runnerStarted)
        && trace == old(trace) + (if old(hasSocket) then [SocketClosed] else [])
        && connectionState == (if silent then old(connectionState) else Disconnected)
      ensures enabled ==>
        && isOpen == old(isOpen) && hasSocket == old(hasSocket) && connectionState == old(connectionState)
        && var launch := !(hasSocket && isOpen) && !old(runnerStarted);
           runnerStarted == (old(runnerStarted) || launch)
           && trace == old(trace) + if launch then [RunnerLaunched] else []
      ensures CredentialsKept() && RetryKept()
    {
      socketEnabled := enabled;
      if !enabled {
        if hasSocket {
          trace := trace + [SocketClosed];
          hasSocket := false;
        }
        isOpen := false;
        if !silent {
          connectionState := Disconnected;
        }
      } else {
        EnsureSocket();
      }
    }

    /** `_on_close`: the close reason and code decide between blocking, suspending and retrying. */
    method OnClose(code: Option<int>, reason: string, now: nat)
      requires Valid()
      modifies this
      ensures Valid()
      ensures !isOpen
      ensures ClassifyClose(code, reason).ScopeMissing? || ClassifyClose(code, reason).Unauthorized? ==>
        && connectionState == Blocked && !socketEnabled && !hasSocket
        && trace == old(trace) + (if old(hasSocket) then [SocketClosed] else [])
        && suspendUntil == old(suspendUntil) && suspendNoticeLogged == old(suspendNoticeLogged)
      ensures ClassifyClose(code, reason).RateLimited? ==>
        && connectionState == Blocked && !suspendNoticeLogged
        && suspendUntil == now + ClassifyClose(code, reason).waitSeconds * 1000
      ensures ClassifyClose(code, reason).ServiceDisabled? ==>
        connectionState == Blocked && !suspendNoticeLogged && suspendUntil == now + ServiceDisabledWait * 1000
      ensures ClassifyClose(code, reason).OtherClose? ==>
        && connectionState == Disconnected
        && suspendUntil == old(suspendUntil) && suspendNoticeLogged == old(suspendNoticeLogged)
      ensures !ClassifyClose(code, reason).ScopeMissing? && !ClassifyClose(code, reason).Unauthorized? ==>
        socketEnabled == old(socketEnabled) && hasSocket == old(hasSocket) && trace == old(trace)
      ensures runnerStarted == old(runnerStarted)
      ensures CredentialsKept()
      ensures reconnectAttempts == old(reconnectAttempts) && lastConnectedAt == old(lastConnectedAt)
    {
      isOpen := false;
      var k := ClassifyClose(code, reason);
      if k.ScopeMissing? || k.Unauthorized? {
        connectionState := Blocked;
        SetConnectionEnabled(false, true);
      } else if k.RateLimited? {
        suspendUntil, suspendNoticeLogged := now + k.waitSeconds * 1000, false;
        connectionState := Blocked;
      } else if k.ServiceDisabled? {
        suspendUntil, suspendNoticeLogged := now + ServiceDisabledWait * 1000, false;
        connectionState := Blocked;
      } else {
        connectionState := Disconnected;
      }
    }

    /**
     * One turn of the runner loop up to the connection attempt: sleep while disabled or
     * suspended (the sleep in milliseconds is returned), otherwise open a connection with the
     * current credentials (None is returned).
     */
    method RunnerTick(now: nat) returns (sleepMs: Option<nat>)
      requires Valid()
      modifies this
      ensures Valid()
      ensures !old(socketEnabled) ==>
        && sleepMs == Some(DisabledSleep) && !isOpen && !hasSocket
        && trace == old(trace) + (if old(hasSocket) then [SocketClosed] else [])
        && suspendUntil == old(suspendUntil) && suspendNoticeLogged == old(suspendNoticeLogged)
        && connectionState == old(connectionState)
      ensures old(socketEnabled) && old(suspendUntil) != 0 && now < old(suspendUntil) ==>
        && sleepMs == Some(if old(suspendUntil) - now < SuspendSleepCap then old(suspendUntil) - now else SuspendSleepCap)
        && suspendNoticeLogged && suspendUntil == old(suspendUntil)
        && trace == old(trace) && isOpen == old(isOpen) && hasSocket == old(hasSocket)
        && connectionState == old(connectionState)
      ensures old(socketEnabled) && (old(suspendUntil) == 0 || now >= old(suspendUntil)) ==>
        && sleepMs.None? && suspendUntil == 0
        && suspendNoticeLogged == (old(suspendUntil) == 0 && old(suspendNoticeLogged))
        && connectionState == Connecting && hasSocket && isOpen == old(isOpen)
        && trace == old(trace) + [Connect(baseUrl, linkKey, apiKey)]
      ensures socketEnabled == old(socketEnabled) && runnerStarted == old(runnerStarted)
      ensures CredentialsKept()
      ensures reconnectAttempts == old(reconnectAttempts) && lastConnectedAt == old(lastConnectedAt)
    {
      if !socketEnabled {
        if hasSocket {
          trace := trace + [SocketClosed];
          hasSocket := false;
        }
        isOpen := false;
        return Some(DisabledSleep);
      }
      if suspendUntil != 0 {
        var remaining := suspendUntil - now;
        if remaining > 0 {
          suspendNoticeLogged := true;
          return Some(if remaining < SuspendSleepCap then remaining else SuspendSleepCap);
        }
        suspendUntil, suspendNoticeLogged := 0, false;
      }
      connectionState := Connecting;
      trace := trace + [Connect(baseUrl, linkKey, apiKey)];
      hasSocket := true;
      sleepMs := None;
    }

    /**
     * The end of a connection (it closed, or opening it raised): the socket is dropped and
     * the runner sleeps the back-off delay, in milliseconds, before the next turn.
     */
    method RunnerSessionEnded(raised: bool) returns (sleepMs: nat)
      requires Valid()
      modifies this
      ensures Valid()
      ensures !isOpen && !hasSocket
      ensures connectionState == if raised then Failed else old(connectionState)
      ensures sleepMs == BackoffDelay(old(reconnectAttempts)) * 1000
      ensures reconnectAttempts == NextAttempts(old(reconnectAttempts))
      ensures trace == old(trace) && socketEnabled == old(socketEnabled) && runnerStarted == old(runnerStarted)
      ensures CredentialsKept()
      ensures lastConnectedAt == old(lastConnectedAt) && suspendUntil == old(suspendUntil)
      ensures suspendNoticeLogged == old(suspendNoticeLogged)
    {
      if raised {
        connectionState := Failed;
      }
      isOpen, hasSocket := false, false;
      var delay := BackoffDelay(reconnectAttempts);
      reconnectAttempts := NextAttempts(reconnectAttempts);
      sleepMs := delay * 1000;
    }

    /** `force_reconnect`: acts as `ReconnectDecision` says. */
    method ForceReconnect(now: nat)
      requires Valid()
      modifies this
      ensures Valid()
      ensures var a := ReconnectDecision(now, old(suspendUntil), old(socketEnabled), old(isOpen),
                                         old(credentialsDirty), old(hasSocket), old(lastConnectedAt));
        && (a == StayPaused || a == SendPoll ==> SocketKept() && reconnectAttempts == old(reconnectAttempts))
        && (a == StayPaused ==> trace == old(trace))
        && (a == SendPoll ==> trace == old(trace) + [Sent(PollFrame)])
        && (a == EnableSocket || a == EnsureRunner ==>
              && socketEnabled && isOpen == old(isOpen) && hasSocket == old(hasSocket)
              && reconnectAttempts == old(reconnectAttempts)
              && runnerStarted == (old(runnerStarted) || !old(isOpen) || !old(hasSocket))
              && trace == old(trace) + (if runnerStarted && !old(runnerStarted) then [RunnerLaunched] else []))
        && (a == CloseStale || a == RefreshSocket ==>
              && SocketKept() && reconnectAttempts == 0
              && trace == old(trace) + (if old(hasSocket) then [SocketClosed] else []))
      ensures connectionState == old(connectionState)
      ensures CredentialsKept()
      ensures lastConnectedAt == old(lastConnectedAt) && suspendUntil == old(suspendUntil)
      ensures suspendNoticeLogged == old(suspendNoticeLogged)
    {
      if suspendUntil != 0 && now < suspendUntil {
        return;
      }
      if !socketEnabled {
        SetConnectionEnabled(true, true);
        return;
      }
      if !isOpen {
        EnsureSocket();
        return;
      }
      if credentialsDirty || !hasSocket {
        reconnectAttempts := 0;
        if hasSocket {
          trace := trace + [SocketClosed];
        }
        return;
      }
      if now - lastConnectedAt < RecentConnection {
        trace := trace + [Sent(PollFrame)];
        return;
      }
      reconnectAttempts := 0;
      trace := trace + [SocketClosed];
    }

    /** `report_progress`: a frame on the open socket (and a poll after DONE), else an HTTP PATCH. */
    method ReportProgress(jobId: int, progress: Option<int>, state: Option<string>, message: Option<string>)
      modifies this
      ensures isOpen ==> trace == old(trace) + [Sent(ProgressFrame(jobId, progress, state, message))]
                                + (if state == Some("DONE") then [Sent(PollFrame)] else [])
      ensures !isOpen ==> trace == old(trace) + [HttpPatch(
        baseUrl + "/queue/" + PyStr(JInt(jobId)) + "/progress",
        ProgressPayload(progress, state, message), AuthHeaders(linkKey, apiKey))]
      ensures CredentialsKept() && RetryKept() && SocketKept()
    {
      if isOpen {
        trace := trace + [Sent(ProgressFrame(jobId, progress, state, message))];
        if state == Some("DONE") {
          trace := trace + [Sent(PollFrame)];
        }
      } else {
        var url := baseUrl + "/queue/" + PyStr(JInt(jobId)) + "/progress";
        trace := trace + [HttpPatch(url, ProgressPayload(progress, state, message), AuthHeaders(linkKey, apiKey))];
      }
    }

    /** `push_inventory`: a frame on the open socket, else an HTTP POST. */
    method PushInventory(hashes: seq<string>)
      modifies this
      ensures isOpen ==> trace == old(trace) + [Sent(InventoryFrame(hashes))]
      ensures !isOpen ==> trace == old(trace) + [HttpPost(baseUrl + "/inventory", hashes, AuthHeaders(linkKey, apiKey))]
      ensures CredentialsKept() && RetryKept() && SocketKept()
    {
      if isOpen {
        trace := trace + [Sent(InventoryFrame(hashes))];
      } else {
        trace := trace + [HttpPost(baseUrl + "/inventory", hashes, AuthHeaders(linkKey, apiKey))];
      }
    }

    /**
     * The state `SavePushedKeys` leaves: the sanitised link key and the pushed API key in the
     * configuration (its base URL untouched); on a real change the in-memory keys are the
     * stripped configured ones and the base URL is the configured one re-normalised (or kept
     * when refused). A change of the in-memory credentials marks them dirty and lifts the
     * suspension; the connection time is kept.
     */
    twostate predicate KeysSaved(sanitized: Option<string>, apiKeyIn: Json)
      reads this
    {
      && config.linkKey == (if sanitized.Some? then sanitized.value else old(config.linkKey))
      && config.apiKey == PushedApiKey(apiKeyIn, old(config.apiKey))
      && config.baseUrl == old(config.baseUrl)
      && (config != old(config) ==>
            && baseUrl == NewBaseUrl(Some(config.baseUrl), old(baseUrl), devMode)
            && linkKey == Strip(config.linkKey) && apiKey == Strip(config.apiKey))
      && (config == old(config) ==> baseUrl == old(baseUrl) && linkKey == old(linkKey) && apiKey == old(apiKey))
      && credentialsDirty == (old(credentialsDirty) || CredentialsChanged())
      && (CredentialsChanged() ==> suspendUntil == 0 && !suspendNoticeLogged)
      && (!CredentialsChanged() ==> suspendUntil == old(suspendUntil) && suspendNoticeLogged == old(suspendNoticeLogged))
      && lastConnectedAt == old(lastConnectedAt)
    }

    /**
     * The key-saving half of `_apply_worker_state`, once the pushed link key has been
     * sanitised: changed keys are saved to the configuration and then applied through
     * `update_credentials`, together with the configured base URL.
     */
    method SavePushedKeys(sanitized: Option<string>, apiKeyIn: Json)
      requires Valid()
      modifies this
      ensures Valid()
      ensures KeysSaved(sanitized, apiKeyIn)
      ensures config == old(config) ==> CredentialsKept() && RetryKept()
      ensures trace == old(trace) && SocketKept()
      ensures reconnectAttempts == old(reconnectAttempts)
    {
      var cfg := config;
      if sanitized.Some? && sanitized.value != cfg.linkKey {
        cfg := cfg.(linkKey := sanitized.value);
      }
      if apiKeyIn != JNull {
        var strippedApi := PushedApiKey(apiKeyIn, cfg.apiKey);
        if strippedApi != cfg.apiKey {
          cfg := cfg.(apiKey := strippedApi);
        }
      }
      if cfg != config {
        config := cfg;
        UpdateCredentials(Some(cfg.baseUrl), Some(cfg.linkKey), Some(cfg.apiKey));
      }
    }

    /**
     * The connection side of switching the worker. The socket ends enabled (the runner is
     * launched when it is neither running nor connected). Starting the worker then reconnects
     * as `ReconnectDecision` chooses for an enabled socket, with the credentials and timers
     * as they are now (switching leaves those alone). The new worker state is announced on an
     * open socket; `after` is what has been recorded since.
     */
    twostate predicate WorkerSwitched(enable: bool, now: nat, after: seq<Event>)
      reads this
    {
      var launch := !(old(hasSocket) && old(isOpen)) && !old(runnerStarted);
      var a := ReconnectDecision(now, suspendUntil, true, old(isOpen), credentialsDirty, old(hasSocket), lastConnectedAt);
      && socketEnabled && isOpen == old(isOpen) && hasSocket == old(hasSocket)
      && connectionState == old(connectionState)
      && runnerStarted == (old(runnerStarted) || launch)
      && trace == old(trace) + (if launch then [RunnerLaunched] else [])
                 + (if enable then ReconnectEvents(a, old(hasSocket)) else [])
                 + (if old(isOpen) then [Sent(WorkerStateFrame(enable))] else []) + after
      && reconnectAttempts == (if enable && (a == CloseStale || a == RefreshSocket) then 0 else old(reconnectAttempts))
    }

    /**
     * The switching half of `_apply_worker_state`: the job worker is toggled, the socket is
     * enabled whichever way the worker goes (and reconnected when it starts), and the new
     * worker state is announced last.
     */
    method SwitchWorker(enable: bool, worker: Downloader.JobWorker, now: nat)
      requires Valid()
      modifies this, worker`running, worker`backendOk, worker`userDisabled
      ensures Valid()
      ensures worker.ToggledTo(enable)
      ensures WorkerSwitched(enable, now, [])
      ensures CredentialsKept()
      ensures lastConnectedAt == old(lastConnectedAt) && suspendUntil == old(suspendUntil)
      ensures suspendNoticeLogged == old(suspendNoticeLogged)
    {
      if enable {
        SetConnectionEnabled(true, true);
        worker.Toggle(true);
        ForceReconnect(now);
        SendFrame(WorkerStateFrame(true));
      } else {
        worker.Toggle(false);
        SetConnectionEnabled(true, true);
        SendFrame(WorkerStateFrame(false));
      }
    }

    /**
     * `_apply_worker_state`: stores pushed keys, switches the job worker and the connection,
     * announces the worker state and returns whether the worker runs. A malformed link key is
     * refused before anything changes.
     */
    method ApplyWorkerState(enable: bool, linkKeyIn: Json, apiKeyIn: Json, worker: Downloader.JobWorker, now: nat)
      returns (r: Result<bool>)
      requires Valid()
      modifies this, worker`running, worker`backendOk, worker`userDisabled
      ensures Valid()
      ensures r.Err? <==> SanitizeLinkKey(linkKeyIn).Err?
      ensures r.Err? ==> r.error == "Invalid link key format"
      ensures r.Err? ==> unchanged(this) && unchanged(worker)
      ensures r.Ok? ==> r.value == enable && worker.ToggledTo(enable) && WorkerSwitched(enable, now, [])
      ensures r.Ok? ==> KeysSaved(SanitizeLinkKey(linkKeyIn).value, apiKeyIn)
    {
      var sanitized := SanitizeLinkKey(linkKeyIn);
      if sanitized.Err? {
        return Err(sanitized.error);
      }
      SavePushedKeys(sanitized.value, apiKeyIn);
      SwitchWorker(enable, worker, now);
      r := Ok(worker.running);
    }

    /**
     * The answer to `set_worker_state`. A malformed link key changes nothing and is refused
     * in the acknowledgement. Otherwise the keys are saved (see `KeysSaved`), the worker is
     * switched (see `WorkerSwitched`), and the acknowledgement follows the worker-state frame.
     */
    twostate predicate WorkerStateAnswered(msg: ControlMsg, worker: Downloader.JobWorker, now: nat)
      reads this, worker
    {
      var enable := EnableFlag(msg.enable);
      var sanitized := SanitizeLinkKey(msg.linkKey);
      var ack := if sanitized.Ok? then Ack(msg.command, EchoId(msg.requestId), Some(enable), true, Some(enable), None)
                 else Ack(msg.command, EchoId(msg.requestId), Some(enable), false, None, Some("Invalid link key format"));
      && (sanitized.Err? ==>
            && unchanged(worker) && CredentialsKept() && RetryKept() && SocketKept()
            && trace == old(trace) + if !isOpen then [] else [Sent(ControlAckFrame(ack))])
      && (sanitized.Ok? ==>
            && worker.ToggledTo(enable)
            && KeysSaved(sanitized.value, msg.apiKey)
            && WorkerSwitched(enable, now, if isOpen then [Sent(ControlAckFrame(ack))] else []))
    }

    /** The `set_worker_state` branch of `_handle_control`. */
    method AnswerWorkerState(msg: ControlMsg, worker: Downloader.JobWorker, now: nat)
      requires Valid()
      modifies this, worker`running, worker`backendOk, worker`userDisabled
      ensures Valid()
      ensures WorkerStateAnswered(msg, worker, now)
    {
      var enable := EnableFlag(msg.enable);
      var result := ApplyWorkerState(enable, msg.linkKey, msg.apiKey, worker, now);
      var ack := match result
        case Ok(running) => Ack(msg.command, EchoId(msg.requestId), Some(enable), true, Some(running), None)
        case Err(e) => Ack(msg.command, EchoId(msg.requestId), Some(enable), false, None, Some(e));
      SendFrame(ControlAckFrame(ack));
    }

    /** `_handle_control`: answers `set_worker_state`, `list_subfolders` and anything else. */
    method HandleControl(msg: ControlMsg, worker: Downloader.JobWorker, now: nat, listSubfolders: string -> Result<seq<string>>)
      requires Valid()
      modifies this, worker`running, worker`backendOk, worker`userDisabled
      ensures Valid()
      ensures msg.command == JStr("set_worker_state") ==> WorkerStateAnswered(msg, worker, now)
      ensures msg.command == JStr("list_subfolders") ==>
        var kind := FolderKind(msg.kind);
        && unchanged(worker) && CredentialsKept() && RetryKept() && SocketKept()
        && trace == old(trace) + if !isOpen then [] else
             [Sent(
               if !IsFolderKind(kind) then
                 FoldersResultFrame(msg.requestId, false, None, None, Some("Unsupported kind '" + kind + "'"))
               else match listSubfolders(kind)
                 case Ok(folders) => FoldersResultFrame(msg.requestId, true, Some(kind), Some(folders), None)
                 case Err(e) => FoldersResultFrame(msg.requestId, false, Some(kind), None, Some(e)))]
      ensures msg.command != JStr("set_worker_state") && msg.command != JStr("list_subfolders") ==>
        && unchanged(worker) && CredentialsKept() && RetryKept() && SocketKept()
        && trace == old(trace) + if !isOpen then [] else
             [Sent(ControlAckFrame(Ack(msg.command, EchoId(msg.requestId), None, false, None, Some("unknown command"))))]
    {
      var requestId := EchoId(msg.requestId);
      if msg.command == JStr("set_worker_state") {
        AnswerWorkerState(msg, worker, now);
      } else if msg.command == JStr("list_subfolders") {
        var kind := FolderKind(msg.kind);
        if !IsFolderKind(kind) {
          SendFrame(FoldersResultFrame(msg.requestId, false, None, None, Some("Unsupported kind '" + kind + "'")));
          return;
        }
        match listSubfolders(kind) {
          case Ok(folders) =>
            SendFrame(FoldersResultFrame(msg.requestId, true, Some(kind), Some(folders), None));
          case Err(e) =>
            SendFrame(FoldersResultFrame(msg.requestId, false, Some(kind), None, Some(e)));
        }
      } else {
        SendFrame(ControlAckFrame(Ack(msg.command, requestId, None, false, None, Some("unknown command"))));
      }
    }
  }
}

=== FILE: link_protocol.dfy ===
/**
 * The pure rules of the link client: how a configured base URL is normalised, how the
 * WebSocket address and the credentials offered to the server are derived from it, how a
 * link key pushed by the server is validated, how a rate-limit close reason is read and how
 * the reconnect back-off grows.
 */
module LinkProtocol {
  import opened Wrappers
  import opened Text
  import opened Urls
  import Base64Url

  predicate IsSlash(c: char) { c == '/' }

  /** `rstrip` keeps a prefix whose last character it does not strip. */
  lemma DropWhileEndKeepsPrefix(s: string, prefix: string, drop: char -> bool)
    requires StartsWith(s, prefix) && prefix != [] && !drop(prefix[|prefix| - 1])
    ensures StartsWith(DropWhileEnd(s, drop), prefix)
  {
    var r := DropWhileEnd(s, drop);
    assert !drop(s[|prefix| - 1]);
    assert r[..|prefix|] == s[..|prefix|];
  }

  /** `rstrip` never reaches into a part that ends with a character it keeps. */
  lemma {:induction false} DropWhileEndAppend(a: string, b: string, drop: char -> bool)
    requires a != [] && !drop(a[|a| - 1])
    ensures DropWhileEnd(a + b, drop) == a + DropWhileEnd(b, drop)
  {
    if b == [] {
      assert a + b == a;
    } else if drop(b[|b| - 1]) {
      assert (a + b)[..|a + b| - 1] == a + b[..|b| - 1];
      DropWhileEndAppend(a, b[..|b| - 1], drop);
    }
  }

  // ----- the base URL -----

  /** The text `_normalise_base_url` hands to `urlparse`: a `ws`/`wss` URL is read as `http`/`https`. */
  function ParseTarget(trimmed: string): string {
    if StartsWith(trimmed, "ws://") || StartsWith(trimmed, "wss://") then
      ReplaceAll(ReplaceAll(trimmed, "wss://", "https://"), "ws://", "http://")
    else trimmed
  }

  /** The scheme `_normalise_base_url` judges, or None when the text does not parse. */
  function ParsedScheme(raw: string): Option<string> {
    match Urlparse(ParseTarget(Strip(raw)))
    case Err(_) => None
    case Ok(p) => Some(p.scheme)
  }

  /** A URL that does not end in `/`. */
  predicate NoTrailingSlash(s: string) { s == [] || s[|s| - 1] != '/' }

  /** What `_normalise_base_url` does once the text has parsed as `p`. */
  function AcceptBaseUrl(trimmed: string, p: Parsed, allowInsecure: bool): (r: Result<string>)
    ensures r.Ok? <==> p.scheme == "http" || p.scheme == "https"
    ensures r.Err? ==> r.error == "base_url must start with https://"
    ensures r.Ok? ==> NoTrailingSlash(r.value)
    ensures r.Ok? && !allowInsecure && p.scheme == "http" ==> StartsWith(r.value, "https:")
    ensures r.Ok? && (allowInsecure || p.scheme == "https") ==> r.value == DropWhileEnd(trimmed, IsSlash)
  {
    assert |"http"| != |"https"|;
    if p.scheme != "https" && p.scheme != "http" then Err("base_url must start with https://")
    else if p.scheme == "http" && !allowInsecure then
      var secure := Urlunparse(p.(scheme := "https"));
      DropWhileEndKeepsPrefix(secure, "https:", IsSlash);
      Ok(DropWhileEnd(secure, IsSlash))
    else Ok(DropWhileEnd(trimmed, IsSlash))
  }

  /**
   * `_normalise_base_url`. Only the parse decides the scheme; the text returned is the
   * trimmed input itself unless an `http` URL has to be upgraded, so a `ws://` or `wss://`
   * base is accepted and kept with its own scheme.
   */
  function NormaliseBaseUrl(raw: string, allowInsecure: bool): (r: Result<string>)
    ensures Strip(raw) == [] ==> r.Err? && r.error == "base_url cannot be empty"
    ensures r.Ok? ==> NoTrailingSlash(r.value)
  {
    var trimmed := Strip(raw);
    if trimmed == [] then Err("base_url cannot be empty")
    else match Urlparse(ParseTarget(trimmed))
      case Err(e) => Err(e)
      case Ok(p) => AcceptBaseUrl(trimmed, p, allowInsecure)
  }

  /** Once the base has parsed as `p`, its scheme alone decides between refusal, upgrade and keeping the text. */
  lemma NormaliseParsedBase(raw: string, allowInsecure: bool, p: Parsed)
    requires Strip(raw) != [] && Urlparse(ParseTarget(Strip(raw))) == Ok(p)
    ensures p.scheme != "http" && p.scheme != "https" ==>
      NormaliseBaseUrl(raw, allowInsecure) == Err("base_url must start with https://")
    ensures p.scheme == "http" && !allowInsecure ==>
      NormaliseBaseUrl(raw, allowInsecure).Ok? && StartsWith(NormaliseBaseUrl(raw, allowInsecure).value, "https:")
    ensures p.scheme == "https" || (p.scheme == "http" && allowInsecure) ==>
      NormaliseBaseUrl(raw, allowInsecure) == Ok(DropWhileEnd(Strip(raw), IsSlash))
    ensures NormaliseBaseUrl(raw, allowInsecure).Ok? ==>
      NoTrailingSlash(NormaliseBaseUrl(raw, allowInsecure).value)
  {
    var r := AcceptBaseUrl(Strip(raw), p, allowInsecure);
    assert NormaliseBaseUrl(raw, allowInsecure) == r;
  }

  /** Outside development mode an ordinary `http://host/path` base becomes `https://host/path`, trailing slashes dropped. */
  lemma HttpBaseUpgraded(host: string, path: string)
    requires IsPlainHost(host) && IsPlainPath(path)
    ensures NormaliseBaseUrl("http://" + host + path, false) == Ok("https://" + host + DropWhileEnd(path, IsSlash))
  {
    HttpBaseParses(host, path);
    RebuiltUnderHttps("http://" + host + path, host, path);
  }

  /** An ordinary `http://host/path` needs no trimming and parses into its parts. */
  lemma HttpBaseParses(host: string, path: string)
    requires IsPlainHost(host) && IsPlainPath(path)
    ensures var raw := "http://" + host + path;
      raw[0] == 'h' && Strip(raw) == raw && Urlparse(raw) == Ok(Parsed("http", host, path, [], [], []))
  {
    assert "http" + "://" + host + path == "http://" + host + path;
    PlainUrlIsTrimmed("http", host, path);
    ParseSchemeHostPath("http", host, path);
  }

  /** The upgrade re-assembles the parsed host and path under `https`. */
  lemma RebuiltUnderHttps(raw: string, host: string, path: string)
    requires IsPlainHost(host) && IsPlainPath(path)
    requires raw != [] && raw[0] == 'h' && Strip(raw) == raw
    requires Urlparse(raw) == Ok(Parsed("http", host, path, [], [], []))
    ensures NormaliseBaseUrl(raw, false) == Ok("https://" + host + DropWhileEnd(path, IsSlash))
  {
    NormaliseParsedHttp(raw, Parsed("http", host, path, [], [], []));
    HttpsRebuilt(host, path);
  }

  /** `urlunparse` of an `https` host and path, trailing slashes dropped, keeps the host and path. */
  lemma HttpsRebuilt(host: string, path: string)
    requires IsPlainHost(host) && IsPlainPath(path)
    ensures DropWhileEnd(Urlunparse(Parsed("https", host, path, [], [], [])), IsSlash)
         == "https://" + host + DropWhileEnd(path, IsSlash)
  {
    UnparseNetlocPath(Parsed("https", host, path, [], [], []));
    assert "https" + "://" + host + path == "https://" + host + path;
    var secure := "https://" + host;
    assert secure[|secure| - 1] == host[|host| - 1] && IsHostChar(host[|host| - 1]);
    DropWhileEndAppend(secure, path, IsSlash);
  }

  /** An `http` base that needs no trimming is upgraded by re-assembling its parsed parts under `https`. */
  lemma NormaliseParsedHttp(raw: string, p: Parsed)
    requires raw != [] && Strip(raw) == raw && raw[0] == 'h'
    requires Urlparse(raw) == Ok(p) && p.scheme == "http"
    ensures NormaliseBaseUrl(raw, false) == Ok(DropWhileEnd(Urlunparse(p.(scheme := "https")), IsSlash))
  {
    ParseTargetOfNonWebSocket(raw);
  }

  /** Text that does not begin with `w` is handed to `urlparse` as it is. */
  lemma ParseTargetOfNonWebSocket(raw: string)
    requires raw != [] && raw[0] != 'w'
    ensures ParseTarget(raw) == raw
  {
    if 5 <= |raw| { assert raw[..5][0] != 'w'; }
    if 6 <= |raw| { assert raw[..6][0] != 'w'; }
  }

  /** An ordinary `scheme://host/path` has no surrounding blanks to strip. */
  lemma PlainUrlIsTrimmed(scheme: string, host: string, path: string)
    requires IsLowerScheme(scheme) && IsPlainHost(host) && IsPlainPath(path)
    ensures Strip(scheme + "://" + host + path) == scheme + "://" + host + path
  {
    var raw := scheme + "://" + host + path;
    var n := |scheme| + 3;
    forall i | 0 <= i < |raw| ensures !IsSpace(raw[i]) {
      if i < |scheme| { assert IsSchemeChar(scheme[i]); }
      else if n <= i < n + |host| { assert IsHostChar(host[i - n]); }
      else if n + |host| <= i { assert IsHostChar(path[i - n - |host|]) || path[i - n - |host|] == '/'; }
    }
    StripNoSpace(raw);
  }

  // ----- the WebSocket address -----

  /** `_refresh_ws_url`: `https://` becomes `wss://`, `http://` becomes `ws://`, then `/ws` is appended. */
  function WsUrl(baseUrl: string): (r: string)
    ensures EndsWith(r, "/ws")
  {
    var mapped := ReplaceAll(ReplaceAll(baseUrl, "https://", "wss://"), "http://", "ws://");
    var r := DropWhileEnd(mapped, IsSlash) + "/ws";
    assert r[|r| - 3..] == "/ws";
    r
  }

  /** A pattern with a colon at index k cannot occur where every colon sits before index k. */
  lemma PatternNeedsColon(s: string, pattern: string, k: nat)
    requires k < |pattern| && pattern[k] == ':'
    requires forall i :: 0 <= i < |s| && s[i] == ':' ==> i < k
    ensures forall i: nat :: !OccursAt(s, pattern, i)
  {
    forall i: nat ensures !OccursAt(s, pattern, i) {
      if i + |pattern| <= |s| {
        assert s[i..i + |pattern|][k] == s[i + k];
      }
    }
  }

  /** The address the runner connects to: the WebSocket address with the worker query. */
  function WorkerUrl(baseUrl: string): (r: string)
    ensures EndsWith(r, "/ws?mode=worker")
  {
    var ws := WsUrl(baseUrl);
    EndsWithExtend(ws, "/ws", "?mode=worker");
    assert "/ws" + "?mode=worker" == "/ws?mode=worker";
    ws + "?mode=worker"
  }

  /** A pattern found only at the very front is replaced there and nowhere else. */
  lemma ReplaceOnlyAtFront(rest: string, pattern: string, replacement: string)
    requires pattern != [] && forall i: nat :: !OccursAt(rest, pattern, i)
    ensures ReplaceAll(pattern + rest, pattern, replacement) == replacement + rest
  {
    var s := pattern + rest;
    assert s[..|pattern|] == pattern;
    assert s[|pattern|..] == rest;
    ReplaceAbsent(rest, pattern, replacement);
  }

  /** A scheme prefix (its colon at index k) before text without `:` is replaced once, at the front. */
  lemma ReplaceSchemeOnce(rest: string, pattern: string, replacement: string, k: nat)
    requires k < |pattern| && pattern[k] == ':'
    requires forall i :: 0 <= i < |rest| ==> rest[i] != ':'
    ensures ReplaceAll(pattern + rest, pattern, replacement) == replacement + rest
  {
    PatternNeedsColon(rest, pattern, k);
    ReplaceOnlyAtFront(rest, pattern, replacement);
  }

  /** In a `wss://` address with no other `:`, the only colon is the scheme's. */
  lemma WssColonFirst(hp: string)
    requires forall i :: 0 <= i < |hp| ==> hp[i] != ':'
    ensures forall i :: 0 <= i < |"wss://" + hp| && ("wss://" + hp)[i] == ':' ==> i < 4
  {
  }

  /** An address whose colons all come before index 4 holds no `http://` to replace. */
  lemma NoHttpAfterScheme(s: string)
    requires forall i :: 0 <= i < |s| && s[i] == ':' ==> i < 4
    ensures ReplaceAll(s, "http://", "ws://") == s
  {
    PatternNeedsColon(s, "http://", 4);
    ReplaceAbsent(s, "http://", "ws://");
  }

  /** Host and path characters of an ordinary URL are never `:`. */
  lemma PlainHostPathHaveNoColon(host: string, path: string)
    requires IsPlainHost(host) && IsPlainPath(path)
    ensures forall i :: 0 <= i < |host + path| ==> (host + path)[i] != ':'
  {
    forall i | 0 <= i < |host + path| ensures (host + path)[i] != ':' {
      if i < |host| { assert IsHostChar(host[i]); } else { assert IsHostChar(path[i - |host|]) || path[i - |host|] == '/'; }
    }
  }

  /** A base of the form `https://` plus text without `:` maps to `wss://` plus that text. */
  lemma WsUrlOfHttpsText(host: string, path: string)
    requires forall i :: 0 <= i < |host + path| ==> (host + path)[i] != ':'
    ensures WsUrl("https://" + host + path) == DropWhileEnd("wss://" + host + path, IsSlash) + "/ws"
  {
    var hp := host + path;
    assert "https://" + host + path == "https://" + hp;
    assert "wss://" + host + path == "wss://" + hp;
    ReplaceSchemeOnce(hp, "https://", "wss://", 5);
    WssColonFirst(hp);
    NoHttpAfterScheme("wss://" + hp);
  }

  /** An ordinary `https://host/path` base gives `wss://host/path/ws`, trailing slashes dropped. */
  lemma WsUrlOfHttpsBase(host: string, path: string)
    requires IsPlainHost(host) && IsPlainPath(path)
    ensures WsUrl("https://" + host + path) == "wss://" + host + DropWhileEnd(path, IsSlash) + "/ws"
  {
    PlainHostPathHaveNoColon(host, path);
    WsUrlOfHttpsText(host, path);
    assert IsHostChar(host[|host| - 1]);
    DropWhileEndAppend("wss://" + host, path, IsSlash);
  }

  // ----- credentials offered to the server -----

  /** `_encode_protocol_value`: unpadded base64url of the UTF-8 bytes, empty for empty text. */
  function EncodeProtocolValue(value: string): (r: string)
    ensures r == [] <==> value == []
    ensures forall i :: 0 <= i < |r| ==> Base64Url.InAlphabet(r[i])
    ensures value != [] ==> Base64Url.DecodeToken(r) == Some(value)
  {
    if value == [] then []
    else
      var bytes := Base64Url.Utf8(value);
      Base64Url.EncodeRoundTrip(bytes);
      Base64Url.Utf8RoundTrip(value);
      Base64Url.Encode(bytes)
  }

  const LinkKeyProtocol := "aec-link.link-key."
  const ApiKeyProtocol := "aec-link.api-key."
  const LinkKeyHeader := "x-link-key"
  const ApiKeyHeader := "x-api-key"

  /** Which credential a connection attempt offers. */
  datatype Credential = LinkKeyCred(key: string) | ApiKeyCred(key: string) | NoCred

  /** The choice `_ws_subprotocols` makes: a key counts when it is not blank. */
  function ProtocolCredential(linkKey: string, apiKey: string): (c: Credential)
    ensures c.LinkKeyCred? <==> Strip(linkKey) != []
    ensures c.ApiKeyCred? <==> Strip(linkKey) == [] && Strip(apiKey) != []
    ensures c.LinkKeyCred? ==> c.key == linkKey
    ensures c.ApiKeyCred? ==> c.key == apiKey
  {
    if Strip(linkKey) != [] then LinkKeyCred(linkKey)
    else if Strip(apiKey) != [] then ApiKeyCred(apiKey)
    else NoCred
  }

  /** The choice `headers()` and the runner make: a key counts when it is not empty. */
  function HeaderCredential(linkKey: string, apiKey: string): (c: Credential)
    ensures c.LinkKeyCred? <==> linkKey != []
    ensures c.ApiKeyCred? <==> linkKey == [] && apiKey != []
    ensures c.LinkKeyCred? ==> c.key == linkKey
    ensures c.ApiKeyCred? ==> c.key == apiKey
  {
    if linkKey != [] then LinkKeyCred(linkKey)
    else if apiKey != [] then ApiKeyCred(apiKey)
    else NoCred
  }

  /** `_ws_subprotocols`: one sub-protocol carrying the chosen key as a token, or None. */
  function WsSubprotocols(linkKey: string, apiKey: string): (r: Option<seq<string>>)
    ensures r.None? <==> ProtocolCredential(linkKey, apiKey).NoCred?
    ensures r.Some? ==> |r.value| == 1
    ensures ProtocolCredential(linkKey, apiKey).LinkKeyCred? ==>
      exists t :: Base64Url.DecodeToken(t) == Some(linkKey) && r == Some([LinkKeyProtocol + t])
    ensures ProtocolCredential(linkKey, apiKey).ApiKeyCred? ==>
      exists t :: Base64Url.DecodeToken(t) == Some(apiKey) && r == Some([ApiKeyProtocol + t])
  {
    match ProtocolCredential(linkKey, apiKey)
    case LinkKeyCred(k) => Some([LinkKeyProtocol + EncodeProtocolValue(k)])
    case ApiKeyCred(k) => Some([ApiKeyProtocol + EncodeProtocolValue(k)])
    case NoCred => None
  }

  /** `headers()`: at most one header, carrying the chosen key unchanged. */
  function AuthHeaders(linkKey: string, apiKey: string): (r: map<string, string>)
    ensures |r| <= 1
    ensures HeaderCredential(linkKey, apiKey).LinkKeyCred? ==> r == map[LinkKeyHeader := linkKey]
    ensures HeaderCredential(linkKey, apiKey).ApiKeyCred? ==> r == map[ApiKeyHeader := apiKey]
    ensures HeaderCredential(linkKey, apiKey).NoCred? ==> r == map[]
  {
    match HeaderCredential(linkKey, apiKey)
    case LinkKeyCred(k) => map[LinkKeyHeader := k]
    case ApiKeyCred(k) => map[ApiKeyHeader := k]
    case NoCred => map[]
  }

  /** The header lines the runner sends with the WebSocket handshake: one per entry of `headers()`. */
  function RunnerHeaderLines(linkKey: string, apiKey: string): (r: seq<string>)
    ensures |r| == |AuthHeaders(linkKey, apiKey)|
    ensures forall name :: name in AuthHeaders(linkKey, apiKey) ==> r == [name + ": " + AuthHeaders(linkKey, apiKey)[name]]
  {
    match HeaderCredential(linkKey, apiKey)
    case LinkKeyCred(k) => [LinkKeyHeader + ": " + k]
    case ApiKeyCred(k) => [ApiKeyHeader + ": " + k]
    case NoCred => []
  }

  /** With stripped keys, as `update_credentials` stores them, the sub-protocol and the headers offer the same key. */
  lemma SameCredentialOffered(linkKey: string, apiKey: string)
    requires Strip(linkKey) == linkKey && Strip(apiKey) == apiKey
    ensures ProtocolCredential(linkKey, apiKey) == HeaderCredential(linkKey, apiKey)
  {
  }

  /**
   * A link key read from the configuration is not stripped; a blank one is offered as the
   * `x-link-key` header while the sub-protocol falls back to the API key.
   */
  lemma BlankLinkKeyOfferedTwoWays(apiKey: string)
    requires Strip(apiKey) != []
    ensures HeaderCredential(" ", apiKey) == LinkKeyCred(" ")
    ensures ProtocolCredential(" ", apiKey) == ApiKeyCred(apiKey)
  {
    StripBlank(" ");
  }

  // ----- link keys pushed by the server -----

  /**
   * A JSON value as it arrives in a control message. `JFloat` is a finite number written with a
   * fraction or an exponent: its value as a double, and Python's `str()` of it. `JOther` carries
   * Python's `str()` and truthiness of anything else (arrays, objects, NaN and the infinities),
   * none of which compares equal to a number, a boolean or a string.
   */
  datatype Json = JNull | JBool(b: bool) | JInt(n: int) | JFloat(x: real, text: string) | JStr(s: string) | JOther(text: string, truthy: bool)

  /** Python's `str(value)`. */
  function PyStr(v: Json): string {
    match v
    case JNull => "None"
    case JBool(b) => if b then "True" else "False"
    case JInt(n) => if n < 0 then "-" + Decimal(-n) else Decimal(n)
    case JFloat(_, text) => text
    case JStr(s) => s
    case JOther(text, _) => text
  }

  predicate IsKeyChar(c: char) { IsAsciiAlpha(c) || IsDigit(c) || c == '_' || c == '-' }

  /** `lk_` followed by exactly 32 characters from `[A-Za-z0-9_-]`. */
  predicate IsLinkKey(k: string) {
    |k| == 35 && k[0] == 'l' && k[1] == 'k' && k[2] == '_' && forall i :: 3 <= i < 35 ==> IsKeyChar(k[i])
  }

  /** `_sanitize_link_key`: None stays None, blank becomes "", a well-formed key is kept, anything else is refused. */
  function SanitizeLinkKey(v: Json): (r: Result<Option<string>>)
    ensures r == Ok(None) <==> v == JNull
    ensures r == Ok(Some([])) <==> v != JNull && Strip(PyStr(v)) == []
    ensures r.Ok? && r.value.Some? && r.value.value != [] ==>
      r.value.value == Strip(PyStr(v)) && IsLinkKey(r.value.value)
    ensures r.Err? <==> v != JNull && Strip(PyStr(v)) != [] && !IsLinkKey(Strip(PyStr(v)))
    ensures r.Err? ==> r.error == "Invalid link key format"
  {
    if v == JNull then Ok(None)
    else
      var key := Strip(PyStr(v));
      if key == [] then Ok(Some([]))
      else if !IsLinkKey(key) then Err("Invalid link key format")
      else Ok(Some(key))
  }

  /** Every well-formed key is accepted as it is, and accepting is idempotent. */
  lemma WellFormedKeyAccepted(k: string)
    requires IsLinkKey(k)
    ensures SanitizeLinkKey(JStr(k)) == Ok(Some(k))
  {
    forall i | 0 <= i < |k| ensures !IsSpace(k[i]) {
      if i >= 3 { assert IsKeyChar(k[i]); }
    }
    StripNoSpace(k);
  }

  /** A number pushed as a link key is never a well-formed key, so it is refused. */
  lemma NumericKeyRefused(n: int)
    ensures SanitizeLinkKey(JInt(n)).Err?
  {
    var text := PyStr(JInt(n));
    assert text[0] == '-' || IsDigit(text[0]);
    forall i | 0 <= i < |text| ensures !IsSpace(text[i]) {
      if n >= 0 { assert IsDigit(text[i]); } else if i > 0 { assert text[i] == Decimal(-n)[i - 1]; }
    }
    StripNoSpace(text);
  }

  // ----- rate limiting -----

  const RateLimitedPrefix := "RATE_LIMITED:"

  /**
   * `_parse_retry_after`: the seconds after `RATE_LIMITED:`, or 0 when the reason has another
   * form. Only decimal digits (with surrounding white space) are read as a number.
   */
  function ParseRetryAfter(reason: string): (seconds: nat)
    ensures !StartsWith(reason, RateLimitedPrefix) ==> seconds == 0
    ensures seconds > 0 ==> var t := Strip(reason[|RateLimitedPrefix|..]); t != [] && AllDigits(t) && seconds == ParseDigits(t)
  {
    if !StartsWith(reason, RateLimitedPrefix) then 0
    else
      var t := Strip(reason[|RateLimitedPrefix|..]);
      if t != [] && AllDigits(t) then ParseDigits(t) else 0
  }

  const DefaultRateLimitWait := 900

  /** `_parse_retry_after(reason) or _DEFAULT_RATE_LIMIT_WAIT`: a zero wait is replaced by 900 seconds. */
  function RateLimitWait(reason: string): (w: nat)
    ensures w > 0
    ensures ParseRetryAfter(reason) == 0 ==> w == DefaultRateLimitWait
    ensures ParseRetryAfter(reason) > 0 ==> w == ParseRetryAfter(reason)
  {
    var parsed := ParseRetryAfter(reason);
    if parsed == 0 then DefaultRateLimitWait else parsed
  }

  /** The wait the server announces as `RATE_LIMITED:<n>` is the wait the client keeps (900 for 0). */
  lemma RetryAfterRoundTrip(n: nat)
    ensures ParseRetryAfter(RateLimitedPrefix + Decimal(n)) == n
    ensures RateLimitWait(RateLimitedPrefix + Decimal(n)) == if n == 0 then DefaultRateLimitWait else n
  {
    var d := Decimal(n);
    var reason := RateLimitedPrefix + d;
    StartsWithConcat(RateLimitedPrefix, d);
    assert reason[|RateLimitedPrefix|..] == d;
    forall i | 0 <= i < |d| ensures !IsSpace(d[i]) { assert IsDigit(d[i]); }
    StripNoSpace(d);
    DecimalRoundTrip(n);
  }

  /** A close reason without the prefix always gives the default wait. */
  lemma OtherReasonGivesDefaultWait(reason: string)
    requires !StartsWith(reason, RateLimitedPrefix)
    ensures RateLimitWait(reason) == DefaultRateLimitWait
  {
  }

  // ----- reconnect back-off -----

  const ReconnectBaseDelay := 1
  const ReconnectMaxDelay := 10
  const MaxReconnectAttempts := 6

  function Pow2(k: nat): (r: nat)
    ensures r >= 1
  {
    if k == 0 then 1 else 2 * Pow2(k - 1)
  }

  /** The runner's sleep after a failed connection: `min(10, 1 * 2 ** attempts)` seconds. */
  function BackoffDelay(attempts: nat): (d: nat)
    ensures ReconnectBaseDelay <= d <= ReconnectMaxDelay
    ensures d == ReconnectMaxDelay || d == ReconnectBaseDelay * Pow2(attempts)
  {
    var raw := ReconnectBaseDelay * Pow2(attempts);
    if raw < ReconnectMaxDelay then raw else ReconnectMaxDelay
  }

  /** `min(attempts + 1, 6)`. */
  function NextAttempts(attempts: nat): (r: nat)
    ensures r <= MaxReconnectAttempts
    ensures attempts < MaxReconnectAttempts ==> r == attempts + 1
  {
    if attempts + 1 < MaxReconnectAttempts then attempts + 1 else MaxReconnectAttempts
  }

  /** The counter after k failures in a row, starting from a fresh connection. */
  function AttemptsAfter(k: nat): nat {
    if k == 0 then 0 else NextAttempts(AttemptsAfter(k - 1))
  }

  lemma {:induction false} AttemptsSaturate(k: nat)
    ensures AttemptsAfter(k) == if k < MaxReconnectAttempts then k else MaxReconnectAttempts
  {
    if k > 0 { AttemptsSaturate(k - 1); }
  }

  /** Consecutive failures sleep 1, 2, 4 and 8 seconds, then 10 seconds from then on. */
  lemma BackoffSchedule(k: nat)
    ensures BackoffDelay(AttemptsAfter(k)) == if k < 4 then Pow2(k) else ReconnectMaxDelay
  {
    AttemptsSaturate(k);
    assert Pow2(4) == 16;
    if k >= 4 {
      var a := AttemptsAfter(k);
      assert 4 <= a <= 6;
      assert Pow2(5) == 32 && Pow2(6) == 64;
    }
  }
}

=== FILE: origins.dfy ===
/**
 * Which browser origins the local web UI answers: the ArcEnCiel domain over HTTPS
 * always, private and local hosts only in development mode.
 *
 * Whether a host is an IP literal, and whether that address is private or loopback,
 * is the job of Python's `ipaddress` module; here it is the parameter `ip`, which
 * gives None for text that is not an address and Some(private-or-loopback) otherwise.
 */
module Origins {
  import opened Wrappers
  import opened Text
  import opened Urls

  /** `_is_arcenciel_host`: the domain itself or any name ending in `.arcenciel.io`. */
  predicate IsArcencielHost(host: string) {
    host == "arcenciel.io" || EndsWith(host, ".arcenciel.io")
  }

  /** The allowed hosts are exactly the domain and its subdomains, so `evilarcenciel.io` is not one. */
  lemma ArcencielHostIsDomainOrSubdomain(host: string)
    ensures IsArcencielHost(host) <==> host == "arcenciel.io" || exists sub :: host == sub + ".arcenciel.io"
  {
    if EndsWith(host, ".arcenciel.io") {
      var sub := host[..|host| - 13];
      assert host == sub + ".arcenciel.io";
    }
    if exists sub :: host == sub + ".arcenciel.io" {
      var sub :| host == sub + ".arcenciel.io";
      assert host[|host| - 13..] == ".arcenciel.io";
    }
  }

  lemma LookalikeHostRejected()
    ensures !IsArcencielHost("evilarcenciel.io")
    ensures IsArcencielHost("arcenciel.io") && IsArcencielHost("studio.arcenciel.io")
  {
    assert "evilarcenciel.io"[3] != ".arcenciel.io"[0];
    assert "studio.arcenciel.io"[6..] == ".arcenciel.io";
  }

  /** `_is_private_host`. */
  predicate IsPrivateHost(host: string, ip: string -> Option<bool>) {
    if host == [] then false
    else match ip(host)
      case Some(privateOrLoopback) => privateOrLoopback
      case None =>
        var lowered := Lower(host);
        lowered == "localhost" || EndsWith(lowered, ".local") || EndsWith(lowered, ".lan") || '.' !in lowered
  }

  /** `is_private_host`: an absent host is not private. */
  predicate IsPrivateHostOpt(host: Option<string>, ip: string -> Option<bool>) {
    host.Some? && IsPrivateHost(host.value, ip)
  }

  lemma LowerKeepsDots(s: string)
    ensures '.' in Lower(s) <==> '.' in s
  {
    if '.' in s {
      var i :| 0 <= i < |s| && s[i] == '.';
      assert Lower(s)[i] == '.';
    }
    if '.' in Lower(s) {
      var i :| 0 <= i < |s| && Lower(s)[i] == '.';
      assert s[i] == '.';
    }
  }

  /** A name that is not an address is private when it has no dot at all ("nas", "localhost"). */
  lemma DotlessNameIsPrivate(host: string, ip: string -> Option<bool>)
    requires host != [] && ip(host).None? && '.' !in host
    ensures IsPrivateHost(host, ip)
  {
    LowerKeepsDots(host);
  }

  /** A name that is not an address and is neither local nor dotless is public, whatever the letter case. */
  lemma DottedPublicNameIsNotPrivate(host: string, ip: string -> Option<bool>)
    requires ip(host).None? && '.' in host
    requires !EndsWith(Lower(host), ".local") && !EndsWith(Lower(host), ".lan")
    ensures !IsPrivateHost(host, ip)
  {
    LowerKeepsDots(host);
  }

  /** An IP literal is classified by the address alone: private or loopback, nothing else. */
  lemma AddressIsClassifiedByIp(host: string, ip: string -> Option<bool>)
    requires host != [] && ip(host).Some?
    ensures IsPrivateHost(host, ip) == ip(host).value
  {
  }

  /** The host `normalize_origin` judges: the parse result's hostname, whitespace stripped. */
  function OriginHost(p: Parsed): string {
    Strip(Hostname(p.netloc).GetOr([]))
  }

  /** The decision `normalize_origin` takes once the origin has parsed. */
  function AcceptParsed(p: Parsed, allowPrivate: bool, ip: string -> Option<bool>): (r: Option<string>)
    ensures r.Some? ==>
      && (p.scheme == "http" || p.scheme == "https")
      && r.value == p.scheme + "://" + p.netloc
      && OriginHost(p) != []
      && ((allowPrivate && IsPrivateHost(OriginHost(p), ip)) || (p.scheme == "https" && IsArcencielHost(OriginHost(p))))
  {
    if p.scheme != "http" && p.scheme != "https" then None
    else
      var host := OriginHost(p);
      if host == [] then None
      else if allowPrivate && IsPrivateHost(host, ip) then Some(p.scheme + "://" + p.netloc)
      else if IsArcencielHost(host) then
        if p.scheme != "https" then None else Some(p.scheme + "://" + p.netloc)
      else None
  }

  /** `normalize_origin`: the canonical `scheme://netloc` of an acceptable origin, else None. */
  function NormalizeOrigin(origin: Option<string>, allowPrivate: bool, ip: string -> Option<bool>): (r: Option<string>)
    ensures r.Some? ==> origin.Some? && origin.value != [] && Urlparse(origin.value).Ok?
    ensures r.Some? ==>
      var p := Urlparse(origin.value).value;
      && (p.scheme == "http" || p.scheme == "https")
      && r.value == p.scheme + "://" + p.netloc
      && OriginHost(p) != []
    ensures r.Some? && !allowPrivate ==>
      Urlparse(origin.value).value.scheme == "https" && IsArcencielHost(OriginHost(Urlparse(origin.value).value))
  {
    if origin.None? || origin.value == [] then None
    else match Urlparse(origin.value)
      case Err(_) => None
      case Ok(p) => AcceptParsed(p, allowPrivate, ip)
  }

  /** Development mode accepts everything production does, and more. */
  lemma DevModeIsMorePermissive(origin: Option<string>, ip: string -> Option<bool>)
    requires NormalizeOrigin(origin, false, ip).Some?
    ensures NormalizeOrigin(origin, true, ip) == NormalizeOrigin(origin, false, ip)
  {
  }

  /** No origin header, or an empty one, normalises to None. */
  lemma EmptyOriginRejected(allowPrivate: bool, ip: string -> Option<bool>)
    ensures NormalizeOrigin(None, allowPrivate, ip).None? && NormalizeOrigin(Some(""), allowPrivate, ip).None?
  {
  }

  /** An ordinary name: its hostname is the lower-cased name and stripping changes nothing. */
  lemma OriginHostOfPlainHost(p: Parsed)
    requires IsPlainHost(p.netloc)
    ensures OriginHost(p) == Lower(p.netloc)
    ensures IsPlainHost(OriginHost(p))
  {
    HostnameOfPlainHost(p.netloc);
    PlainHostLowered(p.netloc);
    StripNoSpace(Lower(p.netloc));
  }

  /** Once the origin text is known to parse, the decision is the one taken on its parts. */
  lemma NormalizeViaParse(origin: string, p: Parsed, allowPrivate: bool, ip: string -> Option<bool>)
    requires origin != [] && Urlparse(origin) == Ok(p)
    ensures NormalizeOrigin(Some(origin), allowPrivate, ip) == AcceptParsed(p, allowPrivate, ip)
  {
  }

  /** `https://<subdomain>.arcenciel.io` is accepted as written, letter case and all. */
  lemma ArcencielOriginOverHttps(host: string, allowPrivate: bool, ip: string -> Option<bool>)
    requires IsPlainHost(host) && IsArcencielHost(Lower(host))
    ensures NormalizeOrigin(Some("https" + "://" + host), allowPrivate, ip) == Some("https" + "://" + host)
  {
    WebSchemesAreLowerSchemes();
    ParseSchemeHost("https", host);
    OriginHostOfPlainHost(Parsed("https", host, [], [], [], []));
  }

  lemma HttpArcencielParsedRefused(host: string, allowPrivate: bool, ip: string -> Option<bool>)
    requires IsPlainHost(host) && IsArcencielHost(Lower(host))
    requires !(allowPrivate && IsPrivateHost(Lower(host), ip))
    ensures AcceptParsed(Parsed("http", host, [], [], [], []), allowPrivate, ip).None?
  {
    var p := Parsed("http", host, [], [], [], []);
    OriginHostOfPlainHost(p);
    assert p.scheme != "https" by { assert |"http"| != |"https"|; }
    assert OriginHost(p) == Lower(host) && OriginHost(p) != [];
  }

  /** The same origin over plain HTTP is refused unless development mode admits it as private. */
  lemma ArcencielOriginOverHttpRefused(host: string, allowPrivate: bool, ip: string -> Option<bool>)
    requires IsPlainHost(host) && IsArcencielHost(Lower(host))
    requires !(allowPrivate && IsPrivateHost(Lower(host), ip))
    ensures NormalizeOrigin(Some("http" + "://" + host), allowPrivate, ip).None?
  {
    WebSchemesAreLowerSchemes();
    ParseSchemeHost("http", host);
    NormalizeViaParse("http" + "://" + host, Parsed("http", host, [], [], [], []), allowPrivate, ip);
    HttpArcencielParsedRefused(host, allowPrivate, ip);
  }

  /** In production, a host outside the domain (such as `evilarcenciel.io`) is refused whatever the scheme. */
  lemma ForeignOriginRejected(origin: string, ip: string -> Option<bool>)
    requires Urlparse(origin).Ok? && !IsArcencielHost(OriginHost(Urlparse(origin).value))
    ensures NormalizeOrigin(Some(origin), false, ip).None?
  {
  }

  /** In development mode a private host is accepted over plain HTTP, before the domain rule is consulted. */
  lemma DevModeAcceptsPrivateHttp(host: string, ip: string -> Option<bool>)
    requires IsPlainHost(host) && IsPrivateHost(Lower(host), ip)
    ensures NormalizeOrigin(Some("http" + "://" + host), true, ip) == Some("http" + "://" + host)
  {
    var p := Parsed("http", host, [], [], [], []);
    WebSchemesAreLowerSchemes();
    ParseSchemeHost("http", host);
    NormalizeViaParse("http" + "://" + host, p, true, ip);
    OriginHostOfPlainHost(p);
    assert AcceptParsed(p, true, ip) == Some("http" + "://" + host);
  }
}

=== FILE: paths.dfy ===
/**
 * The few `pathlib` and `os.path` operations the worker and the model scan use, on POSIX
 * path strings. `Name` reads a path as `pathlib` parses it (repeated slashes and `.`
 * components do not count); `Join` builds paths without normalising them.
 */
module Paths {
  import opened Wrappers
  import opened Text

  predicate IsSep(c: char) { c == '/' }

  predicate IsNotDot(c: char) { c != '.' }

  /**
   * The components `pathlib` keeps of a POSIX path: the texts between the `/`s, without the
   * empty ones (repeated, leading or trailing slashes) and without `.`.
   */
  function Parts(p: string): (r: seq<string>)
    ensures forall i :: 0 <= i < |r| ==> r[i] != [] && r[i] != "." && '/' !in r[i]
    decreases |p|
  {
    var i := LastIndexOf(p, '/');
    var last := p[i + 1..];
    assert '/' !in last by {
      forall k | 0 <= k < |last| ensures last[k] != '/' { assert last[k] == p[i + 1 + k]; }
    }
    var rest := if i < 0 then [] else Parts(p[..i]);
    if last == [] || last == "." then rest else rest + [last]
  }

  /**
   * `PurePosixPath(p).name`: the last component `pathlib` keeps, or the empty text when there
   * is none.
   */
  function Name(p: string): (r: string)
    ensures r == [] <==> Parts(p) == []
    ensures '/' !in r && r != "."
    ensures '/' !in p && p != "." ==> r == p
  {
    var parts := Parts(p);
    if parts == [] then [] else parts[|parts| - 1]
  }

  /** A trailing `/` does not change the name. */
  lemma NameSkipsTrailingSlash(p: string)
    ensures Name(p + "/") == Name(p)
  {
    assert LastIndexOf(p + "/", '/') == |p|;
    assert (p + "/")[..|p|] == p;
  }

  /** Nor does a trailing `.` component: `m.safetensors/.` is named `m.safetensors`. */
  lemma NameSkipsTrailingDot(p: string)
    ensures Name(p + "/.") == Name(p)
  {
    assert LastIndexOf(p + "/.", '/') == |p|;
    assert (p + "/.")[|p| + 1..] == ".";
    assert (p + "/.")[..|p|] == p;
  }

  /** A proper name joined under a directory is the name of the result. */
  lemma NameOfJoined(dir: string, n: string)
    requires n != [] && n != "." && '/' !in n
    ensures Name(dir + "/" + n) == n
  {
    var p := dir + "/" + n;
    assert p[|dir|] == '/';
    assert forall j :: |dir| < j < |p| ==> p[j] == n[j - |dir| - 1];
    assert LastIndexOf(p, '/') == |dir|;
    assert p[|dir| + 1..] == n;
  }

  /** `PurePath.suffix` of a name: from the last dot on, unless that dot is the first or the last character. */
  function Suffix(name: string): (r: string)
    ensures r != [] ==> 2 <= |r| < |name| && r[0] == '.' && EndsWith(name, r)
    ensures r != [] ==> '.' !in r[1..]
    ensures r == [] ==> LastIndexOf(name, '.') <= 0 || LastIndexOf(name, '.') == |name| - 1
  {
    var i := LastIndexOf(name, '.');
    if 0 < i < |name| - 1 then name[i..] else []
  }

  /** `PurePath.stem`: the name without its suffix. */
  function Stem(name: string): (r: string)
    ensures r + Suffix(name) == name
  {
    name[..|name| - |Suffix(name)|]
  }

  /** `PurePath.with_suffix(suffix)`, applied to the name; an empty name raises `ValueError`. */
  function WithSuffix(name: string, suffix: string): (r: Result<string>)
    ensures r.Err? <==> name == []
  {
    if name == [] then Err("has an empty name") else Ok(Stem(name) + suffix)
  }

  /**
   * `os.path.splitext` of a name without separators: the extension runs from the last dot,
   * provided some character before that dot is not a dot (so `.bashrc` has none).
   */
  function SplitExt(p: string): (r: (string, string))
    ensures r.0 + r.1 == p
    ensures r.1 != [] ==> r.1[0] == '.' && '.' !in r.1[1..]
    ensures r.1 != [] ==> exists i :: 0 <= i < |r.0| && r.0[i] != '.'
    ensures r.1 == [] ==> LastIndexOf(p, '.') < 0 || forall i :: 0 <= i < LastIndexOf(p, '.') ==> p[i] == '.'
  {
    var dot := LastIndexOf(p, '.');
    var first := FirstIndex(p, IsNotDot);
    if 0 <= dot && first < dot then
      assert p[..dot][first] != '.';
      (p[..dot], p[dot..])
    else (p, [])
  }

  /** `Path(dir) / name`: an empty `name` leaves `dir`, an absolute one replaces it. */
  function Join(dir: string, name: string): (r: string)
    ensures name == [] ==> r == dir
    ensures name != [] && IsSep(name[0]) ==> r == name
    ensures name != [] && !IsSep(name[0]) && dir != [] ==> StartsWith(r, dir) && EndsWith(r, "/" + name)
  {
    if name == [] then dir
    else if IsSep(name[0]) || dir == [] then name
    else if IsSep(dir[|dir| - 1]) then dir + name
    else dir + "/" + name
  }

  /** A name with a real suffix: `with_suffix` swaps it, so the temporary name is not the name plus `.part`. */
  lemma WithSuffixReplacesSuffix(name: string, suffix: string)
    requires Suffix(name) != []
    ensures WithSuffix(name, suffix) == Ok(Stem(name) + suffix)
    ensures WithSuffix(name, suffix) != Ok(name + suffix)
  {
    var swapped := Stem(name) + suffix;
    assert |swapped| < |name + suffix|;
    assert swapped != name + suffix;
  }

  /** The last dot of `stem + ext` is the dot that starts `ext`, when `ext` has no other. */
  lemma LastDotStartsExtension(stem: string, ext: string)
    requires ext != [] && ext[0] == '.' && '.' !in ext[1..]
    ensures LastIndexOf(stem + ext, '.') == |stem|
  {
    var s := stem + ext;
    assert s[|stem|] == '.';
    forall j | |stem| < j < |s| ensures s[j] != '.' {
      assert s[j] == ext[1..][j - |stem| - 1];
    }
  }

  /** A name `stem + ext` whose extension is a dot and at least one more character, after a non-empty stem. */
  lemma SuffixOfNamedFile(stem: string, ext: string)
    requires stem != [] && |ext| >= 2 && ext[0] == '.' && '.' !in ext[1..]
    ensures Suffix(stem + ext) == ext && Stem(stem + ext) == stem
  {
    LastDotStartsExtension(stem, ext);
    assert (stem + ext)[|stem|..] == ext;
  }

  /** `foo.safetensors` is downloaded into `foo.part`, while the free-name test looks at `foo.safetensors.part`. */
  lemma TempNameOfNamedFile(stem: string, ext: string)
    requires stem != [] && |ext| >= 2 && ext[0] == '.' && '.' !in ext[1..]
    ensures WithSuffix(stem + ext, ".part") == Ok(stem + ".part")
    ensures WithSuffix(stem + ext, ".part") != Ok(stem + ext + ".part")
  {
    SuffixOfNamedFile(stem, ext);
    WithSuffixReplacesSuffix(stem + ext, ".part");
  }
}

=== FILE: pna_middleware.dfy ===
/**
 * The HTTP middleware in front of the local web UI: it refuses cross-origin requests
 * from origins the gateway does not accept, answers CORS preflights itself, and adds
 * the CORS and Private Network Access headers to every other response.
 *
 * Header names are stored lower-cased, as the web framework's header map does, so a
 * map from names to values stands for a response's headers. The downstream handler is
 * the parameter `handler`; calling it is reported through `handlerCalled`.
 */
module PnaMiddleware {
  import opened Wrappers
  import opened Origins

  type Headers = map<string, string>

  datatype Request = Request(verb: string, origin: Option<string>)

  datatype Response = Response(status: int, headers: Headers)

  const AllowOrigin := "access-control-allow-origin"
  const VaryHeader := "vary"
  const AllowCredentials := "access-control-allow-credentials"
  const AllowMethods := "access-control-allow-methods"
  const AllowHeaders := "access-control-allow-headers"
  const AllowPrivateNetwork := "access-control-allow-private-network"
  const MaxAge := "access-control-max-age"

  /** The seven headers the middleware may write. */
  predicate IsCorsHeader(name: string) {
    name == AllowOrigin || name == VaryHeader || name == AllowCredentials || name == AllowMethods
    || name == AllowHeaders || name == AllowPrivateNetwork || name == MaxAge
  }

  lemma CorsHeaderNamesDistinct()
    ensures AllowOrigin != VaryHeader && AllowOrigin != AllowCredentials && AllowOrigin != AllowMethods
    ensures AllowOrigin != AllowHeaders && AllowOrigin != AllowPrivateNetwork && AllowOrigin != MaxAge
    ensures VaryHeader != AllowCredentials && VaryHeader != AllowMethods && VaryHeader != AllowHeaders
    ensures VaryHeader != AllowPrivateNetwork && VaryHeader != MaxAge
    ensures AllowCredentials != AllowMethods && AllowCredentials != AllowHeaders
    ensures AllowCredentials != AllowPrivateNetwork && AllowCredentials != MaxAge
    ensures AllowMethods != AllowHeaders && AllowMethods != AllowPrivateNetwork && AllowMethods != MaxAge
    ensures AllowHeaders != AllowPrivateNetwork && AllowHeaders != MaxAge && AllowPrivateNetwork != MaxAge
  {
    assert |AllowOrigin| == 27 && |VaryHeader| == 4 && |AllowCredentials| == 32 && |AllowMethods| == 28;
    assert |AllowHeaders| == 28 && |AllowPrivateNetwork| == 36 && |MaxAge| == 22;
    assert AllowMethods[21] != AllowHeaders[21];
  }

  /** The origin header counts only when it is present and non-empty. */
  predicate HasOrigin(req: Request) {
    req.origin.Some? && req.origin.value != []
  }

  /** The normalised origin the middleware echoes back, if any. */
  function EchoedOrigin(req: Request, devMode: bool, ip: string -> Option<bool>): Option<string> {
    if HasOrigin(req) then NormalizeOrigin(req.origin, devMode, ip) else None
  }

  /** A request is refused when it names an origin that does not normalise. */
  predicate Refused(req: Request, devMode: bool, ip: string -> Option<bool>) {
    HasOrigin(req) && NormalizeOrigin(req.origin, devMode, ip).None?
  }

  /** `headers[name] = value`. */
  function Put(h: Headers, name: string, value: string): Headers { h[name := value] }

  /** `headers.setdefault(name, value)`. */
  function PutIfAbsent(h: Headers, name: string, value: string): Headers {
    if name in h then h else h[name := value]
  }

  /** What a header ends with when `setdefault` wrote `dflt` over the handler's `base`. */
  function Defaulted(base: Headers, name: string, dflt: string): string {
    if name in base then base[name] else dflt
  }

  /** The header `name` is in `h` exactly as it was in `base` (present with the same value, or absent). */
  predicate KeptAsIs(base: Headers, h: Headers, name: string) {
    (name in h <==> name in base) && (name in base ==> h[name] == base[name])
  }

  /** The header-writing half of `dispatch`, applied to the chosen response's headers. */
  method AddCorsHeaders(base: Headers, echoed: Option<string>) returns (h: Headers)
    ensures echoed.Some? ==> AllowOrigin in h && h[AllowOrigin] == echoed.value
    ensures echoed.Some? ==> VaryHeader in h && h[VaryHeader] == "Origin"
    ensures echoed.Some? ==> AllowCredentials in h && h[AllowCredentials] == "true"
    ensures echoed.None? ==>
      KeptAsIs(base, h, AllowOrigin) && KeptAsIs(base, h, VaryHeader) && KeptAsIs(base, h, AllowCredentials)
    ensures AllowPrivateNetwork in h && h[AllowPrivateNetwork] == "true"
    ensures AllowMethods in h && h[AllowMethods] == Defaulted(base, AllowMethods, "GET,POST,PATCH,OPTIONS")
    ensures AllowHeaders in h && h[AllowHeaders] == Defaulted(base, AllowHeaders, "*")
    ensures MaxAge in h && h[MaxAge] == Defaulted(base, MaxAge, "600")
    ensures forall name :: !IsCorsHeader(name) ==> KeptAsIs(base, h, name)
  {
    CorsHeaderNamesDistinct();
    var echo := EchoHeaders(base, echoed);
    h := PolicyHeaders(echo);
    assert KeptAsIs(echo, h, AllowOrigin) && KeptAsIs(echo, h, VaryHeader) && KeptAsIs(echo, h, AllowCredentials);
    if echoed.None? {
      assert KeptAsIs(base, echo, AllowOrigin) && KeptAsIs(base, echo, VaryHeader) && KeptAsIs(base, echo, AllowCredentials);
    }
    assert KeptAsIs(base, echo, AllowMethods) && KeptAsIs(base, echo, AllowHeaders) && KeptAsIs(base, echo, MaxAge);
    forall name | !IsCorsHeader(name) ensures KeptAsIs(base, h, name) {
      assert KeptAsIs(base, echo, name) && KeptAsIs(echo, h, name);
    }
  }

  /** The three headers written only when an origin is echoed. */
  method EchoHeaders(base: Headers, echoed: Option<string>) returns (h: Headers)
    ensures echoed.Some? ==> AllowOrigin in h && h[AllowOrigin] == echoed.value
    ensures echoed.Some? ==> VaryHeader in h && h[VaryHeader] == "Origin"
    ensures echoed.Some? ==> AllowCredentials in h && h[AllowCredentials] == "true"
    ensures forall name :: (echoed.None? || (name != AllowOrigin && name != VaryHeader && name != AllowCredentials)) ==>
      KeptAsIs(base, h, name)
  {
    CorsHeaderNamesDistinct();
    h := base;
    if echoed.Some? {
      h := Put(h, AllowOrigin, echoed.value);
      h := Put(h, VaryHeader, "Origin");
      h := Put(h, AllowCredentials, "true");
    }
  }

  /** The four headers written on every response that reaches this point. */
  method PolicyHeaders(base: Headers) returns (h: Headers)
    ensures AllowPrivateNetwork in h && h[AllowPrivateNetwork] == "true"
    ensures AllowMethods in h && h[AllowMethods] == Defaulted(base, AllowMethods, "GET,POST,PATCH,OPTIONS")
    ensures AllowHeaders in h && h[AllowHeaders] == Defaulted(base, AllowHeaders, "*")
    ensures MaxAge in h && h[MaxAge] == Defaulted(base, MaxAge, "600")
    ensures forall name :: name != AllowMethods && name != AllowHeaders && name != AllowPrivateNetwork && name != MaxAge ==>
      KeptAsIs(base, h, name)
  {
    CorsHeaderNamesDistinct();
    h := PutIfAbsent(base, AllowMethods, "GET,POST,PATCH,OPTIONS");
    h := PutIfAbsent(h, AllowHeaders, "*");
    h := Put(h, AllowPrivateNetwork, "true");
    h := PutIfAbsent(h, MaxAge, "600");
  }

  /**
   * `PrivateNetworkMiddleware.dispatch`, with the dev-mode configuration flag as `devMode`
   * (it is what the gateway receives as `allow_private`).
   */
  method Dispatch(req: Request, devMode: bool, ip: string -> Option<bool>, handler: Request -> Response)
    returns (resp: Response, handlerCalled: bool)
    ensures Refused(req, devMode, ip) ==> resp == Response(403, map["content-length" := "0"]) && !handlerCalled
    ensures !Refused(req, devMode, ip) ==> handlerCalled == (req.verb != "OPTIONS")
    ensures !Refused(req, devMode, ip) ==> resp.status == if req.verb == "OPTIONS" then 204 else handler(req).status
    ensures !Refused(req, devMode, ip) ==>
      var base := if req.verb == "OPTIONS" then map[] else handler(req).headers;
      var echoed := EchoedOrigin(req, devMode, ip);
      && (echoed.Some? ==> AllowOrigin in resp.headers && resp.headers[AllowOrigin] == echoed.value)
      && (echoed.Some? ==> VaryHeader in resp.headers && resp.headers[VaryHeader] == "Origin")
      && (echoed.Some? ==> AllowCredentials in resp.headers && resp.headers[AllowCredentials] == "true")
      && (echoed.None? ==> KeptAsIs(base, resp.headers, AllowOrigin) && KeptAsIs(base, resp.headers, VaryHeader)
                           && KeptAsIs(base, resp.headers, AllowCredentials))
      && AllowPrivateNetwork in resp.headers && resp.headers[AllowPrivateNetwork] == "true"
      && AllowMethods in resp.headers && resp.headers[AllowMethods] == Defaulted(base, AllowMethods, "GET,POST,PATCH,OPTIONS")
      && AllowHeaders in resp.headers && resp.headers[AllowHeaders] == Defaulted(base, AllowHeaders, "*")
      && MaxAge in resp.headers && resp.headers[MaxAge] == Defaulted(base, MaxAge, "600")
      && (forall name :: !IsCorsHeader(name) ==> KeptAsIs(base, resp.headers, name))
  {
    var echoed := EchoedOrigin(req, devMode, ip);
    if HasOrigin(req) && echoed.None? {
      return Response(403, map["content-length" := "0"]), false;
    }

    if req.verb == "OPTIONS" {
      resp, handlerCalled := Response(204, map[]), false;
    } else {
      resp, handlerCalled := handler(req), true;
    }
    var h := AddCorsHeaders(resp.headers, echoed);
    resp := resp.(headers := h);
  }

  /** A request without an origin is never refused, whatever its peer address: there is no such check. */
  lemma NoOriginNeverRefused(req: Request, devMode: bool, ip: string -> Option<bool>)
    requires req.origin.None? || req.origin == Some("")
    ensures !Refused(req, devMode, ip) && EchoedOrigin(req, devMode, ip).None?
  {
  }

  /** In production mode every echoed origin is an HTTPS origin on the ArcEnCiel domain. */
  lemma ProductionEchoesOnlyArcenciel(req: Request, ip: string -> Option<bool>)
    requires EchoedOrigin(req, false, ip).Some?
    ensures Urls.Urlparse(req.origin.value).Ok?
    ensures Urls.Urlparse(req.origin.value).value.scheme == "https"
    ensures IsArcencielHost(OriginHost(Urls.Urlparse(req.origin.value).value))
  {
  }
}

=== FILE: text.dfy ===
/** The handful of Python `str` operations the link code relies on, on `seq<char>`. */
module Text {

  /** The characters Python's `str.isspace` accepts, which `str.strip()` removes. */
  predicate IsSpace(c: char) {
    || c == ' ' || c == '\t' || c == '\n' || c == '\r' || c == '\U{0B}' || c == '\U{0C}'
    || '\U{1C}' <= c <= '\U{1F}' || c == '\U{85}' || c == '\U{A0}' || c == '\U{1680}'
    || '\U{2000}' <= c <= '\U{200A}' || c == '\U{2028}' || c == '\U{2029}'
    || c == '\U{202F}' || c == '\U{205F}' || c == '\U{3000}'
  }

  predicate StartsWith(s: string, prefix: string) {
    |prefix| <= |s| && s[..|prefix|] == prefix
  }

  lemma StartsWithConcat(a: string, b: string)
    ensures StartsWith(a + b, a)
  {
    assert (a + b)[..|a|] == a;
  }

  predicate EndsWith(s: string, suffix: string) {
    |suffix| <= |s| && s[|s| - |suffix|..] == suffix
  }

  lemma EndsWithExtend(s: string, suffix: string, t: string)
    requires EndsWith(s, suffix)
    ensures EndsWith(s + t, suffix + t)
  {
    assert (s + t)[|s| - |suffix|..] == s[|s| - |suffix|..] + t;
  }

  /** `s.lstrip(chars)` for the set of characters `drop` accepts. */
  function DropWhile(s: string, drop: char -> bool): (r: string)
    ensures |r| <= |s| && r == s[|s| - |r|..]
    ensures r == [] || !drop(r[0])
    ensures forall i :: 0 <= i < |s| - |r| ==> drop(s[i])
  {
    if s != [] && drop(s[0]) then DropWhile(s[1..], drop) else s
  }

  /** `s.rstrip(chars)` for the set of characters `drop` accepts. */
  function DropWhileEnd(s: string, drop: char -> bool): (r: string)
    ensures |r| <= |s| && r == s[..|r|]
    ensures r == [] || !drop(r[|r| - 1])
    ensures forall i :: |r| <= i < |s| ==> drop(s[i])
  {
    if s != [] && drop(s[|s| - 1]) then DropWhileEnd(s[..|s| - 1], drop) else s
  }

  /** `s.lstrip()`. Stated without a contract so that stripping stays cheap wherever it appears. */
  function TrimStart(s: string): string {
    if s != [] && IsSpace(s[0]) then TrimStart(s[1..]) else s
  }

  /** `s.rstrip()`. */
  function TrimEnd(s: string): string {
    if s != [] && IsSpace(s[|s| - 1]) then TrimEnd(s[..|s| - 1]) else s
  }

  /** Python's `s.strip()`. */
  function Strip(s: string): string {
    TrimEnd(TrimStart(s))
  }

  lemma StripNoSpace(s: string)
    requires forall i :: 0 <= i < |s| ==> !IsSpace(s[i])
    ensures Strip(s) == s
  {
    assert TrimStart(s) == s;
  }

  lemma {:induction false} TrimStartBlank(s: string)
    ensures TrimStart(s) == [] <==> forall i :: 0 <= i < |s| ==> IsSpace(s[i])
    ensures TrimStart(s) != [] ==> !IsSpace(TrimStart(s)[0])
  {
    if s != [] && IsSpace(s[0]) {
      TrimStartBlank(s[1..]);
      assert forall i :: 1 <= i < |s| ==> s[i] == s[1..][i - 1];
    }
  }

  lemma {:induction false} TrimEndKeepsNonBlank(s: string)
    requires s != [] && !IsSpace(s[0])
    ensures TrimEnd(s) != []
  {
    if IsSpace(s[|s| - 1]) {
      TrimEndKeepsNonBlank(s[..|s| - 1]);
    }
  }

  /** Stripping leaves nothing exactly when the text is all white space. */
  lemma StripBlank(s: string)
    ensures Strip(s) == [] <==> forall i :: 0 <= i < |s| ==> IsSpace(s[i])
  {
    TrimStartBlank(s);
    if TrimStart(s) != [] {
      TrimEndKeepsNonBlank(TrimStart(s));
    }
  }

  /** `U+212A KELVIN SIGN`, the one non-ASCII character whose lower case is a single ASCII letter (`k`). */
  const KelvinSign: char := '\U{212A}'

  function LowerChar(c: char): char {
    if 'A' <= c <= 'Z' then (c as int + 32) as char
    else if c == KelvinSign then 'k'
    else c
  }

  /**
   * `s.lower()` as far as a comparison with ASCII text can tell: ASCII capitals and the Kelvin
   * sign become ASCII letters. Every other character Python lowers becomes non-ASCII text (U+0130
   * becomes `i` and a combining dot), so keeping it as it is gives the same answer to every
   * equality, suffix and membership test against ASCII text made here.
   */
  function Lower(s: string): (r: string)
    ensures |r| == |s| && forall i :: 0 <= i < |s| ==> r[i] == LowerChar(s[i])
  {
    seq(|s|, i requires 0 <= i < |s| => LowerChar(s[i]))
  }

  lemma LowerAppend(a: string, b: string)
    ensures Lower(a + b) == Lower(a) + Lower(b)
  {
  }

  /** Index of the first character `hit` accepts, or `|s|` when there is none (Python's `find` gives -1). */
  function FirstIndex(s: string, hit: char -> bool): (i: nat)
    ensures i <= |s|
    ensures i < |s| ==> hit(s[i])
    ensures forall j :: 0 <= j < i ==> !hit(s[j])
  {
    if s == [] then 0 else if hit(s[0]) then 0 else 1 + FirstIndex(s[1..], hit)
  }

  /** Index of the last occurrence of `c`, or -1. */
  function LastIndexOf(s: string, c: char): (i: int)
    ensures -1 <= i < |s|
    ensures 0 <= i ==> s[i] == c
    ensures forall j :: i < j < |s| ==> s[j] != c
  {
    if s == [] then -1 else if s[|s| - 1] == c then |s| - 1 else LastIndexOf(s[..|s| - 1], c)
  }

  predicate Contains(s: string, c: char) {
    c in s
  }

  /** Python's `s.partition(c)`: (before, whether `c` was found, after). */
  function Partition(s: string, c: char): (r: (string, bool, string))
    ensures !r.1 ==> r.0 == s && r.2 == [] && c !in s
    ensures r.1 ==> s == r.0 + [c] + r.2 && c !in r.0
  {
    var i := FirstIndex(s, x => x == c);
    if i == |s| then (s, false, []) else (s[..i], true, s[i + 1..])
  }

  lemma PartitionAbsent(s: string, c: char)
    requires c !in s
    ensures Partition(s, c) == (s, false, [])
  {
  }

  /** Python's `s.rpartition(c)`; only the part after the separator is ever used here. */
  function AfterLast(s: string, c: char): (r: string)
    ensures c !in r
    ensures EndsWith(s, r)
    ensures c !in s ==> r == s
    ensures |r| < |s| ==> s[|s| - |r| - 1] == c
  {
    var i := LastIndexOf(s, c);
    s[i + 1..]
  }

  /** Python's `s.replace(pattern, replacement)`: leftmost, non-overlapping occurrences. */
  function ReplaceAll(s: string, pattern: string, replacement: string): string
    requires pattern != []
    decreases |s|
  {
    if |s| < |pattern| then s
    else if s[..|pattern|] == pattern then replacement + ReplaceAll(s[|pattern|..], pattern, replacement)
    else [s[0]] + ReplaceAll(s[1..], pattern, replacement)
  }

  predicate OccursAt(s: string, pattern: string, i: nat) {
    i + |pattern| <= |s| && s[i..i + |pattern|] == pattern
  }

  /** Replacing a pattern that does not occur changes nothing. */
  lemma {:induction false} ReplaceAbsent(s: string, pattern: string, replacement: string)
    requires pattern != []
    requires forall i: nat :: !OccursAt(s, pattern, i)
    ensures ReplaceAll(s, pattern, replacement) == s
  {
    if |s| >= |pattern| {
      assert !OccursAt(s, pattern, 0);
      assert s[0..|pattern|] == s[..|pattern|];
      forall i: nat ensures !OccursAt(s[1..], pattern, i) {
        if i + |pattern| <= |s[1..]| {
          assert s[1..][i..i + |pattern|] == s[i + 1..i + 1 + |pattern|];
          assert !OccursAt(s, pattern, i + 1);
        }
      }
      ReplaceAbsent(s[1..], pattern, replacement);
    }
  }

  /** Every occurrence the scan meets is replaced, so a string that starts with the pattern starts with the replacement. */
  lemma ReplaceAtStart(s: string, pattern: string, replacement: string)
    requires pattern != [] && StartsWith(s, pattern)
    ensures ReplaceAll(s, pattern, replacement)
         == replacement + ReplaceAll(s[|pattern|..], pattern, replacement)
  {
  }

  /** `[c for c in s if not drop(c)]`. */
  function Filter(s: string, drop: char -> bool): (r: string)
    ensures |r| <= |s|
    ensures forall c :: c in r ==> c in s && !drop(c)
  {
    if s == [] then [] else (if drop(s[0]) then [] else [s[0]]) + Filter(s[1..], drop)
  }

  lemma {:induction false} FilterKeeps(s: string, drop: char -> bool)
    requires forall i :: 0 <= i < |s| ==> !drop(s[i])
    ensures Filter(s, drop) == s
  {
    if s != [] { FilterKeeps(s[1..], drop); }
  }

  // ----- decimal numerals (Python's `str(n)` / `int(s)` for naturals) -----

  predicate IsDigit(c: char) { '0' <= c <= '9' }

  predicate AllDigits(s: string) { forall i :: 0 <= i < |s| ==> IsDigit(s[i]) }

  function DigitChar(d: nat): (c: char)
    requires d < 10
    ensures IsDigit(c) && c as int - '0' as int == d
  {
    ('0' as int + d) as char
  }

  /** `str(n)`: no sign, no leading zero. */
  function Decimal(n: nat): (r: string)
    ensures r != [] && AllDigits(r)
    ensures |r| > 1 ==> r[0] != '0'
  {
    if n < 10 then [DigitChar(n)] else Decimal(n / 10) + [DigitChar(n % 10)]
  }

  function ParseDigits(s: string): nat
    requires AllDigits(s)
  {
    if s == [] then 0 else 10 * ParseDigits(s[..|s| - 1]) + (s[|s| - 1] as int - '0' as int)
  }

  lemma {:induction false} DecimalRoundTrip(n: nat)
    ensures ParseDigits(Decimal(n)) == n
  {
    if n >= 10 {
      var r := Decimal(n);
      assert r[..|r| - 1] == Decimal(n / 10);
      DecimalRoundTrip(n / 10);
    }
  }

  /** Distinct numbers print differently, so `stem_1`, `stem_2`, ... are all different names. */
  lemma DecimalInjective(a: nat, b: nat)
    requires Decimal(a) == Decimal(b)
    ensures a == b
  {
    DecimalRoundTrip(a);
    DecimalRoundTrip(b);
  }
}

=== FILE: urls.dfy ===
/**
 * The part of Python's `urllib.parse` the link code leans on: `urlsplit`, `urlparse` (which
 * also splits `;params` off the path), `urlunparse` and the `hostname` property of a parse
 * result. The splitting follows Python 3.11.4 and later (leading C0 controls and spaces are
 * stripped) except for one check those releases add: the text between `[` and `]` in a netloc is
 * not validated as an IPv6 or IPvFuture address (`_check_bracketed_host`), so `http://[foo]`
 * splits here where Python raises `ValueError`.
 */
module Urls {
  import opened Wrappers
  import opened Text

  datatype Parsed = Parsed(scheme: string, netloc: string, path: string, params: string, query: string, fragment: string)

  /** The characters `urlsplit` strips from the front of a URL: C0 controls and space. */
  predicate IsC0OrSpace(c: char) { c as int <= 0x20 }

  /** Tab, CR and LF are deleted from anywhere in the URL. */
  predicate IsUnsafe(c: char) { c == '\t' || c == '\r' || c == '\n' }

  predicate IsAsciiAlpha(c: char) { 'A' <= c <= 'Z' || 'a' <= c <= 'z' }

  predicate IsSchemeChar(c: char) { IsAsciiAlpha(c) || IsDigit(c) || c == '+' || c == '-' || c == '.' }

  /** Schemes whose paths may carry `;params` (the module's `uses_params`). */
  const UsesParams: set<string> := {"", "ftp", "hdl", "prospero", "http", "imap", "https", "shttp", "rtsp",
                                    "rtspu", "sip", "sips", "mms", "sftp", "tel"}

  /** Schemes written with a `//netloc` part (the module's `uses_netloc`). */
  const UsesNetloc: set<string> := {"", "ftp", "http", "gopher", "nntp", "telnet", "imap", "wais", "file", "mms",
                                    "https", "shttp", "snews", "prospero", "rtsp", "rtspu", "rsync", "svn",
                                    "svn+ssh", "sftp", "nfs", "git", "git+ssh", "ws", "wss"}

  /** The URL after leading C0/space is stripped and tab, CR and LF are removed. */
  function Cleaned(url: string): (r: string)
    ensures forall i :: 0 <= i < |r| ==> !IsUnsafe(r[i])
  {
    Filter(DropWhile(url, IsC0OrSpace), IsUnsafe)
  }

  /** Splits `url` (already cleaned) into its scheme and the rest, as `urlsplit` does. */
  function SplitScheme(url: string): (r: (string, string))
    ensures r.0 == [] ==> r.1 == url
    ensures r.0 != [] ==> |r.0| < |url| && url[|r.0|] == ':' && r.0 == Lower(url[..|r.0|]) && r.1 == url[|r.0| + 1..]
  {
    var i := FirstIndex(url, IsColon);
    if 0 < i < |url| && IsAsciiAlpha(url[0]) && forall j :: 0 <= j < i ==> IsSchemeChar(url[j]) then
      (Lower(url[..i]), url[i + 1..])
    else ([], url)
  }

  predicate IsColon(c: char) { c == ':' }

  predicate IsSemicolon(c: char) { c == ';' }

  predicate IsNetlocEnd(c: char) { c == '/' || c == '?' || c == '#' }

  /** After the scheme: a `//netloc` part up to the first `/`, `?` or `#`, and what follows it. */
  function SplitNetloc(rest: string): (r: (string, string))
    ensures StartsWith(rest, "//") ==> "//" + r.0 + r.1 == rest && (r.1 == [] || IsNetlocEnd(r.1[0]))
    ensures !StartsWith(rest, "//") ==> r == ([], rest)
  {
    if StartsWith(rest, "//") then
      var tail := rest[2..];
      var k := FirstIndex(tail, IsNetlocEnd);
      assert rest == "//" + tail[..k] + tail[k..];
      (tail[..k], tail[k..])
    else ([], rest)
  }

  predicate UnbalancedBrackets(netloc: string) {
    ('[' in netloc && ']' !in netloc) || (']' in netloc && '[' !in netloc)
  }

  /** Path, query and fragment: the fragment follows the first `#`, the query the first `?` before it. */
  function SplitPathQueryFragment(rest: string): (r: (string, string, string))
    ensures '#' !in r.0 + r.1 && '?' !in r.0
  {
    var (beforeHash, _, fragment) := Partition(rest, '#');
    var (path, _, query) := Partition(beforeHash, '?');
    (path, query, fragment)
  }

  /** `urlsplit`; the error is the `ValueError` it raises for unbalanced brackets in the netloc. */
  function Urlsplit(url: string): (r: Result<Parsed>)
    ensures r.Ok? ==> r.value.params == [] && !UnbalancedBrackets(r.value.netloc)
    ensures r.Ok? ==> '#' !in r.value.path + r.value.query && '?' !in r.value.path
  {
    var schemeAndRest := SplitScheme(Cleaned(url));
    var netlocAndRest := SplitNetloc(schemeAndRest.1);
    if UnbalancedBrackets(netlocAndRest.0) then Err("Invalid IPv6 URL")
    else
      var pqf := SplitPathQueryFragment(netlocAndRest.1);
      Ok(Parsed(schemeAndRest.0, netlocAndRest.0, pqf.0, [], pqf.1, pqf.2))
  }

  /** `urlparse`: `urlsplit`, then `;params` split off the last path segment for the schemes that use them. */
  function Urlparse(url: string): (r: Result<Parsed>)
    ensures Urlsplit(url).Err? <==> r.Err?
    ensures r.Ok? ==> r.value.scheme == Urlsplit(url).value.scheme && r.value.netloc == Urlsplit(url).value.netloc
  {
    match Urlsplit(url)
    case Err(e) => Err(e)
    case Ok(p) =>
      if p.scheme in UsesParams && ';' in p.path then
        var (path, params) := SplitParams(p.path);
        Ok(p.(path := path, params := params))
      else Ok(p)
  }

  /** `_splitparams`: the first `;` of the last segment (or of the whole path if it has no `/`). */
  function SplitParams(path: string): (r: (string, string))
    ensures (';' in path && r.0 + [';'] + r.1 == path) || (r.0 == path && r.1 == [])
  {
    var slash := LastIndexOf(path, '/');
    var start := if slash < 0 then 0 else slash;
    var i := FirstIndex(path[start..], IsSemicolon);
    if i == |path[start..]| then (path, [])
    else
      assert path == path[..start + i] + [';'] + path[start + i + 1..];
      (path[..start + i], path[start + i + 1..])
  }

  /** `urlunsplit`, with `urlunparse`'s re-attachment of non-empty params. */
  function Urlunparse(p: Parsed): (r: string)
    ensures p.scheme != [] ==> StartsWith(r, p.scheme + ":")
  {
    var path := if p.params != [] then p.path + ";" + p.params else p.path;
    var url :=
      if p.netloc != [] || (p.scheme != [] && p.scheme in UsesNetloc && !StartsWith(path, "//")) then
        "//" + p.netloc + (if path != [] && path[0] != '/' then "/" + path else path)
      else path;
    var query := if p.query != [] then "?" + p.query else [];
    var fragment := if p.fragment != [] then "#" + p.fragment else [];
    var tail := url + query + fragment;
    if p.scheme != [] then
      StartsWithConcat(p.scheme + ":", tail);
      (p.scheme + ":") + tail
    else tail
  }

  /** The host part of a netloc: after the last `@`, inside brackets or before the port. */
  function HostInfo(netloc: string): (host: string)
    ensures '@' !in host
  {
    var hostinfo := AfterLast(netloc, '@');
    var (_, bracket, bracketed) := Partition(hostinfo, '[');
    if bracket then Partition(bracketed, ']').0 else Partition(hostinfo, ':').0
  }

  /** The `hostname` property: None when empty, lowered up to any `%zone` suffix. */
  function Hostname(netloc: string): (r: Option<string>)
    ensures r.None? <==> HostInfo(netloc) == []
    ensures r.Some? ==> |r.value| == |HostInfo(netloc)|
  {
    var host := HostInfo(netloc);
    if host == [] then None
    else
      var (name, percent, zone) := Partition(host, '%');
      assert |name| + (if percent then 1 + |zone| else 0) == |host|;
      Some(Lower(name) + (if percent then "%" + zone else []))
  }

  /** What `urlsplit` sees once the scheme is found: the scheme is what precedes the first colon. */
  lemma SchemeOfPrefixed(scheme: string, rest: string)
    requires scheme != [] && IsAsciiAlpha(scheme[0])
    requires forall i :: 0 <= i < |scheme| ==> IsSchemeChar(scheme[i])
    ensures SplitScheme(scheme + ":" + rest) == (Lower(scheme), rest)
  {
    var url := scheme + ":" + rest;
    var i := FirstIndex(url, IsColon);
    assert url[|scheme|] == ':';
    assert forall j :: 0 <= j < |scheme| ==> url[j] != ':' by {
      forall j | 0 <= j < |scheme| ensures url[j] != ':' {
        assert url[j] == scheme[j] && IsSchemeChar(scheme[j]);
      }
    }
    assert i == |scheme|;
    assert url[..i] == scheme;
    assert url[i + 1..] == rest;
  }

  /** Characters of an ordinary DNS name: letters, digits, `-` and `.`. */
  predicate IsHostChar(c: char) { IsAsciiAlpha(c) || IsDigit(c) || c == '-' || c == '.' }

  predicate IsPlainHost(host: string) {
    host != [] && forall i :: 0 <= i < |host| ==> IsHostChar(host[i])
  }

  lemma PlainHostLowered(host: string)
    requires IsPlainHost(host)
    ensures IsPlainHost(Lower(host))
    ensures forall i :: 0 <= i < |host| ==> !IsSpace(Lower(host)[i])
  {
    var lowered := Lower(host);
    forall i | 0 <= i < |host| ensures IsHostChar(lowered[i]) && !IsSpace(lowered[i]) {
      assert lowered[i] == LowerChar(host[i]);
    }
  }

  /** An ordinary name is its own host part, so its hostname is the name lower-cased. */
  lemma HostnameOfPlainHost(netloc: string)
    requires IsPlainHost(netloc)
    ensures Hostname(netloc) == Some(Lower(netloc))
  {
    assert '@' !in netloc && '[' !in netloc && ':' !in netloc && '%' !in netloc by {
      forall i | 0 <= i < |netloc| ensures netloc[i] != '@' && netloc[i] != '[' && netloc[i] != ':' && netloc[i] != '%' {
        assert IsHostChar(netloc[i]);
      }
    }
    assert AfterLast(netloc, '@') == netloc;
    PartitionAbsent(netloc, '[');
    PartitionAbsent(netloc, ':');
    PartitionAbsent(netloc, '%');
    assert HostInfo(netloc) == netloc;
    assert Lower(netloc) + [] == Lower(netloc);
  }

  /** A path made of host characters and slashes, empty or starting with `/`. */
  predicate IsPlainPath(path: string) {
    (path == [] || path[0] == '/') && forall i :: 0 <= i < |path| ==> IsHostChar(path[i]) || path[i] == '/'
  }

  lemma CleanedUnchanged(url: string)
    requires url != [] && !IsC0OrSpace(url[0])
    requires forall i :: 0 <= i < |url| ==> !IsUnsafe(url[i])
    ensures Cleaned(url) == url
  {
    FilterKeeps(url, IsUnsafe);
  }

  lemma NetlocOfHostPath(host: string, path: string)
    requires IsPlainHost(host) && IsPlainPath(path)
    ensures FirstIndex(host + path, IsNetlocEnd) == |host|
    ensures '[' !in host && ']' !in host
    ensures '#' !in path && '?' !in path && ';' !in path
  {
    var tail := host + path;
    assert forall j :: 0 <= j < |host| ==> !IsNetlocEnd(tail[j]) by {
      forall j | 0 <= j < |host| ensures !IsNetlocEnd(tail[j]) {
        assert tail[j] == host[j];
      }
    }
    if path != [] {
      assert tail[|host|] == path[0];
    }
    assert '[' !in host && ']' !in host by {
      forall j | 0 <= j < |host| ensures host[j] != '[' && host[j] != ']' {
        assert IsHostChar(host[j]);
      }
    }
    assert '#' !in path && '?' !in path && ';' !in path by {
      forall j | 0 <= j < |path| ensures path[j] != '#' && path[j] != '?' && path[j] != ';' {
        assert IsHostChar(path[j]) || path[j] == '/';
      }
    }
  }

  lemma SplitNetlocOfHostPath(host: string, path: string)
    requires IsPlainHost(host) && IsPlainPath(path)
    ensures SplitNetloc("//" + host + path) == (host, path)
    ensures !UnbalancedBrackets(host)
  {
    var rest := "//" + host + path;
    NetlocOfHostPath(host, path);
    assert rest[2..] == host + path;
    assert (host + path)[..|host|] == host && (host + path)[|host|..] == path;
  }

  lemma PathQueryFragmentOfPlainPath(path: string)
    requires '#' !in path && '?' !in path
    ensures SplitPathQueryFragment(path) == (path, [], [])
  {
    PartitionAbsent(path, '#');
    PartitionAbsent(path, '?');
  }

  lemma UrlsplitOfHostPath(url: string, scheme: string, host: string, path: string)
    requires IsPlainHost(host) && IsPlainPath(path)
    requires SplitScheme(Cleaned(url)) == (scheme, "//" + host + path)
    ensures Urlsplit(url) == Ok(Parsed(scheme, host, path, [], [], []))
  {
    SplitNetlocOfHostPath(host, path);
    NetlocOfHostPath(host, path);
    PathQueryFragmentOfPlainPath(path);
  }

  lemma SchemeHostPathIsClean(scheme: string, host: string, path: string)
    requires IsLowerScheme(scheme)
    requires IsPlainHost(host) && IsPlainPath(path)
    ensures Cleaned(scheme + "://" + host + path) == scheme + "://" + host + path
  {
    var url := scheme + "://" + host + path;
    forall i | 0 <= i < |url| ensures !IsUnsafe(url[i]) {
      if i < |scheme| + 3 {
      } else if i < |scheme| + 3 + |host| {
        assert url[i] == host[i - |scheme| - 3];
      } else {
        assert url[i] == path[i - |scheme| - 3 - |host|];
      }
    }
    CleanedUnchanged(url);
  }

  /** A scheme `urlsplit` recognises and leaves as it is: a letter, then scheme characters, all lower-case. */
  predicate IsLowerScheme(scheme: string) {
    && scheme != [] && IsAsciiAlpha(scheme[0])
    && (forall i :: 0 <= i < |scheme| ==> IsSchemeChar(scheme[i]))
    && Lower(scheme) == scheme
  }

  lemma WebSchemesAreLowerSchemes()
    ensures IsLowerScheme("http") && IsLowerScheme("https")
  {
  }

  /** `scheme://host/path` with ordinary characters parses back into exactly those parts. */
  lemma ParseSchemeHostPath(scheme: string, host: string, path: string)
    requires IsLowerScheme(scheme)
    requires IsPlainHost(host) && IsPlainPath(path)
    ensures Urlparse(scheme + "://" + host + path) == Ok(Parsed(scheme, host, path, [], [], []))
  {
    var rest := "//" + host + path;
    var url := scheme + "://" + host + path;
    assert url == scheme + ":" + rest;
    SchemeHostPathIsClean(scheme, host, path);
    SchemeOfPrefixed(scheme, rest);
    UrlsplitOfHostPath(url, scheme, host, path);
    NetlocOfHostPath(host, path);
    UrlparseWithoutParams(url);
  }

  /** `urlunparse` rebuilds an ordinary `scheme://host/path` from the parts `urlparse` gives it. */
  lemma PlainUrlRoundTrip(scheme: string, host: string, path: string)
    requires IsLowerScheme(scheme)
    requires IsPlainHost(host) && IsPlainPath(path)
    ensures Urlparse(scheme + "://" + host + path).Ok?
    ensures Urlunparse(Urlparse(scheme + "://" + host + path).value) == scheme + "://" + host + path
  {
    ParseSchemeHostPath(scheme, host, path);
    UnparseNetlocPath(Parsed(scheme, host, path, [], [], []));
  }

  /** With a netloc, an absolute or empty path and nothing else, `urlunparse` joins `scheme://netloc` and the path. */
  lemma UnparseNetlocPath(p: Parsed)
    requires p.scheme != [] && p.netloc != [] && (p.path == [] || p.path[0] == '/')
    requires p.params == [] && p.query == [] && p.fragment == []
    ensures Urlunparse(p) == p.scheme + "://" + p.netloc + p.path
  {
    var url := "//" + p.netloc + p.path;
    assert Urlunparse(p) == p.scheme + ":" + (url + [] + []);
    assert url + [] + [] == url;
  }

  /** A split path without `;` has no params to split off, whatever the scheme. */
  lemma UrlparseWithoutParams(url: string)
    requires Urlsplit(url).Ok? && ';' !in Urlsplit(url).value.path
    ensures Urlparse(url) == Urlsplit(url)
  {
  }

  lemma ParseSchemeHost(scheme: string, host: string)
    requires IsLowerScheme(scheme) && IsPlainHost(host)
    ensures Urlparse(scheme + "://" + host) == Ok(Parsed(scheme, host, [], [], [], []))
  {
    ParseSchemeHostPath(scheme, host, []);
    assert scheme + "://" + host + [] == scheme + "://" + host;
  }
}

=== FILE: utils.dfy ===
/**
 * The worker's view of the model folders: where a job's target path lands, which files count
 * as models, and the digest cache that spares rehashing files whose modification time has
 * not moved. File contents are opaque strings; the digest of a file is a function of its path.
 */
module Utils {
  import opened Wrappers
  import opened Text
  import opened Paths

  // ----- download_file -----

  /** The bytes of consecutive chunks, in order. */
  function Flatten(chunks: seq<string>): (r: string)
    ensures chunks == [] ==> r == []
  {
    if chunks == [] then [] else Flatten(chunks[..|chunks| - 1]) + chunks[|chunks| - 1]
  }

  lemma {:induction false} FlattenPrefixGrows(chunks: seq<string>, i: nat, j: nat)
    requires i <= j <= |chunks|
    ensures |Flatten(chunks[..i])| <= |Flatten(chunks[..j])|
    decreases j - i
  {
    if i < j {
      FlattenPrefixGrows(chunks, i, j - 1);
      assert chunks[..j][..j - 1] == chunks[..j - 1];
    }
  }

  /**
   * `download_file`: writes every chunk to the destination and, when the announced content
   * length is non-zero, calls back after each chunk with the byte count so far (the callback
   * receives that count divided by `total`).
   */
  method DownloadFile(total: int, chunks: seq<string>) returns (written: string, reports: seq<nat>)
    ensures written == Flatten(chunks)
    ensures total == 0 ==> reports == []
    ensures total != 0 ==> |reports| == |chunks|
    ensures total != 0 ==> forall i :: 0 <= i < |chunks| ==> reports[i] == |Flatten(chunks[..i + 1])|
  {
    written, reports := [], [];
    var done := 0;
    for i := 0 to |chunks|
      invariant written == Flatten(chunks[..i]) && done == |written|
      invariant total == 0 ==> reports == []
      invariant total != 0 ==> |reports| == i
      invariant total != 0 ==> forall k :: 0 <= k < i ==> reports[k] == |Flatten(chunks[..k + 1])|
    {
      assert chunks[..i + 1][..i] == chunks[..i];
      written := written + chunks[i];
      done := done + |chunks[i]|;
      if total != 0 {
        reports := reports + [done];
      }
    }
    assert chunks[..|chunks|] == chunks;
  }

  /** The bytes of two runs of chunks are the bytes of the first run followed by those of the second. */
  lemma {:induction false} FlattenAppend(a: seq<string>, b: seq<string>)
    ensures Flatten(a + b) == Flatten(a) + Flatten(b)
    decreases |b|
  {
    if b == [] {
      assert a + b == a;
    } else {
      FlattenAppend(a, b[..|b| - 1]);
      assert (a + b)[..|a + b| - 1] == a + b[..|b| - 1];
    }
  }

  /**
   * Progress never goes backwards and never passes the bytes written; what a report has not
   * counted yet is exactly what the later chunks bring, so the last report counts them all.
   */
  lemma DownloadReportsClimbToTotal(chunks: seq<string>, i: nat, j: nat)
    requires i <= j < |chunks|
    ensures |Flatten(chunks[..i + 1])| <= |Flatten(chunks[..j + 1])| <= |Flatten(chunks)|
    ensures |Flatten(chunks[..j + 1])| + |Flatten(chunks[j + 1..])| == |Flatten(chunks)|
    ensures j == |chunks| - 1 ==> |Flatten(chunks[..j + 1])| == |Flatten(chunks)|
  {
    FlattenPrefixGrows(chunks, i + 1, j + 1);
    FlattenAppend(chunks[..j + 1], chunks[j + 1..]);
    assert chunks[..j + 1] + chunks[j + 1..] == chunks;
  }

  // ----- which files are models -----

  /** `MODEL_EXTS`. */
  const ModelExts: set<string> := {".safetensors", ".ckpt", ".pt"}

  predicate IsModelExt(ext: string) { ext in ModelExts }

  /** The test in `_iter_model_files`: the lower-cased suffix of the file name is a model extension. */
  predicate HasModelExt(path: string) {
    IsModelExt(Lower(Suffix(Name(path))))
  }

  /** `foo.SafeTensors` is a model whatever the case of its extension. */
  lemma ModelExtIgnoresCase(stem: string, ext: string)
    requires stem != [] && '/' !in stem && |ext| >= 2 && ext[0] == '.' && '.' !in ext[1..] && '/' !in ext
    ensures HasModelExt(stem + ext) <==> IsModelExt(Lower(ext))
  {
    assert '/' !in stem + ext;
    SuffixOfNamedFile(stem, ext);
  }

  /** `.C\u212APT`, spelt with the Kelvin sign, lowers to `.ckpt`, so such a file is a model. */
  lemma KelvinSignCheckpointIsModel(stem: string)
    requires stem != [] && '/' !in stem
    ensures HasModelExt(stem + ['.', 'C', KelvinSign, 'P', 'T'])
  {
    var ext := ['.', 'C', KelvinSign, 'P', 'T'];
    assert '.' !in ext[1..] && '/' !in ext by {
      assert ext[1..] == ['C', KelvinSign, 'P', 'T'];
    }
    assert Lower(ext) == ".ckpt" by {
      var lowered := Lower(ext);
      assert lowered[0] == '.' && lowered[1] == 'c' && lowered[2] == 'k' && lowered[3] == 'p' && lowered[4] == 't';
    }
    ModelExtIgnoresCase(stem, ext);
  }

  /** A name ending in a bare dot, or without any, is never a model: its suffix is empty. */
  lemma NoSuffixNoModel(path: string)
    requires Suffix(Name(path)) == []
    ensures !HasModelExt(path)
  {
    assert Lower(Suffix(Name(path))) == [];
    EmptyIsNoModelExt();
  }

  lemma EmptyIsNoModelExt()
    ensures !IsModelExt([])
  {
  }

  /** One entry of a recursive `glob` under a model directory. */
  datatype Found = Found(path: string, isFile: bool, mtime: int)

  /** `_iter_model_files`: the regular files with a model extension, in the order the scan met them. */
  function ModelFiles(found: seq<Found>): (r: seq<Found>)
    ensures |r| <= |found|
    ensures forall f :: f in r ==> f in found && f.isFile && HasModelExt(f.path)
    ensures forall f :: f in found && f.isFile && HasModelExt(f.path) ==> f in r
  {
    if found == [] then []
    else
      var init, last := found[..|found| - 1], found[|found| - 1];
      assert found == init + [last];
      ModelFiles(init) + (if last.isFile && HasModelExt(last.path) then [last] else [])
  }

  // ----- override directories -----

  /** The four directory options the web UI accepts, each missing or set to some text. */
  datatype DirOpts = DirOpts(ckptDir: Option<string>, loraDir: Option<string>, vaeDir: Option<string>, embeddingsDir: Option<string>)

  /** Python truthiness of an optional string: set and non-empty. */
  predicate IsSet(o: Option<string>) { o.Some? && o.value != [] }

  predicate AnySet(o: DirOpts) { IsSet(o.ckptDir) || IsSet(o.loraDir) || IsSet(o.vaeDir) || IsSet(o.embeddingsDir) }

  /** Every option that is present is also non-empty. */
  predicate OnlySet(o: DirOpts) {
    (o.ckptDir.Some? ==> IsSet(o.ckptDir)) && (o.loraDir.Some? ==> IsSet(o.loraDir))
    && (o.vaeDir.Some? ==> IsSet(o.vaeDir)) && (o.embeddingsDir.Some? ==> IsSet(o.embeddingsDir))
  }

  /** The options that are set, with the unset ones turned into `None`. */
  function SetOnly(o: DirOpts): (r: DirOpts)
    ensures OnlySet(r) && (AnySet(r) <==> AnySet(o))
  {
    DirOpts(if IsSet(o.ckptDir) then o.ckptDir else None, if IsSet(o.loraDir) then o.loraDir else None,
            if IsSet(o.vaeDir) then o.vaeDir else None, if IsSet(o.embeddingsDir) then o.embeddingsDir else None)
  }

  const NoOpts := DirOpts(None, None, None, None)

  /**
   * `_cmd_opts`: the options the web UI's `shared.cmd_opts` carries (`shared` is `None` when that
   * module cannot be imported); only when none of them is set is `COMMANDLINE_ARGS` parsed, by
   * `parseArgs`, which stands for `shlex.split` followed by `argparse` and fails with the
   * `ValueError` `shlex.split` raises (an unclosed quotation, a trailing escape).
   */
  method CmdOpts(shared: Option<DirOpts>, commandLineArgs: Option<string>, parseArgs: string -> Result<DirOpts>)
    returns (opts: Result<DirOpts>)
    ensures opts.Ok? ==> OnlySet(opts.value)
    ensures shared.Some? && AnySet(shared.value) ==> opts == Ok(SetOnly(shared.value))
    ensures (shared.None? || !AnySet(shared.value)) && IsSet(commandLineArgs) ==>
      match parseArgs(commandLineArgs.value)
      case Ok(args) => opts == Ok(SetOnly(args))
      case Err(e) => opts == Err(e)
    ensures (shared.None? || !AnySet(shared.value)) && !IsSet(commandLineArgs) ==> opts == Ok(NoOpts)
  {
    var found := NoOpts;
    if shared.Some? {
      var co := shared.value;
      if IsSet(co.ckptDir) { found := found.(ckptDir := co.ckptDir); }
      if IsSet(co.loraDir) { found := found.(loraDir := co.loraDir); }
      if IsSet(co.vaeDir) { found := found.(vaeDir := co.vaeDir); }
      if IsSet(co.embeddingsDir) { found := found.(embeddingsDir := co.embeddingsDir); }
    }
    if !AnySet(found) && IsSet(commandLineArgs) {
      var parsed := parseArgs(commandLineArgs.value);
      if parsed.Err? {
        return Err(parsed.error);
      }
      var args := parsed.value;
      if IsSet(args.ckptDir) { found := found.(ckptDir := args.ckptDir); }
      if IsSet(args.loraDir) { found := found.(loraDir := args.loraDir); }
      if IsSet(args.vaeDir) { found := found.(vaeDir := args.vaeDir); }
      if IsSet(args.embeddingsDir) { found := found.(embeddingsDir := args.embeddingsDir); }
    }
    opts := Ok(found);
  }

  /** The directories an option set names. */
  function OptionDirs(o: DirOpts): (r: set<string>)
    ensures forall d :: d in r ==> d != []
  {
    (if IsSet(o.ckptDir) then {o.ckptDir.value} else {}) + (if IsSet(o.loraDir) then {o.loraDir.value} else {})
    + (if IsSet(o.vaeDir) then {o.vaeDir.value} else {}) + (if IsSet(o.embeddingsDir) then {o.embeddingsDir.value} else {})
  }

  /** The four standard model directories under the web UI root. */
  function DefaultDirs(root: string): set<string> {
    {Join(root, "models/Stable-diffusion"), Join(root, "models/Lora"), Join(root, "models/VAE"), Join(root, "embeddings")}
  }

  /**
   * `_get_model_dirs`: the standard directories, the shared options and, whenever
   * `COMMANDLINE_ARGS` is non-empty, the parsed ones too — unlike `_cmd_opts`, which consults the
   * command line only as a fallback; of these, the ones that exist. The parse is not guarded, so
   * its error is the result.
   */
  function ModelDirs(root: string, shared: Option<DirOpts>, commandLineArgs: string,
                     parseArgs: string -> Result<DirOpts>, present: string -> bool): (r: Result<set<string>>)
    ensures r.Err? <==> commandLineArgs != [] && parseArgs(commandLineArgs).Err?
    ensures r.Err? ==> r.error == parseArgs(commandLineArgs).error
    ensures r.Ok? ==> forall d :: d in r.value <==>
      (present(d) && (d in DefaultDirs(root) || (shared.Some? && d in OptionDirs(shared.value))
                      || (commandLineArgs != [] && d in OptionDirs(parseArgs(commandLineArgs).value))))
  {
    var parsed := if commandLineArgs != [] then parseArgs(commandLineArgs) else Ok(NoOpts);
    if parsed.Err? then Err(parsed.error)
    else
      var dirs := DefaultDirs(root) + (if shared.Some? then OptionDirs(shared.value) else {}) + OptionDirs(parsed.value);
      Ok(set d | d in dirs && present(d))
  }

  // ----- get_model_path -----

  /** The separators `lstrip("/\\")` removes after a matched prefix. */
  predicate IsPathSep(c: char) { c == '/' || c == '\\' }

  /** A configured directory, or its standard place under the root. */
  function DirOr(o: Option<string>, root: string, standard: string): string {
    if IsSet(o) then o.value else Join(root, standard)
  }

  /** The prefixes `get_model_path` knows, in the order it tries them. */
  const Prefixes: seq<string> := ["models/Stable-diffusion", "models/Lora", "models/VAE", "embeddings"]

  /** The directory each prefix maps to: the configured one, or its standard place under the root. */
  function PrefixDirs(root: string, opts: DirOpts): (d: seq<string>)
    ensures |d| == |Prefixes|
  {
    [DirOr(opts.ckptDir, root, Prefixes[0]), DirOr(opts.loraDir, root, Prefixes[1]),
     DirOr(opts.vaeDir, root, Prefixes[2]), DirOr(opts.embeddingsDir, root, Prefixes[3])]
  }

  /** The position of the first prefix the target starts with, `|prefixes|` when there is none. */
  function MatchIndex(prefixes: seq<string>, target: string): (i: nat)
    ensures i <= |prefixes|
    ensures i < |prefixes| ==> StartsWith(target, prefixes[i])
    ensures forall j :: 0 <= j < i ==> !StartsWith(target, prefixes[j])
  {
    if prefixes == [] then 0
    else if StartsWith(target, prefixes[0]) then 0
    else 1 + MatchIndex(prefixes[1..], target)
  }

  /**
   * `get_model_path`: the directory of the first known prefix the target starts with (a plain
   * string test, so `models/Lorax` counts as `models/Lora`), joined with the rest of the target;
   * otherwise the target under the root.
   */
  function GetModelPath(root: string, opts: DirOpts, target: string): (r: string)
    ensures (forall j :: 0 <= j < |Prefixes| ==> !StartsWith(target, Prefixes[j])) ==> r == Join(root, target)
    ensures forall i :: FirstMatch(target, i) ==>
      var tail := DropWhile(target[|Prefixes[i]|..], IsPathSep);
      r == if tail == [] then PrefixDirs(root, opts)[i] else Join(PrefixDirs(root, opts)[i], tail)
  {
    var i := MatchIndex(Prefixes, target);
    if i < |Prefixes| then
      assert forall k :: FirstMatch(target, k) ==> k == i;
      var tail := DropWhile(target[|Prefixes[i]|..], IsPathSep);
      if tail == [] then PrefixDirs(root, opts)[i] else Join(PrefixDirs(root, opts)[i], tail)
    else Join(root, target)
  }

  /** `Prefixes[i]` is the first known prefix the target starts with. */
  predicate FirstMatch(target: string, i: int) {
    0 <= i < |Prefixes| && StartsWith(target, Prefixes[i]) && forall j :: 0 <= j < i ==> !StartsWith(target, Prefixes[j])
  }

  lemma MatchIndexIs(prefixes: seq<string>, target: string, i: nat)
    requires i < |prefixes| && StartsWith(target, prefixes[i])
    requires forall j :: 0 <= j < i ==> !StartsWith(target, prefixes[j])
    ensures MatchIndex(prefixes, target) == i
  {
  }

  /** Dropping leading separators from `/` followed by a name that does not start with one. */
  lemma DropSeparatorBefore(sub: string)
    requires sub != [] && !IsPathSep(sub[0])
    ensures DropWhile("/" + sub, IsPathSep) == sub
  {
    assert ("/" + sub)[1..] == sub;
  }

  /** A sub-folder of the LoRA folder lands in the configured LoRA directory. */
  lemma LoraTargetUsesLoraDir(root: string, opts: DirOpts, sub: string)
    requires sub != [] && !IsPathSep(sub[0])
    ensures GetModelPath(root, opts, "models/Lora/" + sub) == Join(DirOr(opts.loraDir, root, "models/Lora"), sub)
  {
    var target := "models/Lora/" + sub;
    assert StartsWith(target, Prefixes[1]) by { assert target[..11] == "models/Lora"; }
    assert !StartsWith(target, Prefixes[0]) by {
      if |target| >= 23 { assert target[..23][7] == 'L'; }
    }
    MatchIndexIs(Prefixes, target, 1);
    assert target[11..] == "/" + sub;
    DropSeparatorBefore(sub);
  }

  /** The prefix test is plain `startswith`: `models/Lorax` goes into the LoRA directory as `x`. */
  lemma LoraPrefixSwallowsLongerName(root: string, opts: DirOpts)
    ensures GetModelPath(root, opts, "models/Lorax") == Join(DirOr(opts.loraDir, root, "models/Lora"), "x")
  {
    var target := "models/Lorax";
    assert StartsWith(target, Prefixes[1]) by { assert target[..11] == "models/Lora"; }
    assert !StartsWith(target, Prefixes[0]);
    MatchIndexIs(Prefixes, target, 1);
    assert target[11..] == "x";
  }

  lemma FirstCharDiffers(s: string, prefix: string)
    requires s != [] && prefix != [] && s[0] != prefix[0]
    ensures !StartsWith(s, prefix)
  {
    if |prefix| <= |s| {
      assert s[..|prefix|][0] == s[0];
    }
  }

  /** An absolute target matches no prefix, so it is joined to the root, which leaves it as it is. */
  lemma AbsoluteTargetKept(root: string, opts: DirOpts, target: string)
    requires target != [] && target[0] == '/'
    ensures GetModelPath(root, opts, target) == target
  {
    assert Prefixes[0][0] == 'm' && Prefixes[1][0] == 'm' && Prefixes[2][0] == 'm' && Prefixes[3][0] == 'e';
    forall j | 0 <= j < |Prefixes| ensures !StartsWith(target, Prefixes[j]) {
      FirstCharDiffers(target, Prefixes[j]);
    }
  }

  // ----- list_model_hashes -----

  /** A cache entry: the integer modification time the digest was taken at, and the digest. */
  datatype Entry = Entry(mtime: int, hash: string)

  /** Where the scan has got to: the cache so far, the digests so far, and whether the cache changed. */
  datatype Scan = Scan(cache: map<string, Entry>, hashes: seq<string>, updated: bool)

  /** A cached digest is reused exactly when its entry carries the file's current modification time. */
  predicate CachedFresh(cache: map<string, Entry>, f: Found) {
    f.path in cache && cache[f.path].mtime == f.mtime
  }

  /** One turn of the scan loop of `list_model_hashes`. */
  function ScanStep(s: Scan, f: Found, digest: string -> string): (t: Scan)
    ensures |t.hashes| == |s.hashes| + 1
  {
    if CachedFresh(s.cache, f) then Scan(s.cache, s.hashes + [s.cache[f.path].hash], s.updated)
    else Scan(s.cache[f.path := Entry(f.mtime, digest(f.path))], s.hashes + [digest(f.path)], true)
  }

  /** The scan loop of `list_model_hashes` over the model files, file by file. */
  function ScanFiles(cache: map<string, Entry>, files: seq<Found>, digest: string -> string): (s: Scan)
    ensures |s.hashes| == |files|
  {
    if files == [] then Scan(cache, [], false)
    else ScanStep(ScanFiles(cache, files[..|files| - 1], digest), files[|files| - 1], digest)
  }

  lemma ScanFilesAppend(cache: map<string, Entry>, files: seq<Found>, f: Found, digest: string -> string)
    ensures ScanFiles(cache, files + [f], digest) == ScanStep(ScanFiles(cache, files, digest), f, digest)
  {
    assert (files + [f])[..|files|] == files;
  }

  lemma ModelFilesAppend(found: seq<Found>, i: nat)
    requires i < |found|
    ensures ModelFiles(found[..i + 1])
      == ModelFiles(found[..i]) + (if found[i].isFile && HasModelExt(found[i].path) then [found[i]] else [])
  {
    assert found[..i + 1][..i] == found[..i];
  }

  predicate DistinctPaths(files: seq<Found>) {
    forall i, j :: 0 <= i < j < |files| ==> files[i].path != files[j].path
  }

  /** The digest the cache gives for a file, or a fresh one. */
  function HashFor(cache: map<string, Entry>, f: Found, digest: string -> string): string {
    if CachedFresh(cache, f) then cache[f.path].hash else digest(f.path)
  }

  /** An entry whose path the scan never meets is left exactly as it was. */
  lemma {:induction false} ScanKeepsOthers(cache: map<string, Entry>, files: seq<Found>, digest: string -> string, k: string)
    requires forall i :: 0 <= i < |files| ==> files[i].path != k
    ensures k in ScanFiles(cache, files, digest).cache <==> k in cache
    ensures k in cache ==> ScanFiles(cache, files, digest).cache[k] == cache[k]
  {
    if files != [] {
      ScanKeepsOthers(cache, files[..|files| - 1], digest, k);
    }
  }

  /**
   * With each file met once, the scan yields for every file its cached digest when the entry's
   * time matches and a fresh digest otherwise, and leaves an entry with the file's current time.
   */
  lemma {:induction false} ScanReusesFreshEntries(cache: map<string, Entry>, files: seq<Found>, digest: string -> string, i: nat)
    requires DistinctPaths(files) && i < |files|
    ensures ScanFiles(cache, files, digest).hashes[i] == HashFor(cache, files[i], digest)
    ensures files[i].path in ScanFiles(cache, files, digest).cache
    ensures ScanFiles(cache, files, digest).cache[files[i].path] == Entry(files[i].mtime, HashFor(cache, files[i], digest))
  {
    var n := |files| - 1;
    var init := files[..n];
    assert DistinctPaths(init);
    if i == n {
      ScanKeepsOthers(cache, init, digest, files[n].path);
    } else {
      ScanReusesFreshEntries(cache, init, digest, i);
      assert init[i] == files[i];
    }
  }

  /** The cache changes during the scan exactly when some file had no entry with its current time. */
  lemma {:induction false} ScanUpdatedIffStale(cache: map<string, Entry>, files: seq<Found>, digest: string -> string)
    requires DistinctPaths(files)
    ensures ScanFiles(cache, files, digest).updated <==> exists i :: 0 <= i < |files| && !CachedFresh(cache, files[i])
  {
    if files != [] {
      var n := |files| - 1;
      var init := files[..n];
      assert DistinctPaths(init);
      ScanUpdatedIffStale(cache, init, digest);
      ScanKeepsOthers(cache, init, digest, files[n].path);
      if exists i :: 0 <= i < n && !CachedFresh(cache, init[i]) {
        var i :| 0 <= i < n && !CachedFresh(cache, init[i]);
        assert files[i] == init[i];
      }
      if exists i :: 0 <= i < |files| && !CachedFresh(cache, files[i]) {
        var i :| 0 <= i < |files| && !CachedFresh(cache, files[i]);
        if i < n { assert init[i] == files[i]; }
      }
    }
  }

  /** Scanning the same files again right away reuses every digest and leaves the cache alone. */
  lemma RescanReusesEverything(cache: map<string, Entry>, files: seq<Found>, digest: string -> string)
    requires DistinctPaths(files)
    ensures var first := ScanFiles(cache, files, digest);
      !ScanFiles(first.cache, files, digest).updated && ScanFiles(first.cache, files, digest).hashes == first.hashes
  {
    var first := ScanFiles(cache, files, digest);
    var second := ScanFiles(first.cache, files, digest);
    forall i | 0 <= i < |files|
      ensures CachedFresh(first.cache, files[i]) && second.hashes[i] == first.hashes[i]
    {
      ScanReusesFreshEntries(cache, files, digest, i);
      ScanReusesFreshEntries(first.cache, files, digest, i);
    }
    ScanUpdatedIffStale(first.cache, files, digest);
  }

  /** The entries whose path still exists; the others are the orphans `list_model_hashes` deletes. */
  function Prune(cache: map<string, Entry>, present: string -> bool): (r: map<string, Entry>)
    ensures forall k :: k in r <==> k in cache && present(k)
    ensures forall k :: k in r ==> r[k] == cache[k]
  {
    map k | k in cache && present(k) :: cache[k]
  }

  lemma PruneNothing(cache: map<string, Entry>, present: string -> bool)
    requires !HasOrphans(cache, present)
    ensures Prune(cache, present) == cache
  {
  }

  /** Some entry's path no longer exists. */
  predicate HasOrphans(cache: map<string, Entry>, present: string -> bool) {
    exists k :: k in cache && !present(k)
  }

  /** The scan of `list_model_hashes` starting from the cache as loaded from the file. */
  function AfterScan(stored: Option<map<string, Entry>>, found: seq<Found>, digest: string -> string): Scan {
    ScanFiles(stored.GetOr(map[]), ModelFiles(found), digest)
  }

  /**
   * The digest cache and `list_model_hashes`' own copy of the known digests. `stored` is the
   * cache file: `None` when it is missing or cannot be parsed, which loads as an empty cache.
   */
  class HashIndex {
    var stored: Option<map<string, Entry>>
    var known: set<string>
    /** How many times the cache file was written. */
    var saves: nat

    constructor (stored: Option<map<string, Entry>>)
      ensures this.stored == stored && known == {} && saves == 0
    {
      this.stored := stored;
      known := {};
      saves := 0;
    }

    /**
     * The index after a scan that found `found`: the known digests are the ones found, and the
     * cache was written, pruned of vanished files, exactly when the scan changed it or pruning does.
     */
    twostate predicate Listed(found: seq<Found>, digest: string -> string, present: string -> bool)
      reads this
    {
      var s := AfterScan(old(stored), found, digest);
      && known == set h | h in s.hashes
      && (if s.updated || HasOrphans(s.cache, present)
          then stored == Some(Prune(s.cache, present)) && saves == old(saves) + 1
          else stored == old(stored) && saves == old(saves))
    }

    /**
     * `list_model_hashes`: one digest per model file in scan order, reusing cached digests whose
     * time matches; entries of vanished files are pruned and the cache is written back only
     * when something in it changed. `listing` is the recursive listing of the directories
     * `ModelDirs` gives, or the error computing them raises, which ends the call after the known
     * digests were cleared and before anything was written.
     */
    method ListModelHashes(listing: Result<seq<Found>>, digest: string -> string, present: string -> bool)
      returns (result: Result<seq<string>>)
      modifies this
      ensures listing.Err? ==> result == Err(listing.error) && known == {} && stored == old(stored) && saves == old(saves)
      ensures listing.Ok? ==> result == Ok(AfterScan(old(stored), listing.value, digest).hashes)
      ensures listing.Ok? ==> Listed(listing.value, digest, present)
    {
      known := {};
      if listing.Err? {
        return Err(listing.error);
      }
      var found := listing.value;
      var cache := stored.GetOr(map[]);
      ghost var loaded := cache;
      var updated := false;
      var hashes := [];
      for i := 0 to |found|
        invariant ScanFiles(loaded, ModelFiles(found[..i]), digest) == Scan(cache, hashes, updated)
        invariant stored == old(stored) && saves == old(saves)
      {
        ModelFilesAppend(found, i);
        var f := found[i];
        if f.isFile && HasModelExt(f.path) {
          ScanFilesAppend(loaded, ModelFiles(found[..i]), f, digest);
          var h;
          if f.path in cache && cache[f.path].mtime == f.mtime {
            h := cache[f.path].hash;
          } else {
            h := digest(f.path);
            cache := cache[f.path := Entry(f.mtime, h)];
            updated := true;
          }
          hashes := hashes + [h];
        } else {
          assert ModelFiles(found[..i + 1]) == ModelFiles(found[..i]);
        }
      }
      assert found[..|found|] == found;
      assert AfterScan(old(stored), found, digest) == Scan(cache, hashes, updated);
      if HasOrphans(cache, present) {
        cache := Prune(cache, present);
        updated := true;
      } else {
        PruneNothing(cache, present);
      }
      if updated {
        stored := Some(cache);
        saves := saves + 1;
      }
      known := set h | h in hashes;
      result := Ok(hashes);
    }
  }
}

=== FILE: wrappers.dfy ===
/** Option and Result: the model's stand-ins for Python's None and raised exceptions. */
module Wrappers {

  datatype Option<+T> = None | Some(value: T) {
    function GetOr(default: T): T {
      match this
      case Some(v) => v
      case None => default
    }
  }

  /** `Err` carries the message the Python code would raise (its `str(exc)`). */
  datatype Result<+T> = Ok(value: T) | Err(error: string)
}
